=== FILE: README.md ===
# banners-management, modelled in Dafny

A model of the core of banners-management, an HTTP service that stores
banners, each attached to one feature and to several tags, and serves the
banner for a (feature, tag) pair to users and admins. The model covers:

- the Postgres storage:
  - the SQL text and positional arguments that the list read and the update build;
  - the grouping of joined rows into banners;
  - the single-banner read with its "not found" and "not unique" outcomes;
  - the update transaction;
  - the tag INSERT statement.
- the redis cache:
  - the typed `Get`/`Set` over a key-value store;
  - the three-state cache item (exists, not found, known not to exist);
  - the cache-aside reader that fills the cache after a store read.
- the delete-by-feature-and-tag propagator, which publishes a JSON message on a redis channel and deletes when the message is heard.
- two generations of the banner service, and how each maps storage errors to service errors.
- the update request DTOs of both generations.
- the query-parameter parsers.
- the request-context accessors.
- error flattening.
- the connection settings.

Collaborators (database, redis, the wrapped storage readers and writers,
the validator) are function parameters or their answers; effects are
returned as values:
- the queries a lookup sent;
- the cache keys it read;
- the write it scheduled;
- the message it published.

## Model

| member | source | states |
|---|---|---|
| RedisCache.NewCacheItem | internal/cache/redis/redis.go:34-39 | the item holds exactly the given value and status |
| RedisCache.Get | internal/cache/redis/redis.go:80-98 | an unreachable server is a "cache.redis.Get" error; a missing key is the zero value with status "not found" and no error; a stored item reads back as itself; undecodable bytes are an error |
| RedisCache.Set | internal/cache/redis/redis.go:64-75 | a marshal failure or an unreachable server is a "cache.redis.Set" error and changes nothing; otherwise the key holds the encoded item with the given expiry and every other key is untouched |
| RedisCache.GetAfterSet | internal/cache/redis/redis.go:64-98 | after a successful Set, Get under the same key returns the same item |
| RedisCache.SetKeepsOtherKeys | internal/cache/redis/redis.go:64-98 | a Set under one key does not change what Get reads under any other key |
| RedisCache.FailedSetInvisible | internal/cache/redis/redis.go:64-75 | a Set that reports an error changes nothing Get can observe |
| CachedBanner.ParseKey | internal/service/banner/cached_banner.go:26-28 | only a text containing the colon separator is read as a key |
| CachedBanner.ToRedisKeyFormat | internal/service/banner/cached_banner.go:26-28 | the key text "feature:tag" reads back as the same (feature, tag) |
| CachedBanner.KeyRoundTrip | internal/service/banner/cached_banner.go:26-28 | the key text of (feature, tag) reads back as that (feature, tag) |
| CachedBanner.KeyInjective | internal/service/banner/cached_banner.go:26-28 | distinct (feature, tag) pairs are cached under distinct keys |
| CachedBanner.FetchAndFill | internal/service/banner/cached_banner.go:83-111 | one store read, no cache read; the answer is the store's; a cache write is scheduled exactly when the store found the banner or reported "not found", under the pair's key with the five-minute TTL, as status "exists" with the banner or "not exists" with nil |
| CachedBanner.BannerByFeatureTag | internal/service/banner/cached_banner.go:53-81 | "use last revision" goes straight to the store without touching the cache; otherwise the key is read once; a get error or "not found" falls back to the store and fills the cache; "exists" returns the cached banner; "not exists" returns "not found" without a store read; any other status returns the cached value |
| CachedBanner.BannersByFeatureTag | internal/service/banner/cached_banner.go:44-51 | the list read passes the wrapped reader's answer through unchanged |
| CachedBanner.CacheTransparent | internal/service/banner/cached_banner.go:53-111 | behind a cache that agrees with the store on a pair, a lookup answers exactly what the store answers |
| CachedBanner.LookupKeepsAgreement | internal/service/banner/cached_banner.go:83-111 | whatever a lookup writes about a pair agrees with the store, whether or not the write succeeds |
| CachedBanner.OtherKeyKeepsAgreement | internal/service/banner/cached_banner.go:100-108 | a write under another pair's key leaves agreement on this pair intact |
| CachedBanner.LookupKeepsCoherence | internal/service/banner/cached_banner.go:53-111 | a cache that agrees with the store on every pair still does after any lookup |
| CachedBanner.SecondLookupHitsCache | internal/service/banner/cached_banner.go:71-77 | after a lookup's write lands, the next lookup of the pair makes no store read and gives the same answer |
| CachedBanner.RacyFetchResult | internal/service/banner/cached_banner.go:91-110 | as written: the goroutine's Set may assign the shared `err` before it is returned; when it does not run first the answer is the store's |
| CachedBanner.RaceLosesNotFound | internal/service/banner/cached_banner.go:92-110 | as written, a "not found" that loses the race is returned as a nil banner with a nil error; the corrected lookup returns "not found" |
| CachedBanner.RaceLosesBanner | internal/service/banner/cached_banner.go:99-110 | as written, a found banner whose cache write fails first is returned with the Set error; the corrected lookup returns the banner |
| Repo.Lift | internal/service/banner/cached_banner.go:91-97 | a store read that returns a banner is seen as a non-nil banner; its errors are kept |
| Errors.Wrap | internal/storage/pgs/update.go:37 | prefixing the component keeps a sentinel recognisable and prefixes the message of any other error |
| BannerService.SaveBanner | internal/service/banner/banner.go:58-78 | an invalid request fails validation without calling the saver; a valid one is sent to the saver; success returns the saver's id; "already exists" is reported as such; any other failure is "not saved" |
| BannerService.BannerByFeatureTag | internal/service/banner/banner.go:82-111 | succeeds exactly when the reader found a banner that is active or is asked for by an admin; "not found" and "not unique" keep their meaning; other failures and a nil banner without error are unknown errors; a user asking for an inactive banner gets "not active" |
| BannerService.BannersByFeatureTag | internal/service/banner/banner.go:115-128 | the reader's list unchanged, or an unknown error |
| BannerService.DeleteBanner | internal/service/banner/banner.go:132-150 | id 0 fails validation before the deleter is called; otherwise the deleter is called with the id; "not found" is kept; any other failure is unknown |
| BannerService.UpdateBanner | internal/service/banner/banner.go:154-177 | an invalid request fails validation without calling the updater; a valid one converts the DTO with the path id and sends it; "not found" and "already exists" are kept; any other failure is unknown |
| BannerService.DeleteBannerByFeatureTag | internal/service/banner/banner.go:179-181 | does nothing and reports success |
| BannerService.UsersSeeOnlyActive | internal/service/banner/banner.go:103-110 | a user is only ever handed an active banner |
| BannerService.AdminSeesMore | internal/service/banner/banner.go:82-111 | an admin gets whatever a user gets; a failure for an admin is the same failure for a user |
| BannerService.CacheInvisibleToService | internal/service/banner/cached_banner.go:53-111 | behind an agreeing cache, the service answers as it would over the store directly |
| BannerService.RaceReportsUnknown | internal/service/banner/banner.go:88-100 | the race's nil banner without error reaches the user as an unknown error, where the store's answer gives "not found" |
| LegacyService.SaveBanner | internal/service/banner.go:55-75 | as the newer service, but with the storage package's "already exists" sentinel |
| LegacyService.BannersByFeatureTag | internal/service/banner.go:114-127 | the reader's list unchanged; any reader failure is reported as "not unique" |
| LegacyService.BannerByFeatureTag | internal/service/banner.go:79-110 | the list read gets all five filters; its error is dropped, so a failing read is "not found"; no banner is "not found"; several are "not unique"; a user is refused an inactive sole banner |
| LegacyService.DeleteBanner | internal/service/banner.go:131-149 | id 0 fails validation first; storage's "not found" is kept; any other failure is unknown |
| LegacyService.UpdateBanner | internal/service/banner.go:153-173 | storage's "not found" is kept; any other failure, "already exists" included, is unknown |
| LegacyService.DeleteBannerByFeatureTag | internal/service/banner.go:175-177 | does nothing and reports success |
| LegacyService.SingleAnswer | internal/service/banner.go:87-100 | a list read counts as a single-banner success exactly when it has one banner |
| LegacyService.GenerationsAgree | internal/service/banner.go:79-110 | when the list read succeeds, the older service's answer is the newer one's over the corresponding single read, up to the errors' names |
| LegacyService.SaveGenerationsAgree | internal/service/banner.go:55-75 | over the same saver, the older service sends the same request and gives the newer one's answer, up to the errors' names |
| LegacyService.DeleteGenerationsAgree | internal/service/banner.go:131-149 | over the same deleter, both call it alike and agree up to the errors' names |
| LegacyService.UpdateGenerationsDiffer | internal/service/banner.go:153-173 | over the same updater both send the same banner and succeed together; they agree up to the errors' names except on "already exists", which only the newer service keeps |
| LegacyService.ListGenerationsDiffer | internal/service/banner.go:114-127 | both pass the same list through; a failure is "not unique" in the older service and unknown in the newer one |
| LegacyService.UpdateSentinelsReachOnlyNewer | internal/service/banner.go:153-173 | over the Postgres update transaction, a missing row is "not found" and a trigger at commit "already exists" for the newer service, and both are unknown for the older one |
| ModelDto.ToModel | internal/model/dto/banner/update.go:23-43 | the id is the path id; without content, title, text and url are unset; with content, they are copied; feature, activity and tags are copied; no timestamps |
| ModelDto.Normalize | internal/model/dto/banner/update.go:23-43 | an empty content object is dropped |
| ModelDto.FromModel | internal/model/dto/banner/update.go:23-43 | the request a banner comes from carries content only when it sets something |
| ModelDto.FromToModel | internal/model/dto/banner/update.go:23-43 | converting and reading back gives the request, up to an empty content object |
| ModelDto.ToFromModel | internal/model/dto/banner/update.go:23-43 | every updatable banner without timestamps is the conversion of a request |
| ModelDto.ToModelInjective | internal/model/dto/banner/update.go:23-43 | two requests convert to the same banner exactly when the ids agree and the requests agree up to an empty content object |
| ModelsDto.ToModel | internal/models/dto/banner/update.go:18-38 | the same conversion in the second generation's types |
| ModelsDto.GenerationsAgree | internal/models/dto/banner/update.go:18-38 | both generations convert the same request to the same banner |
| JobDelayer.SplitFields | internal/service/banner/job_delayer.go:19-22 | a split payload is reassembled from its pieces exactly |
| JobDelayer.Number | internal/service/banner/job_delayer.go:20-21 | a decoded number is one whose decimal rendering is the text |
| JobDelayer.Decode | internal/service/banner/job_delayer.go:19-22 | a payload it reads is `{"feature_id":` the feature in decimal `,"tag_id":` the tag in decimal `}`, byte for byte |
| JobDelayer.Fields | internal/service/banner/job_delayer.go:19-22 | the two number texts of a payload in the shape the encoder writes |
| JobDelayer.DecodeEncode | internal/service/banner/job_delayer.go:19-22 | every encoded message decodes to itself |
| JobDelayer.DecodeOnlyEncodings | internal/service/banner/job_delayer.go:19-22 | a payload that decodes is the encoding of what it decodes to |
| JobDelayer.DecodeIff | internal/service/banner/job_delayer.go:19-22 | a payload decodes to a message exactly when it is that message's encoding |
| JobDelayer.DeleteBanner | internal/service/banner/job_delayer.go:47-49 | the wrapped deleter's answer, unchanged |
| JobDelayer.DeleteByFeatureTag | internal/service/banner/job_delayer.go:51-62 | publishes one message on the deleter channel that decodes to the (feature, tag); a failed publish is an unknown error, a successful one is no error |
| JobDelayer.Listen | internal/service/banner/job_delayer.go:64-88 | a message on another channel is skipped; one on the channel is a delete of what its payload decodes to, and nothing if it does not decode |
| JobDelayer.PublishListenRoundTrip | internal/service/banner/job_delayer.go:51-88 | a message published for (feature, tag) is heard as a delete of that (feature, tag) |
| JobDelayer.DeletesAppend | internal/service/banner/job_delayer.go:64-88 | two runs of the listener one after the other make the deletes of both |
| JobDelayer.DeletesAtMostOnePerMessage | internal/service/banner/job_delayer.go:64-88 | a run makes at most one delete per message |
| JobDelayer.Published | internal/service/banner/job_delayer.go:51-62 | one message per publish request |
| JobDelayer.PublishedAreDeleted | internal/service/banner/job_delayer.go:51-88 | delivering all that was published deletes every requested (feature, tag) exactly as often as it was requested |
| JobDelayer.ForeignMessagesIgnored | internal/service/banner/job_delayer.go:66-68 | messages on other channels add no delete |
| ReadMany.BannersByFeatureTag | internal/storage/pgs/read_many.go:17-62 | the query is the exact text BuildReadManyQuery writes; its arguments are the present filters in the order feature, tag, limit, offset, and its placeholders are $1..$n; a failing query reports its error under the component name; otherwise the rows are grouped |
| ReadMany.GroupRows | internal/storage/pgs/read_many.go:34-61 | the first failed scan is reported; otherwise the banners stand for exactly the rows' ids and tags in order, each has a tag, neighbours differ in id, their rows are the rows when rows of one id agree, and ids increase when the rows come ordered by id |
| ReadMany.NoRowsNoBanners | internal/storage/pgs/read_many.go:34-61 | no rows give an empty list of banners and no error |
| ReadMany.GroupInvariant | internal/storage/pgs/read_many.go:52-58 | grouping any list of scanned rows meets the loop invariant |
| ReadMany.GroupStep | internal/storage/pgs/read_many.go:52-58 | one row keeps the invariant, whether it extends the last banner or starts a new one |
| ReadMany.WhereFilters | internal/storage/pgs/read_many.go:92-107 | binds feature then tag, each under the next placeholder; appends " WHERE b.feature_id = $k " for a feature, then " AND " (after a feature) or " WHERE " (without one) and " bt.tag_id = $k " for a tag; nothing without them |
| ReadMany.Paging | internal/storage/pgs/read_many.go:109-119 | binds limit then offset, each under the next placeholder, appending " LIMIT $k " before " OFFSET $k " |
| ReadMany.GetBannersQuery | internal/storage/pgs/read_many.go:80-122 | the exact text: the SELECT over banner, the banner_tag JOIN exactly when a tag is given, the feature and tag conditions (AND only when both are given), then LIMIT and OFFSET; arguments in that order and placeholders $1..$n |
| ReadMany.FilteredSelect | internal/storage/pgs/read_many.go:80-122 | the same exact text for any plain SELECT and JOIN text |
| ReadMany.FilteredShape | internal/storage/pgs/read_many.go:86-107 | in that text, the JOIN follows the SELECT exactly when a tag is given, and a WHERE follows exactly when a feature or tag is given |
| ReadMany.WhereTextStarts | internal/storage/pgs/read_many.go:92-107 | the condition text is empty without filters and starts with " WHERE " otherwise |
| ReadMany.BuildReadManyQuery | internal/storage/pgs/read_many.go:67-78 | the exact inner text wrapped as a CTE ordered by banner and tag; arguments and placeholders unchanged |
| ReadOne.BannerByFeatureTag | internal/storage/pgs/read_one.go:12-78 | the query binds feature and tag; a failing query reports its error; otherwise the rows decide as in CollectTags |
| ReadOne.CollectTags | internal/storage/pgs/read_one.go:33-77 | no rows is "not found"; success exactly when every row scans with the first row's id, giving the first row's banner with every row's tag; the first failed scan or differing id decides the error |
| ReadOne.FirstBreakUnique | internal/storage/pgs/read_one.go:54-74 | the row that ends the loop is the only first break, so the reported error is determined |
| BannerTag.TagsQuery | internal/storage/pgs/common/bannertag/insert_tags.go:16-31 | the value tuples joined by ", ", one per tag, in tag order |
| BannerTag.InsertTagsQuery | internal/storage/pgs/common/bannertag/insert_tags.go:9-14 | no tags is the empty statement; otherwise the INSERT prefix and the tuples |
| BannerTag.InsertLength | internal/storage/pgs/common/bannertag/insert_tags.go:9-31 | the statement's length is the prefix, every tuple, and one separator per neighbouring pair |
| BannerTag.ParseTuple | internal/storage/pgs/common/bannertag/insert_tags.go:19-23 | a tuple that reads is parenthesised |
| BannerTag.TupleRoundTrip | internal/storage/pgs/common/bannertag/insert_tags.go:19-23 | every tuple reads back as its banner id and tag id |
| BannerTag.TupleInjective | internal/storage/pgs/common/bannertag/insert_tags.go:19-23 | distinct pairs give distinct tuples |
| BannerTag.InsertHasNoPlaceholders | internal/storage/pgs/update.go:48 | the tag statement is sent without arguments and has no placeholder to want one |
| UpdateQuery.BuildUpdateBannerQuery | internal/storage/pgs/update.go:70-115 | "UPDATE banner SET ", one numbered clause per set field, the timestamp, the id condition; the arguments are the set fields' values in clause order; placeholders are $1..$n |
| UpdateQuery.BuildSetList | internal/storage/pgs/update.go:76-114 | the same over any list of assignments to known columns |
| UpdateQuery.WriteClauses | internal/storage/pgs/update.go:78-106 | each clause binds its value under the next placeholder |
| UpdateQuery.SetClause | internal/storage/pgs/update.go:78-106 | a clause for a known column holds exactly one placeholder, the number it was given |
| UpdateQuery.WhereId | internal/storage/pgs/update.go:112 | " WHERE id = ", the id in decimal, ";": plain text whose number reads back as the id |
| UpdateQuery.SelectSound | internal/storage/pgs/update.go:78-106 | every assignment is for a set field and binds that field's value |
| UpdateQuery.SelectComplete | internal/storage/pgs/update.go:78-106 | every set field gets an assignment |
| UpdateQuery.SelectOrdered | internal/storage/pgs/update.go:78-106 | the assignments keep the column order |
| UpdateQuery.AssignmentsExact | internal/storage/pgs/update.go:78-106 | the SET list holds a column exactly when its field is set, with the field's value, in the fixed order, so no column twice |
| UpdateQuery.UpdateBatch | internal/storage/pgs/update.go:42-49 | the UPDATE alone, or with new tags also the tag delete and the tag insert |
| UpdateQuery.UpdateBanner | internal/storage/pgs/update.go:19-67 | a failed begin or lock reports its error and sends nothing; a missing row is "not found"; otherwise it sends the UPDATE with its exact text and arguments, and the tag delete and re-insert exactly when TagIDs is given; a trigger exception at commit is "already exists"; any other failure is reported under the component name |
| SqlText.AddParam | internal/storage/pgs/read_many.go:93-95 | writes text and the next placeholder, binds the argument, and keeps the placeholders numbered $1..$n |
| SqlText.AppendText | internal/storage/pgs/read_many.go:86-89 | fixed text adds no placeholder and binds nothing |
| SqlText.PlaceholdersConcat | internal/storage/pgs/update.go:76-112 | the placeholders of two texts, the first not ending in an unfinished one, are those of each in turn |
| Decimal.FormatParseRoundTrip | internal/service/banner/cached_banner.go:27 | the decimal rendering of every int64 parses back to it |
| Decimal.FormatIntInjective | internal/service/banner/cached_banner.go:27 | distinct int64s render differently |
| ApiParse.Parse | internal/lib/api/parse.go:36-50 | a nil target panics; an empty input is "empty parameter: " and the name; a parser failure is "unacceptable format for parameter " and the name; on error the target is unchanged; otherwise the parsed value is stored |
| ApiParse.ParseBool | internal/lib/api/parse.go:28-30 | exactly the six true spellings give true and the six false spellings give false |
| ApiParse.ParseInt64 | internal/lib/api/parse.go:12-16 | a nil target panics; success exactly when the text is a base-10 int64, which is then stored; on error the target is unchanged |
| ApiParse.ParseIntParam | internal/lib/api/parse.go:21-23 | the same with `strconv.Atoi` |
| ApiParse.ParseBoolParam | internal/lib/api/parse.go:28-30 | a nil target panics; success exactly when the text is one of Go's twelve boolean spellings, storing true exactly for the six true ones; on error the target is unchanged |
| ApiParse.ParseInt64RoundTrip | internal/lib/api/parse.go:12-16 | every int64 written in decimal is stored back |
| ApiParse.ParseIntRoundTrip | internal/lib/api/parse.go:21-23 | the same for the `int` parameters |
| ApiParse.ParseBoolRoundTrip | internal/lib/api/parse.go:28-30 | both booleans, written as Go writes them, are stored back |
| ApiParse.MessagesNameParameter | internal/lib/api/msg/api.go:15-22 | a message determines its kind and its parameter: an empty parameter's message never equals a malformed one's, and each names its parameter |
| ApiRequest.CtxValue | internal/lib/api/request.go:38-44 | the stored string, or "" when nothing is stored |
| ApiRequest.RequestID | internal/lib/api/request.go:13-16 | the innermost request id bound in the context, or "" when none is |
| ApiRequest.SetRequestID | internal/lib/api/request.go:18-23 | the request's bindings with the request id bound to the new value and every other key unchanged |
| ApiRequest.UserRole | internal/lib/api/request.go:25-28 | the innermost role bound in the context, or "" when none is |
| ApiRequest.SetUserRole | internal/lib/api/request.go:30-35 | the request's bindings with the role bound to the new value and every other key unchanged |
| ApiRequest.ValueIsBinding | internal/lib/api/request.go:38-44 | reading a context finds exactly the innermost binding of the key |
| ApiRequest.RequestIdRoundTrip | internal/lib/api/request.go:14-23 | a request id that was set is read back |
| ApiRequest.RoleRoundTrip | internal/lib/api/request.go:26-35 | a role that was set is read back |
| ApiRequest.SettersIndependent | internal/lib/api/request.go:14-35 | setting one value leaves the other as it was |
| ApiRequest.LaterSetShadows | internal/lib/api/request.go:14-35 | a later set of the same key wins |
| ApiRequest.AbsentReadsEmpty | internal/lib/api/request.go:38-44 | a context without the values reads both as "" |
| Er.Messages | internal/lib/er/error.go:17-21 | the messages of the wrapped errors, in order |
| Er.UnwrapSep | internal/lib/er/error.go:13-27 | an error that wraps no list shows its own message; an empty list shows as ""; one wrapped error shows its message; two show their messages with the separator between |
| Er.Unwrap | internal/lib/er/error.go:9-11 | the same with ", " as the separator |
| Er.SeparatorShowsOnlyBetween | internal/lib/er/error.go:13-27 | with at most one wrapped error the separator does not matter; with two or more, separators of different lengths give different texts |
| Er.UnwrapLength | internal/lib/er/error.go:13-27 | nothing wrapped shows as ""; n messages are held together by n - 1 separators |
| Er.UnwrapSnoc | internal/lib/er/error.go:13-27 | one more wrapped error adds the separator and its message at the end |
| Config.SecretString | internal/config/secret.go:6-8 | every secret renders as the mask |
| Config.JoinHostPort | internal/config/db.go:49 | a port without a colon and a host that is not already bracketed are joined so that the address splits back into them; no '/' is added |
| Config.DSN | internal/config/db.go:29-40 | the DSN ends by disabling TLS |
| Config.DBConnectionString | internal/config/db.go:42-52 | the postgres URL ends with "/" + the database name + "?sslmode=disable"; when the user has no colon, the password no "@" and the host no "/", the raw user and password, the address (splitting back into host and decimal port) and the path "dbname?sslmode=disable" read back from it |
| Config.CacheConnectionString | internal/config/cache.go:29-37 | the redis URL ends with "/" + the decimal database number; under the same conditions the raw user and password, the address (splitting back into host and port) and the database number, parsed back from the path, read back from it |
| Config.RenderingsMaskCredentials | internal/config/db.go:18-40 | the log renderings and the DSN do not depend on the credentials |
| Config.ConnectionStringsCarryCredentials | internal/config/db.go:44-52 | the postgres and redis connection strings carry the raw user and password, which read back from them |
| Config.UrlReadsBack | internal/config/db.go:44-52 | a URL written as scheme, user ":" password "@" address "/" path ends with its path and gives back its credentials, address and path when the user has no ':', the password no '@' and the address no '/' |
| Config.PortHasNoColon | internal/config/db.go:49 | a decimal number has neither ':' nor '/', which the connection strings' read-back uses to end the address at the port and split it at the colon |

## Left out

- Goroutines and timing.
  - The cache write is returned as a scheduled write rather than run concurrently.
  - The listener's goroutines make a multiset of deletes; their order is not modelled.
  - TTL expiry is not modelled; the TTL is recorded with the entry.
  - The 20-second timeout on the cache write is not modelled.
- I/O is replaced by parameters: the database, the redis client and its subscription, HTTP and logging.
  - `NewCache`, `NewCacheReader`, `NewRedisChannelDeleter` and `Subscribe` are left out.
  - Parsing of the redis URL is left out.
- JobDelayer.Listen: a payload such as `{}`, or one missing a field, is read by `json.Unmarshal` as zeros, so the source deletes (0, 0) or a pair with a zero; the model's Listen deletes nothing for it.
- JobDelayer.Decode: accepts exactly the JSON that `json.Marshal` writes for the message. `json.Unmarshal` is more lenient: it accepts whitespace, other field orders, unknown fields and missing fields. So the decoder is stated weaker than the source on foreign payloads; everything the model publishes is decoded alike.
- RedisCache.Get: an encoded item is modelled as either a faithful encoding of the item or bytes that do not decode. JSON encoding itself is not modelled.
- Validation by go-playground/validator is a boolean verdict parameter. The exception is "required" on an id, which is modelled as "not zero". The validator's error details are reduced to one `ValidationFailed` error.
- Config.DBConnectionString: the read-back is promised only for a user without ':', a password without '@' and a host without '/' (and, for the address split, a host not itself bracketed). The source puts the raw values in without escaping, so other values give a URL that does not read back unambiguously; the same holds for Config.CacheConnectionString.
- Config.DSN: formats the secrets with `%s`, so it holds the mask "*****" and not the password (RenderingsMaskCredentials). Nothing in this model connects with it; the connection strings are the ones that carry the credentials. It is modelled as a rendering only.
- UpdateQuery.UpdateBanner: only the first statement of the batch reports its own error. The batch result is read once and then closed, so the tag delete's or insert's own error (a foreign-key violation on an unknown tag, say) is dropped. Their failure still aborts the transaction: the commit then fails with a rollback error that is not a Postgres error, which the model receives as `CommitFailed("", msg)` and reports under the component name. `exec` in TxReplies is the first statement's result.
- Go's `int` (ports, limit, offset, the redis db number) is taken as 64 bits wide. `strconv.Atoi` is therefore modelled as base-10 `ParseInt` into 64 bits.
- ReadOne.BannerByFeatureTag: the query's layout whitespace is collapsed. Scans into nil destinations are modelled as reading the id and tag only.
- ReadMany.BannersByFeatureTag: `rows.Err()` after the loop is not checked by the source, and not modelled. The unused `useLastRevision` argument is dropped.
- UpdateQuery.BuildUpdateBannerQuery: the five `if` blocks are modelled as one loop over the fixed column list. AssignmentsExact shows that this gives the same clauses in the same order.
- UpdateQuery.UpdateBanner: the deferred rollback and its error are left out. Go assigns that error to a shadowed variable, so it never reaches the caller.
- Error messages of wrapped sentinels (`"comp: " + sentinel`) are not kept; a sentinel stays a sentinel, as `errors.Is` sees it.
- The create DTOs, the handlers, authentication (jwt), routing, the migrator and the save and delete statements of package pgs are not part of this model.
- Sentinels: the snapshot is mixed.
  - The newer service matches the `repo` sentinels; the older one matches the `storage` sentinels.
  - In package pgs, `save.go`, `update.go` and `read_one.go` return `repo` sentinels, while `delete.go` returns `storage.ErrBannerNotFound`.
  - `app.go` wires the older service directly over package pgs.
  - This is modelled as written: the two sentinel families are distinct errors.
- DeleteBannerByFeatureTag of both services does nothing and returns nil, and is modelled so. The publish-and-delete path is JobDelayer.DeleteByFeatureTag.

## Findings

| source | as written | input that shows it | evidently intended | confidence | as-written member | corrected member |
|---|---|---|---|---|---|---|
| internal/service/banner/cached_banner.go:91-110 | the goroutine that writes the cache assigns the function's own `err`, which line 110 may read after the assignment | store answers "not found"; Set succeeds and assigns nil to `err` before line 110 runs | the store's answer "not found" (and a found banner with no error when Set fails) | not executed | CachedBanner.RacyFetchResult | CachedBanner.FetchAndFill |

In the race the lookup returns a nil banner with a nil error. The service
reports this as an unknown error (BannerService.RaceReportsUnknown); the
store's answer would give "not found". The rest of the model uses
FetchAndFill, which returns the store's answer.

=== FILE: api_parse.dfy ===
/**
 * Query-parameter parsing of package api: a generic wrapper that stores a
 * parsed value through a pointer or reports which parameter was empty or
 * malformed, and its three instances.
 */
module ApiParse {
  import opened Wrappers
  import opened Decimal

  /** `jsn.DecodingError`: a request error carrying the message shown to the client. */
  datatype DecodingError = DecodingError(msg: string)

  const EmptyParameterPrefix := "empty parameter: "
  const UnacceptableFormatPrefix := "unacceptable format for parameter "
  const NilTargetPanic := "internal.lib.parse: provided val value is nil"

  /** `msg.APIEmptyParameter`. */
  function EmptyParameter(pName: string): string {
    EmptyParameterPrefix + pName
  }

  /** `msg.APIUnacceptableFormat`. */
  function UnacceptableFormat(pName: string): string {
    UnacceptableFormatPrefix + pName
  }

  /** A call either panics, or leaves the target holding `target` and returns `err`. */
  datatype Parsed<T> = Panicked(msg: string) | Parsed(target: T, err: Option<DecodingError>)

  /**
   * `parse`: `target` is the pointer (`None` for nil) and what it points
   * to. A nil pointer panics; an empty input or a parser failure is an
   * error naming the parameter and leaves the target alone; otherwise the
   * parsed value is stored.
   */
  function Parse<T>(s: string, pName: string, target: Option<T>, parser: string -> Option<T>): (r: Parsed<T>)
    ensures target.None? <==> r.Panicked?
    ensures r.Parsed? && r.err.Some? ==> r.target == target.value
    ensures target.Some? && |s| == 0 ==> r.err == Some(DecodingError(EmptyParameter(pName)))
    ensures target.Some? && |s| > 0 && parser(s).None? ==> r.err == Some(DecodingError(UnacceptableFormat(pName)))
    ensures target.Some? && |s| > 0 && parser(s).Some? ==> r == Parsed(parser(s).value, None)
  {
    if target.None? then Panicked(NilTargetPanic)
    else if |s| == 0 then Parsed(target.value, Some(DecodingError(EmptyParameter(pName))))
    else match parser(s)
      case None => Parsed(target.value, Some(DecodingError(UnacceptableFormat(pName))))
      case Some(v) => Parsed(v, None)
  }

  /**
   * `ParseInt64`: base-10 `strconv.ParseInt` into 64 bits. A value is stored
   * exactly when the text is a 64-bit decimal, and it is that decimal's value.
   */
  function ParseInt64(s: string, pName: string, target: Option<Int64>): (r: Parsed<Int64>)
    ensures target.None? <==> r.Panicked?
    ensures r.Parsed? ==> (r.err.None? <==> ParseInt(s).Some?)
    ensures r.Parsed? && r.err.None? ==> ParseInt(s) == Some(r.target)
    ensures r.Parsed? && r.err.Some? ==> r.target == target.value
  {
    Parse(s, pName, target, ParseInt)
  }

  /**
   * `strconv.Atoi` with Go's `int` 64 bits wide: the same inputs and values
   * as base-10 `ParseInt` into 64 bits.
   */
  function Atoi(s: string): Option<Int64> {
    ParseInt(s)
  }

  /** `ParseInt`: `strconv.Atoi`, with the same outcomes as ParseInt64. */
  function ParseIntParam(s: string, pName: string, target: Option<Int64>): (r: Parsed<Int64>)
    ensures target.None? <==> r.Panicked?
    ensures r.Parsed? ==> (r.err.None? <==> Atoi(s).Some?)
    ensures r.Parsed? && r.err.None? ==> Atoi(s) == Some(r.target)
    ensures r.Parsed? && r.err.Some? ==> r.target == target.value
  {
    Parse(s, pName, target, Atoi)
  }

  /** `strconv.ParseBool`: the six spellings of true and the six of false, nothing else. */
  function ParseBool(s: string): (r: Option<bool>)
    ensures r == Some(true) <==> s in ["1", "t", "T", "TRUE", "true", "True"]
    ensures r == Some(false) <==> s in ["0", "f", "F", "FALSE", "false", "False"]
  {
    if s == "1" || s == "t" || s == "T" || s == "TRUE" || s == "true" || s == "True" then Some(true)
    else if s == "0" || s == "f" || s == "F" || s == "FALSE" || s == "false" || s == "False" then Some(false)
    else None
  }

  /** `ParseBool` of package api: stores true or false only for one of strconv's twelve spellings. */
  function ParseBoolParam(s: string, pName: string, target: Option<bool>): (r: Parsed<bool>)
    ensures target.None? <==> r.Panicked?
    ensures r.Parsed? ==> (r.err.None? <==> ParseBool(s).Some?)
    ensures r.Parsed? && r.err.None? ==> (r.target <==> s in ["1", "t", "T", "TRUE", "true", "True"])
    ensures r.Parsed? && r.err.Some? ==> r.target == target.value
  {
    Parse(s, pName, target, ParseBool)
  }

  /** `strconv.FormatBool`. */
  function FormatBool(b: bool): string {
    if b then "true" else "false"
  }

  /** Every int64, written in decimal, is read back into the target. */
  lemma ParseInt64RoundTrip(n: Int64, pName: string, current: Int64)
    ensures ParseInt64(FormatInt(n), pName, Some(current)) == Parsed(n, None)
  {
    FormatParseRoundTrip(n);
    FormatIntChars(n);
  }

  /** The same for the `int` parameters. */
  lemma ParseIntRoundTrip(n: Int64, pName: string, current: Int64)
    ensures ParseIntParam(FormatInt(n), pName, Some(current)) == Parsed(n, None)
  {
    FormatParseRoundTrip(n);
    FormatIntChars(n);
  }

  /** Every boolean, written as Go writes it, is read back into the target. */
  lemma ParseBoolRoundTrip(b: bool, pName: string, current: bool)
    ensures ParseBoolParam(FormatBool(b), pName, Some(current)) == Parsed(b, None)
  {
  }

  /**
   * A message determines its kind and its parameter: the two kinds never
   * coincide, so the client can tell an empty parameter from a malformed
   * one, and the parameter is what follows the fixed prefix.
   */
  lemma MessagesNameParameter(p: string, q: string)
    ensures EmptyParameter(p) != UnacceptableFormat(q)
    ensures EmptyParameter(p) == EmptyParameter(q) ==> p == q
    ensures UnacceptableFormat(p) == UnacceptableFormat(q) ==> p == q
  {
    assert EmptyParameter(p)[0] == 'e' && UnacceptableFormat(q)[0] == 'u';
    if EmptyParameter(p) == EmptyParameter(q) {
      assert p == EmptyParameter(p)[|EmptyParameterPrefix|..];
    }
    if UnacceptableFormat(p) == UnacceptableFormat(q) {
      assert p == UnacceptableFormat(p)[|UnacceptableFormatPrefix|..];
    }
  }
}

=== FILE: api_request.dfy ===
/**
 * Request-scoped values of package api: the request id and the user role
 * are stored in the request's context under two string keys and read back
 * as strings, "" when absent.
 */
module ApiRequest {
  import opened Wrappers

  const RequestIdKey := "request-id"
  const RoleKey := "role"

  /** A Go context as a chain of `context.WithValue` layers over the background context. */
  datatype Context = Background | WithValue(parent: Context, key: string, value: string)

  /** An HTTP request; only its context matters here. */
  datatype Request = Request(ctx: Context)

  /** `ctx.Value(key)`: the innermost layer with that key decides; no layer means nil. */
  function Value(ctx: Context, key: string): Option<string> {
    match ctx
    case Background => None
    case WithValue(parent, k, v) => if k == key then Some(v) else Value(parent, key)
  }

  /** `ctxValue`: the stored string, or "" when nothing is stored under the key. */
  function CtxValue(ctx: Context, key: string): (s: string)
    ensures Value(ctx, key).None? ==> s == ""
    ensures Value(ctx, key).Some? ==> s == Value(ctx, key).value
  {
    match Value(ctx, key)
    case None => ""
    case Some(v) => v
  }

  /** `RequestID`: the request id the context is bound to, or "" when it has none. */
  function RequestID(r: Request): (id: string)
    ensures RequestIdKey in Bindings(r.ctx) ==> id == Bindings(r.ctx)[RequestIdKey]
    ensures RequestIdKey !in Bindings(r.ctx) ==> id == ""
  {
    ValueIsBinding(r.ctx, RequestIdKey);
    CtxValue(r.ctx, RequestIdKey)
  }

  /** `SetRequestID`: binds the request id and leaves every other binding alone. */
  function SetRequestID(r: Request, requestId: string): (r': Request)
    ensures Bindings(r'.ctx) == Bindings(r.ctx)[RequestIdKey := requestId]
  {
    Request(WithValue(r.ctx, RequestIdKey, requestId))
  }

  /** `UserRole`: the role the context is bound to, or "" when it has none. */
  function UserRole(r: Request): (role: string)
    ensures RoleKey in Bindings(r.ctx) ==> role == Bindings(r.ctx)[RoleKey]
    ensures RoleKey !in Bindings(r.ctx) ==> role == ""
  {
    ValueIsBinding(r.ctx, RoleKey);
    CtxValue(r.ctx, RoleKey)
  }

  /** `SetUserRole`: binds the role and leaves every other binding alone. */
  function SetUserRole(r: Request, role: string): (r': Request)
    ensures Bindings(r'.ctx) == Bindings(r.ctx)[RoleKey := role]
  {
    Request(WithValue(r.ctx, RoleKey, role))
  }

  /** The key-value bindings a context stands for, later layers overriding earlier ones. */
  function Bindings(ctx: Context): map<string, string> {
    match ctx
    case Background => map[]
    case WithValue(parent, k, v) => Bindings(parent)[k := v]
  }

  /** Walking the chain finds exactly the binding the context stands for. */
  lemma {:induction false} ValueIsBinding(ctx: Context, key: string)
    ensures Value(ctx, key) == if key in Bindings(ctx) then Some(Bindings(ctx)[key]) else None
  {
    match ctx
    case Background =>
    case WithValue(parent, k, v) =>
      ValueIsBinding(parent, key);
  }

  /** A request id that was set is read back. */
  lemma RequestIdRoundTrip(r: Request, requestId: string)
    ensures RequestID(SetRequestID(r, requestId)) == requestId
  {
  }

  /** A role that was set is read back. */
  lemma RoleRoundTrip(r: Request, role: string)
    ensures UserRole(SetUserRole(r, role)) == role
  {
  }

  /** Setting one of the two values leaves the other as it was. */
  lemma SettersIndependent(r: Request, requestId: string, role: string)
    ensures RequestID(SetUserRole(r, role)) == RequestID(r)
    ensures UserRole(SetRequestID(r, requestId)) == UserRole(r)
  {
  }

  /** A later set of the same key shadows the earlier value. */
  lemma LaterSetShadows(r: Request, a: string, b: string)
    ensures RequestID(SetRequestID(SetRequestID(r, a), b)) == b
    ensures UserRole(SetUserRole(SetUserRole(r, a), b)) == b
  {
  }

  /** A request whose context holds neither value reads both as "". */
  lemma AbsentReadsEmpty(r: Request)
    requires RequestIdKey !in Bindings(r.ctx) && RoleKey !in Bindings(r.ctx)
    ensures RequestID(r) == "" && UserRole(r) == ""
  {
    ValueIsBinding(r.ctx, RequestIdKey);
    ValueIsBinding(r.ctx, RoleKey);
  }
}

=== FILE: banner_service.dfy ===
/**
 * The banner service of package service/banner: request validation, one
 * call of a storage collaborator, and the translation of storage errors
 * into the service's own. Validation by go-playground/validator is a
 * verdict passed in, except for the "required" check on an id, which is
 * "not zero".
 */
module BannerService {
  import opened Wrappers
  import opened Decimal
  import opened Entity
  import opened Errors
  import opened Repo
  import ModelsDto
  import CachedBanner
  import RedisCache

  /** The service's errors; `ValidationFailed` is what `service.ValidationErr` builds. */
  datatype ServiceError =
    | ValidationFailed
    | ErrNotSaved
    | ErrAlreadyExists
    | ErrNotFound
    | ErrNotActive
    | ErrUnknown
    | ErrNotUnique

  /** What a call returns, and the argument the collaborator received (`None`: it was not called). */
  datatype Call<T, A> = Call(result: T, sent: Option<A>)

  /** `SaveBanner`: a valid banner goes to the saver; "already exists" is reported as such, any other failure as "not saved". */
  function SaveBanner(valid: bool, model: Banner, saver: Banner -> Result<Int64, StoreError>)
    : (r: Call<Result<Int64, ServiceError>, Banner>)
    ensures !valid ==> r == Call(Failure(ValidationFailed), None)
    ensures valid ==> r.sent == Some(model)
    ensures valid ==> (r.result.Success? <==> saver(model).Success?)
    ensures valid && saver(model).Success? ==> r.result.value == saver(model).value
    ensures valid && saver(model).Failure? ==>
      r.result.error == (if saver(model).error == RepoAlreadyExists then ErrAlreadyExists else ErrNotSaved)
  {
    if !valid then Call(Failure(ValidationFailed), None)
    else
      var result := match saver(model)
        case Success(id) => Success(id)
        case Failure(e) => Failure(if e == RepoAlreadyExists then ErrAlreadyExists else ErrNotSaved);
      Call(result, Some(model))
  }

  /**
   * `BannerByFeatureTag` over the reader's answer: "not found" and "not
   * unique" keep their meaning, every other failure and a nil banner
   * without an error are unknown errors, and a user is refused an inactive
   * banner that an admin gets.
   */
  function BannerByFeatureTag(asUser: bool, answer: Result<Option<Banner>, StoreError>): (r: Result<Banner, ServiceError>)
    ensures r.Success? <==> answer.Success? && answer.value.Some? && (asUser ==> answer.value.value.isActive)
    ensures r.Success? ==> r.value == answer.value.value
    ensures answer == Failure(RepoNotFound) ==> r == Failure(ErrNotFound)
    ensures answer == Failure(RepoNotUnique) ==> r == Failure(ErrNotUnique)
    ensures answer.Failure? && answer.error != RepoNotFound && answer.error != RepoNotUnique ==> r == Failure(ErrUnknown)
    ensures answer == Success(None) ==> r == Failure(ErrUnknown)
    ensures answer.Success? && answer.value.Some? && asUser && !answer.value.value.isActive ==> r == Failure(ErrNotActive)
  {
    match answer
    case Failure(e) =>
      if e == RepoNotFound then Failure(ErrNotFound)
      else if e == RepoNotUnique then Failure(ErrNotUnique)
      else Failure(ErrUnknown)
    case Success(None) => Failure(ErrUnknown)
    case Success(Some(b)) =>
      if asUser && !b.isActive then Failure(ErrNotActive) else Success(b)
  }

  /** `BannersByFeatureTag`: the reader's list unchanged, or an unknown error. */
  function BannersByFeatureTag(answer: Result<seq<Banner>, StoreError>): (r: Result<seq<Banner>, ServiceError>)
    ensures r.Success? <==> answer.Success?
    ensures r.Success? ==> r.value == answer.value
    ensures r.Failure? ==> r.error == ErrUnknown
  {
    match answer
    case Success(bs) => Success(bs)
    case Failure(_) => Failure(ErrUnknown)
  }

  /** `DeleteBanner`: id 0 fails "required" before the deleter is called; "not found" is kept, any other failure is unknown. */
  function DeleteBanner(id: Int64, deleter: Int64 -> Option<StoreError>): (r: Call<Option<ServiceError>, Int64>)
    ensures id == 0 ==> r == Call(Some(ValidationFailed), None)
    ensures id != 0 ==> r.sent == Some(id)
    ensures id != 0 ==> (r.result.None? <==> deleter(id).None?)
    ensures id != 0 && deleter(id) == Some(RepoNotFound) ==> r.result == Some(ErrNotFound)
    ensures id != 0 && deleter(id).Some? && deleter(id) != Some(RepoNotFound) ==> r.result == Some(ErrUnknown)
  {
    if id == 0 then Call(Some(ValidationFailed), None)
    else
      var result := match deleter(id)
        case None => None
        case Some(e) => if e == RepoNotFound then Some(ErrNotFound) else Some(ErrUnknown);
      Call(result, Some(id))
  }

  /**
   * `UpdateBanner`: a valid request is converted with the path id and sent
   * to the updater; "not found" and "already exists" are kept, any other
   * failure is unknown.
   */
  function UpdateBanner(valid: bool, id: Int64, dto: ModelsDto.UpdateDTO, updater: UpdatableBanner -> Option<StoreError>)
    : (r: Call<Option<ServiceError>, UpdatableBanner>)
    ensures !valid ==> r == Call(Some(ValidationFailed), None)
    ensures valid ==> r.sent == Some(ModelsDto.ToModel(dto, id))
    ensures valid ==> (r.result.None? <==> updater(ModelsDto.ToModel(dto, id)).None?)
    ensures valid ==> var e := updater(ModelsDto.ToModel(dto, id));
      e.Some? ==> r.result == Some(if e.value == RepoNotFound then ErrNotFound
                                   else if e.value == RepoAlreadyExists then ErrAlreadyExists
                                   else ErrUnknown)
  {
    if !valid then Call(Some(ValidationFailed), None)
    else
      var model := ModelsDto.ToModel(dto, id);
      var result := match updater(model)
        case None => None
        case Some(e) =>
          if e == RepoNotFound then Some(ErrNotFound)
          else if e == RepoAlreadyExists then Some(ErrAlreadyExists)
          else Some(ErrUnknown);
      Call(result, Some(model))
  }

  /** `DeleteBannerByFeatureTag`: does nothing and reports success. */
  function DeleteBannerByFeatureTag(featureId: Option<Int64>, tagId: Option<Int64>): (r: Option<ServiceError>)
    ensures r.None?
  {
    None
  }

  /** A user is only ever handed an active banner. */
  lemma UsersSeeOnlyActive(answer: Result<Option<Banner>, StoreError>)
    ensures BannerByFeatureTag(true, answer).Success? ==> BannerByFeatureTag(true, answer).value.isActive
  {
  }

  /** Admins are refused exactly what users are refused, less the inactive banners. */
  lemma AdminSeesMore(answer: Result<Option<Banner>, StoreError>)
    ensures BannerByFeatureTag(true, answer).Success? ==> BannerByFeatureTag(false, answer) == BannerByFeatureTag(true, answer)
    ensures BannerByFeatureTag(false, answer).Failure? ==> BannerByFeatureTag(true, answer) == BannerByFeatureTag(false, answer)
  {
  }

  /** Behind a cache that agrees with the store, the service answers as it would over the store itself. */
  lemma CacheInvisibleToService(cache: CachedBanner.BannerCache, featureId: Int64, tagId: Int64, useLastRevision: bool,
                                asUser: bool, store: StoreReader)
    requires CachedBanner.Agrees(cache, featureId, tagId, store)
    ensures BannerByFeatureTag(asUser, CachedBanner.BannerByFeatureTag(featureId, tagId, useLastRevision, cache, store).result)
         == BannerByFeatureTag(asUser, Lift(store(featureId, tagId, useLastRevision)))
  {
    CachedBanner.CacheTransparent(cache, featureId, tagId, useLastRevision, store);
  }

  /**
   * The shared-`err` race seen from the service: a "not found" that loses
   * the race reaches the service as a nil banner without an error and is
   * reported as an unknown error; the store's answer gives "not found".
   */
  lemma RaceReportsUnknown(featureId: Int64, tagId: Int64)
    ensures BannerByFeatureTag(false, CachedBanner.RacyFetchResult(Failure(RepoNotFound), None, true)) == Failure(ErrUnknown)
    ensures BannerByFeatureTag(false, CachedBanner.FetchAndFill(featureId, tagId, false,
              (f: Int64, t: Int64, u: bool) => Failure(RepoNotFound)).result) == Failure(ErrNotFound)
  {
  }
}

=== FILE: cached_banner.dfy ===
/**
 * The cache-aside reader of package service/banner: a single-banner lookup
 * answers from redis when it can, asks the store otherwise, and schedules a
 * cache write of what the store said, including a negative entry for a
 * banner that does not exist. A lookup is a pure function of the flag, the
 * cache and the store; it returns its answer together with the store
 * queries it made, the cache keys it read and the write it schedules (Go
 * performs that write in a detached goroutine).
 */
module CachedBanner {
  import opened Wrappers
  import opened Decimal
  import opened Strings
  import opened Entity
  import opened Errors
  import opened Repo
  import opened RedisCache

  /** `CacheTTL = 5 * time.Minute`, in nanoseconds. */
  const CacheTTL: int := 5 * 60 * 1_000_000_000

  datatype CacheKey = CacheKey(featureId: Int64, tagId: Int64)

  /** `ToRedisKeyFormat`: the decimal feature id, a colon, the decimal tag id; the key reads back as the pair. */
  function ToRedisKeyFormat(k: CacheKey): (r: string)
    ensures ParseKey(r) == Some(k)
  {
    KeyParses(k);
    FormatInt(k.featureId) + ":" + FormatInt(k.tagId)
  }

  /** Reads a key back: the text up to the first colon and the text after it, both decimal int64s. */
  function ParseKey(s: string): (r: Option<CacheKey>)
    ensures r.Some? ==> ':' in s
  {
    match FirstIndexOf(s, ':')
    case None => None
    case Some(i) =>
      match (ParseInt(s[..i]), ParseInt(s[i + 1..]))
      case (Some(f), Some(t)) => Some(CacheKey(f, t))
      case _ => None
  }

  /** Every key reads back as the feature and tag it was made from. */
  lemma KeyRoundTrip(k: CacheKey)
    ensures ParseKey(ToRedisKeyFormat(k)) == Some(k)
  {
  }

  /** The decimal ids around a colon read back as the pair. */
  lemma KeyParses(k: CacheKey)
    ensures ParseKey(FormatInt(k.featureId) + ":" + FormatInt(k.tagId)) == Some(k)
  {
    var f, t := FormatInt(k.featureId), FormatInt(k.tagId);
    FormatIntChars(k.featureId);
    assert ':' !in f by {
      forall j | 0 <= j < |f| ensures f[j] != ':' {
      }
    }
    FirstIndexAfterPrefix(f, ':', t);
    var s := f + ":" + t;
    assert s == f + [':'] + t;
    assert s[..|f|] == f && s[|f| + 1..] == t;
    FormatParseRoundTrip(k.featureId);
    FormatParseRoundTrip(k.tagId);
  }

  /** Distinct (feature, tag) pairs are cached under distinct keys. */
  lemma KeyInjective(a: CacheKey, b: CacheKey)
    ensures ToRedisKeyFormat(a) == ToRedisKeyFormat(b) ==> a == b
  {
    KeyRoundTrip(a);
    KeyRoundTrip(b);
  }

  function Key(featureId: Int64, tagId: Int64): string {
    ToRedisKeyFormat(CacheKey(featureId, tagId))
  }

  /** The cache holds Go `*entity.Banner` values; JSON `null` is a nil banner. */
  type BannerCache = Backend<Option<Banner>>

  /** A cache write the lookup schedules. */
  datatype Write = Write(key: string, item: CacheItem<Option<Banner>>, ttl: int)

  /** One call of the wrapped store reader. */
  datatype StoreQuery = StoreQuery(featureId: Int64, tagId: Int64, useLastRevision: bool)

  /** What a lookup returns and everything it does on the way. */
  datatype Lookup = Lookup(
    result: Result<Option<Banner>, StoreError>,
    queries: seq<StoreQuery>,
    cacheReads: seq<string>,
    write: Option<Write>)

  /**
   * `getDataUpdateCache`: asks the store; a banner is cached as existing, a
   * "not found" is cached as a negative entry, any other error is returned
   * and nothing is cached. The caller gets the store's answer.
   */
  function FetchAndFill(featureId: Int64, tagId: Int64, useLastRevision: bool, store: StoreReader): (r: Lookup)
    ensures r.queries == [StoreQuery(featureId, tagId, useLastRevision)] && r.cacheReads == []
    ensures r.result == Lift(store(featureId, tagId, useLastRevision))
    ensures r.write.Some? <==> (store(featureId, tagId, useLastRevision).Success?
                                || store(featureId, tagId, useLastRevision) == Failure(RepoNotFound))
    ensures r.write.Some? ==> r.write.value.key == Key(featureId, tagId) && r.write.value.ttl == CacheTTL
    ensures store(featureId, tagId, useLastRevision).Success? ==>
      r.write.value.item == CacheItem(Some(store(featureId, tagId, useLastRevision).value), StatusExists)
    ensures store(featureId, tagId, useLastRevision) == Failure(RepoNotFound) ==>
      r.write.value.item == CacheItem(None, StatusNotExists)
  {
    var q := StoreQuery(featureId, tagId, useLastRevision);
    var key := Key(featureId, tagId);
    match store(featureId, tagId, useLastRevision)
    case Success(b) =>
      Lookup(Success(Some(b)), [q], [], Some(Write(key, NewCacheItem(Some(b), StatusExists), CacheTTL)))
    case Failure(e) =>
      if e == RepoNotFound then
        Lookup(Failure(e), [q], [], Some(Write(key, NewCacheItem(None, StatusNotExists), CacheTTL)))
      else
        Lookup(Failure(e), [q], [], None)
  }

  /**
   * `CacheReader.BannerByFeatureTag`. With `useLastRevision` the store is
   * asked directly and the cache is left alone. Otherwise the cache is read
   * first: an existing item is returned as stored, a negative item is "not
   * found", and a miss or a cache error goes to the store. A status outside
   * the three named ones returns the stored value.
   */
  function BannerByFeatureTag(featureId: Int64, tagId: Int64, useLastRevision: bool, cache: BannerCache, store: StoreReader)
    : (r: Lookup)
    ensures useLastRevision ==>
      r == Lookup(Lift(store(featureId, tagId, true)), [StoreQuery(featureId, tagId, true)], [], None)
    ensures !useLastRevision ==> r.cacheReads == [Key(featureId, tagId)]
    ensures !useLastRevision ==> match Get(cache, Key(featureId, tagId), None)
      case Failure(_) => r == FetchAndFill(featureId, tagId, false, store).(cacheReads := [Key(featureId, tagId)])
      case Success(item) =>
        if item.status == StatusNotFound then
          r == FetchAndFill(featureId, tagId, false, store).(cacheReads := [Key(featureId, tagId)])
        else
          && r.queries == []
          && r.write.None?
          && r.result == (if item.status == StatusNotExists then Failure(RepoNotFound) else Success(item.value))
  {
    if useLastRevision then
      Lookup(Lift(store(featureId, tagId, true)), [StoreQuery(featureId, tagId, true)], [], None)
    else
      var key := Key(featureId, tagId);
      match Get(cache, key, None)
      case Failure(_) => FetchAndFill(featureId, tagId, false, store).(cacheReads := [key])
      case Success(item) =>
        if item.status == StatusExists then Lookup(Success(item.value), [], [key], None)
        else if item.status == StatusNotFound then FetchAndFill(featureId, tagId, false, store).(cacheReads := [key])
        else if item.status == StatusNotExists then Lookup(Failure(RepoNotFound), [], [key], None)
        else Lookup(Success(item.value), [], [key], None)
  }

  /** `CacheReader.BannersByFeatureTag`: the wrapped reader's answer, with the cache untouched. */
  function BannersByFeatureTag(q: ListQuery, reader: ListReader): (r: Result<seq<Banner>, StoreError>)
    ensures r == reader(q)
  {
    reader(q)
  }

  /** Performs a scheduled write; `marshalError` is what encoding the item reports, if anything. */
  function Apply(cache: BannerCache, w: Option<Write>, marshalError: Option<string>): BannerCache {
    match w
    case None => cache
    case Some(w) => Set(cache, w.key, w.item, w.ttl, marshalError).0
  }

  /**
   * The cache tells the truth about (feature, tag): whenever a readable item
   * is stored under its key, an existing item holds the store's banner, a
   * negative item stands for the store's "not found", and the status is one
   * of the three named ones.
   */
  ghost predicate Agrees(cache: BannerCache, featureId: Int64, tagId: Int64, store: StoreReader) {
    var key := Key(featureId, tagId);
    cache.failure.None? && key in cache.entries && cache.entries[key].payload.Json? ==>
      var item := cache.entries[key].payload.item;
      && (item.status == StatusExists || item.status == StatusNotFound || item.status == StatusNotExists)
      && (item.status == StatusExists ==> Lift(store(featureId, tagId, false)) == Success(item.value))
      && (item.status == StatusNotExists ==> store(featureId, tagId, false) == Failure(RepoNotFound))
  }

  /** The cache agrees with the store on every (feature, tag). */
  ghost predicate Coherent(cache: BannerCache, store: StoreReader) {
    forall f: Int64, t: Int64 :: Agrees(cache, f, t, store)
  }

  /** A lookup through an agreeing cache answers exactly what the store answers. */
  lemma CacheTransparent(cache: BannerCache, featureId: Int64, tagId: Int64, useLastRevision: bool, store: StoreReader)
    requires Agrees(cache, featureId, tagId, store)
    ensures BannerByFeatureTag(featureId, tagId, useLastRevision, cache, store).result
         == Lift(store(featureId, tagId, useLastRevision))
  {
    var key := Key(featureId, tagId);
    if !useLastRevision && Get(cache, key, None).Success? {
      assert cache.failure.None?;
      if key in cache.entries {
        assert cache.entries[key].payload.Json?;
      }
    }
  }

  /** Whatever a lookup writes about (feature, tag) agrees with the store, and a failed write changes nothing. */
  lemma LookupKeepsAgreement(cache: BannerCache, featureId: Int64, tagId: Int64, useLastRevision: bool,
                             store: StoreReader, marshalError: Option<string>)
    requires Agrees(cache, featureId, tagId, store)
    ensures Agrees(Apply(cache, BannerByFeatureTag(featureId, tagId, useLastRevision, cache, store).write, marshalError),
                   featureId, tagId, store)
  {
    var w := BannerByFeatureTag(featureId, tagId, useLastRevision, cache, store).write;
    if w.Some? {
      var fill := FetchAndFill(featureId, tagId, false, store);
      assert w == fill.write;
    }
  }

  /** A write about one (feature, tag) cannot disturb what the cache says about another. */
  lemma OtherKeyKeepsAgreement(cache: BannerCache, featureId: Int64, tagId: Int64, w: Option<Write>,
                               marshalError: Option<string>, store: StoreReader)
    requires Agrees(cache, featureId, tagId, store)
    requires w.Some? ==> w.value.key != Key(featureId, tagId)
    ensures Agrees(Apply(cache, w, marshalError), featureId, tagId, store)
  {
  }

  /** Lookups keep a coherent cache coherent, whether or not their writes succeed. */
  lemma LookupKeepsCoherence(cache: BannerCache, featureId: Int64, tagId: Int64, useLastRevision: bool,
                             store: StoreReader, marshalError: Option<string>)
    requires Coherent(cache, store)
    ensures Coherent(Apply(cache, BannerByFeatureTag(featureId, tagId, useLastRevision, cache, store).write, marshalError),
                     store)
  {
    var w := BannerByFeatureTag(featureId, tagId, useLastRevision, cache, store).write;
    var after := Apply(cache, w, marshalError);
    forall f: Int64, t: Int64
      ensures Agrees(after, f, t, store)
    {
      OneKeyAgreement(cache, featureId, tagId, useLastRevision, store, marshalError, f, t);
    }
  }

  lemma OneKeyAgreement(cache: BannerCache, featureId: Int64, tagId: Int64, useLastRevision: bool,
                        store: StoreReader, marshalError: Option<string>, f: Int64, t: Int64)
    requires Coherent(cache, store)
    ensures Agrees(Apply(cache, BannerByFeatureTag(featureId, tagId, useLastRevision, cache, store).write, marshalError),
                   f, t, store)
  {
    var w := BannerByFeatureTag(featureId, tagId, useLastRevision, cache, store).write;
    assert Agrees(cache, f, t, store);
    assert Agrees(cache, featureId, tagId, store);
    if f == featureId && t == tagId {
      LookupKeepsAgreement(cache, featureId, tagId, useLastRevision, store, marshalError);
    } else {
      KeyInjective(CacheKey(f, t), CacheKey(featureId, tagId));
      if w.Some? {
        assert w.value.key == Key(featureId, tagId);
      }
      OtherKeyKeepsAgreement(cache, f, t, w, marshalError, store);
    }
  }

  /**
   * Once the write a store-backed lookup scheduled has landed, the same
   * lookup again gives the same answer without asking the store.
   */
  lemma SecondLookupHitsCache(cache: BannerCache, featureId: Int64, tagId: Int64, store: StoreReader)
    requires cache.failure.None?
    requires BannerByFeatureTag(featureId, tagId, false, cache, store).write.Some?
    ensures var first := BannerByFeatureTag(featureId, tagId, false, cache, store);
      var second := BannerByFeatureTag(featureId, tagId, false, Apply(cache, first.write, None), store);
      second.queries == [] && second.result == first.result
  {
    var first := BannerByFeatureTag(featureId, tagId, false, cache, store);
    var w := first.write.value;
    var after := Apply(cache, first.write, None);
    GetAfterSet(cache, w.key, w.item, w.ttl, None);
    assert Get(after, Key(featureId, tagId), None) == Success(w.item);
  }

  /**
   * getDataUpdateCache AS WRITTEN: the goroutine that performs the cache
   * write assigns the function's own `err`, which the function returns
   * after starting it. If the goroutine assigns first, the caller sees the
   * write's outcome (`setError`) in place of the store's.
   */
  function RacyFetchResult(answer: Result<Banner, StoreError>, setError: Option<string>, goroutineFirst: bool)
    : (r: Result<Option<Banner>, StoreError>)
    ensures !goroutineFirst ==> r == Lift(answer)
    ensures answer.Failure? && answer.error != RepoNotFound ==> r == Lift(answer)
  {
    match answer
    case Failure(e) =>
      if e != RepoNotFound then Failure(e)
      else if goroutineFirst then (if setError.Some? then Failure(Other(setError.value)) else Success(None))
      else Failure(e)
    case Success(b) =>
      if goroutineFirst && setError.Some? then Failure(Other(setError.value)) else Success(Some(b))
  }

  /** The race turns "not found" into a nil banner with a nil error. */
  lemma RaceLosesNotFound()
    ensures RacyFetchResult(Failure(RepoNotFound), None, true) == Success(None)
    ensures FetchAndFill(0, 0, false, (f: Int64, t: Int64, u: bool) => Failure(RepoNotFound)).result == Failure(RepoNotFound)
  {
  }

  /** The race turns a found banner into an error when the cache write fails. */
  lemma RaceLosesBanner(b: Banner, setError: string)
    ensures RacyFetchResult(Success(b), Some(setError), true) == Failure(Other(setError))
    ensures FetchAndFill(b.featureId, 0, false, (f: Int64, t: Int64, u: bool) => Success(b)).result == Success(Some(b))
  {
  }
}

=== FILE: config.dfy ===
/**
 * Connection settings of package config: the postgres and redis settings,
 * their log-safe renderings with the credentials masked, and the
 * connection strings that carry the credentials in clear.
 */
module Config {
  import opened Wrappers
  import opened Decimal
  import opened Strings

  /** `Secret.String()`: what every secret looks like when formatted with `%s`. */
  const Mask := "*****"

  /** `type Secret string`: the raw value is reached only by an explicit conversion. */
  datatype Secret = Secret(raw: string)

  function SecretString(s: Secret): (r: string)
    ensures r == Mask
  {
    Mask
  }

  /** `config.DB`; Go's `int` port is 64 bits wide. */
  datatype DB = DB(host: string, port: Int64, user: Secret, pass: Secret, dbName: string)

  /** `config.Cache`: like `DB`, with a numbered redis database. */
  datatype Cache = Cache(host: string, port: Int64, user: Secret, pass: Secret, dbName: Int64)

  /** A host that is not itself written in brackets unless it holds a colon, so that its brackets can be told apart. */
  predicate SplittableHost(host: string) {
    ':' !in host ==> !(|host| >= 2 && host[0] == '[' && host[|host| - 1] == ']')
  }

  /** `net.JoinHostPort`: a host with a colon in it (an IPv6 address) is put in brackets. */
  function JoinHostPort(host: string, port: string): (r: string)
    ensures ':' !in port && SplittableHost(host) ==> SplitHostPort(r) == Some((host, port))
    ensures '/' !in host && '/' !in port ==> '/' !in r
  {
    if ':' !in port && SplittableHost(host) then
      JoinedSplits(host, port);
      if ':' in host then "[" + host + "]:" + port else host + ":" + port
    else
      if ':' in host then "[" + host + "]:" + port else host + ":" + port
  }

  /** `DB.String()`. */
  function DBString(d: DB): string {
    "{Host: " + d.host + ", Port: " + FormatInt(d.port) + ", User: " + SecretString(d.user)
      + ", Pass: " + SecretString(d.pass) + ", DBName: " + d.dbName + "}"
  }

  /** `DB.DSN()`: the secrets are formatted with `%s` and so come out masked; TLS is turned off. */
  function DSN(d: DB): (r: string)
    ensures HasSuffix(r, " sslmode=disable")
  {
    SuffixOf("host=" + d.host + " port=" + FormatInt(d.port) + " user=" + SecretString(d.user)
      + " password=" + SecretString(d.pass) + " dbname=" + d.dbName, " sslmode=disable");
    "host=" + d.host + " port=" + FormatInt(d.port) + " user=" + SecretString(d.user)
      + " password=" + SecretString(d.pass) + " dbname=" + d.dbName + " sslmode=disable"
  }

  const PostgresScheme := "postgres://"
  const RedisScheme := "redis://"

  /** The query every postgres connection string ends with: TLS is turned off. */
  const SslDisabled := "?sslmode=disable"

  /**
   * `DB.ConnectionString()`: the raw credentials, unescaped, then the joined
   * address, and the database name with TLS turned off as the path.
   */
  function DBConnectionString(d: DB): (r: string)
    ensures HasSuffix(r, "/" + d.dbName + SslDisabled)
    ensures ':' !in d.user.raw && '@' !in d.pass.raw ==> Credentials(r, PostgresScheme) == Some((d.user.raw, d.pass.raw))
    ensures ':' !in d.user.raw && '@' !in d.pass.raw && '/' !in d.host ==>
      && Location(r, PostgresScheme).Some?
      && Location(r, PostgresScheme).value.1 == d.dbName + SslDisabled
      && (SplittableHost(d.host) ==> SplitHostPort(Location(r, PostgresScheme).value.0) == Some((d.host, FormatInt(d.port))))
  {
    var port := FormatInt(d.port);
    PortHasNoColon(d.port);
    var addr := JoinHostPort(d.host, port);
    UrlReadsBack(PostgresScheme, d.user.raw, d.pass.raw, addr, d.dbName + SslDisabled);
    PostgresScheme + d.user.raw + ":" + d.pass.raw + "@" + addr + "/" + (d.dbName + SslDisabled)
  }

  /** `Cache.String()`. */
  function CacheString(c: Cache): string {
    "{Host: " + c.host + ", Port: " + FormatInt(c.port) + ", User: " + SecretString(c.user)
      + ", Pass: " + SecretString(c.pass) + ", DBName: " + FormatInt(c.dbName) + "}"
  }

  /**
   * `Cache.ConnectionString()`: the raw credentials, unescaped, then the
   * joined address, and the database number in decimal as the path.
   */
  function CacheConnectionString(c: Cache): (r: string)
    ensures HasSuffix(r, "/" + FormatInt(c.dbName))
    ensures ':' !in c.user.raw && '@' !in c.pass.raw ==> Credentials(r, RedisScheme) == Some((c.user.raw, c.pass.raw))
    ensures ':' !in c.user.raw && '@' !in c.pass.raw && '/' !in c.host ==>
      && Location(r, RedisScheme).Some?
      && ParseInt(Location(r, RedisScheme).value.1) == Some(c.dbName)
      && (SplittableHost(c.host) ==> SplitHostPort(Location(r, RedisScheme).value.0) == Some((c.host, FormatInt(c.port))))
  {
    var port := FormatInt(c.port);
    PortHasNoColon(c.port);
    PortHasNoColon(c.dbName);
    FormatParseRoundTrip(c.dbName);
    var addr := JoinHostPort(c.host, port);
    UrlReadsBack(RedisScheme, c.user.raw, c.pass.raw, addr, FormatInt(c.dbName));
    RedisScheme + c.user.raw + ":" + c.pass.raw + "@" + addr + "/" + FormatInt(c.dbName)
  }

  /** The log renderings do not depend on the credentials at all. */
  lemma RenderingsMaskCredentials(d: DB, c: Cache, user: Secret, pass: Secret)
    ensures DBString(d.(user := user, pass := pass)) == DBString(d)
    ensures DSN(d.(user := user, pass := pass)) == DSN(d)
    ensures CacheString(c.(user := user, pass := pass)) == CacheString(c)
  {
  }

  lemma SuffixOf(a: string, b: string)
    ensures HasSuffix(a + b, b)
  {
    assert (a + b)[|a + b| - |b|..] == b;
  }

  /**
   * A URL read from its scheme on: the user up to the first ':', the password
   * up to the next '@', and everything after that.
   */
  function UserInfo(url: string, scheme: string): Option<(string, string, string)> {
    if !HasPrefix(url, scheme) then None
    else
      var rest := url[|scheme|..];
      match FirstIndexOf(rest, ':')
      case None => None
      case Some(i) =>
        var afterUser := rest[i + 1..];
        match FirstIndexOf(afterUser, '@')
        case None => None
        case Some(j) => Some((rest[..i], afterUser[..j], afterUser[j + 1..]))
  }

  /** The user and password of a URL. */
  function Credentials(url: string, scheme: string): Option<(string, string)> {
    match UserInfo(url, scheme)
    case None => None
    case Some((user, pass, _)) => Some((user, pass))
  }

  /** The address of a URL, up to the first '/' after the credentials, and the path and query after that '/'. */
  function Location(url: string, scheme: string): Option<(string, string)> {
    match UserInfo(url, scheme)
    case None => None
    case Some((_, _, tail)) =>
      match FirstIndexOf(tail, '/')
      case None => None
      case Some(k) => Some((tail[..k], tail[k + 1..]))
  }

  /**
   * A URL written as the connection strings write it reads back: it ends with
   * its path, and the credentials, the address and the path are recovered
   * when the user has no ':', the password no '@' and the address no '/'.
   */
  lemma UrlReadsBack(scheme: string, user: string, pass: string, addr: string, path: string)
    ensures HasSuffix(scheme + user + ":" + pass + "@" + addr + "/" + path, "/" + path)
    ensures ':' !in user && '@' !in pass ==>
      Credentials(scheme + user + ":" + pass + "@" + addr + "/" + path, scheme) == Some((user, pass))
    ensures ':' !in user && '@' !in pass && '/' !in addr ==>
      Location(scheme + user + ":" + pass + "@" + addr + "/" + path, scheme) == Some((addr, path))
  {
    assert scheme + user + ":" + pass + "@" + addr + "/" + path == (scheme + user + ":" + pass + "@" + addr) + ("/" + path);
    SuffixOf(scheme + user + ":" + pass + "@" + addr, "/" + path);
    if ':' !in user && '@' !in pass {
      assert scheme + user + ":" + pass + "@" + addr + "/" + path == scheme + user + ":" + pass + "@" + (addr + "/" + path);
      CredentialsOf(scheme, user, pass, addr + "/" + path);
      if '/' !in addr {
        assert addr + "/" + path == addr + ['/'] + path;
        FirstIndexAfterPrefix(addr, '/', path);
        assert (addr + "/" + path)[..|addr|] == addr;
        assert (addr + "/" + path)[|addr| + 1..] == path;
      }
    }
  }

  lemma CredentialsOf(scheme: string, user: string, pass: string, tail: string)
    requires ':' !in user && '@' !in pass
    ensures UserInfo(scheme + user + ":" + pass + "@" + tail, scheme) == Some((user, pass, tail))
  {
    var url := scheme + user + ":" + pass + "@" + tail;
    var rest := url[|scheme|..];
    assert url[..|scheme|] == scheme;
    assert rest == user + [':'] + (pass + "@" + tail);
    FirstIndexAfterPrefix(user, ':', pass + "@" + tail);
    assert rest[..|user|] == user;
    var afterUser := rest[|user| + 1..];
    assert afterUser == pass + ['@'] + tail;
    FirstIndexAfterPrefix(pass, '@', tail);
    assert afterUser[..|pass|] == pass;
    assert afterUser[|pass| + 1..] == tail;
  }

  /**
   * Both connection strings carry the credentials in clear: a user without
   * ':' and a password without '@' are read back from them.
   */
  lemma ConnectionStringsCarryCredentials(d: DB, c: Cache)
    requires ':' !in d.user.raw && '@' !in d.pass.raw
    requires ':' !in c.user.raw && '@' !in c.pass.raw
    ensures Credentials(DBConnectionString(d), PostgresScheme) == Some((d.user.raw, d.pass.raw))
    ensures Credentials(CacheConnectionString(c), RedisScheme) == Some((c.user.raw, c.pass.raw))
  {
  }

  /** The index of the last occurrence of `c` in `s`, if any. */
  function LastIndexOf(s: string, c: char): (r: Option<nat>)
    ensures r.Some? ==> r.value < |s| && s[r.value] == c && c !in s[r.value + 1..]
    ensures r.None? ==> c !in s
    decreases |s|
  {
    if |s| == 0 then None
    else if s[|s| - 1] == c then Some(|s| - 1)
    else
      var r := LastIndexOf(s[..|s| - 1], c);
      assert r.Some? ==> s[r.value + 1..] == s[..|s| - 1][r.value + 1..] + [s[|s| - 1]];
      assert r.None? ==> s == s[..|s| - 1] + [s[|s| - 1]];
      r
  }

  lemma {:induction false} LastIndexBeforeSuffix(a: string, c: char, b: string)
    requires c !in b
    ensures LastIndexOf(a + [c] + b, c) == Some(|a|)
    decreases |b|
  {
    var s := a + [c] + b;
    if |b| > 0 {
      assert s[..|s| - 1] == a + [c] + b[..|b| - 1];
      LastIndexBeforeSuffix(a, c, b[..|b| - 1]);
    }
  }

  /** `net.SplitHostPort` on well-formed input: split at the last colon and drop the brackets around the host. */
  function SplitHostPort(hostPort: string): Option<(string, string)> {
    match LastIndexOf(hostPort, ':')
    case None => None
    case Some(i) =>
      var host := hostPort[..i];
      var port := hostPort[i + 1..];
      if |host| >= 2 && host[0] == '[' && host[|host| - 1] == ']' then Some((host[1..|host| - 1], port))
      else Some((host, port))
  }

  /** The text JoinHostPort writes splits back into host and port. */
  lemma JoinedSplits(host: string, port: string)
    requires ':' !in port && SplittableHost(host)
    ensures SplitHostPort(if ':' in host then "[" + host + "]:" + port else host + ":" + port) == Some((host, port))
  {
    if ':' in host {
      BracketedSplits(host, port);
    } else {
      PlainSplits(host, port);
    }
  }

  lemma BracketedSplits(host: string, port: string)
    requires ':' !in port
    ensures SplitHostPort("[" + host + "]:" + port) == Some((host, port))
  {
    var bracketed := "[" + host + "]";
    var s := bracketed + [':'] + port;
    assert "[" + host + "]:" + port == s;
    LastIndexBeforeSuffix(bracketed, ':', port);
    assert s[..|bracketed|] == bracketed;
    assert s[|bracketed| + 1..] == port;
    assert bracketed[1..|bracketed| - 1] == host;
  }

  lemma PlainSplits(host: string, port: string)
    requires ':' !in port && !(|host| >= 2 && host[0] == '[' && host[|host| - 1] == ']')
    ensures SplitHostPort(host + ":" + port) == Some((host, port))
  {
    var s := host + [':'] + port;
    assert host + ":" + port == s;
    LastIndexBeforeSuffix(host, ':', port);
    assert s[..|host|] == host;
    assert s[|host| + 1..] == port;
  }

  /**
   * Numbers are rendered in decimal, which has neither ':' nor '/', so a
   * connection string's address ends at its port and splits back at the colon.
   */
  lemma PortHasNoColon(port: Int64)
    ensures ':' !in FormatInt(port) && '/' !in FormatInt(port)
  {
    FormatIntChars(port);
    var p := FormatInt(port);
    forall j | 0 <= j < |p| ensures p[j] != ':' && p[j] != '/' {
    }
  }
}

=== FILE: decimal.dfy ===
/**
 * Base-10 rendering and parsing of integers, as done by Go's
 * `strconv.FormatInt(n, 10)`, `strconv.Itoa` and `strconv.ParseInt(s, 10, 64)`.
 */
module Decimal {
  import opened Wrappers

  const MinInt64: int := -0x8000_0000_0000_0000
  const MaxInt64: int := 0x7fff_ffff_ffff_ffff

  /** Go's `int64` (and `int` on a 64-bit platform). */
  type Int64 = x: int | MinInt64 <= x <= MaxInt64

  predicate IsDigit(c: char) {
    '0' <= c <= '9'
  }

  predicate AllDigits(s: string) {
    forall i :: 0 <= i < |s| ==> IsDigit(s[i])
  }

  function DigitChar(d: nat): (c: char)
    requires d < 10
    ensures IsDigit(c)
  {
    ('0' as int + d) as char
  }

  function DigitValue(c: char): nat
    requires IsDigit(c)
  {
    c as int - '0' as int
  }

  /** The digits of a natural number, most significant first, with no leading zero. */
  function NatToString(n: nat): (s: string)
    ensures |s| > 0 && AllDigits(s)
    decreases n
  {
    if n < 10 then [DigitChar(n)] else NatToString(n / 10) + [DigitChar(n % 10)]
  }

  /** The value of a run of decimal digits (leading zeros allowed). */
  function DigitsValue(s: string): nat
    requires AllDigits(s)
  {
    if |s| == 0 then 0 else DigitsValue(s[..|s| - 1]) * 10 + DigitValue(s[|s| - 1])
  }

  /** `strconv.FormatInt(n, 10)`: a minus sign for negatives, then the digits of |n|. */
  function FormatInt(n: int): string {
    if n < 0 then "-" + NatToString(-n) else NatToString(n)
  }

  /**
   * `strconv.ParseInt(s, 10, 64)`: an optional '+' or '-', then at least one
   * decimal digit and nothing else; values outside the int64 range are errors.
   */
  function ParseInt(s: string): Option<Int64> {
    if |s| == 0 then None
    else
      var digits := if s[0] == '+' || s[0] == '-' then s[1..] else s;
      if |digits| == 0 || !AllDigits(digits) then None
      else
        var v: int := if s[0] == '-' then -(DigitsValue(digits) as int) else DigitsValue(digits);
        if MinInt64 <= v <= MaxInt64 then Some(v) else None
  }

  lemma {:induction false} DigitsValueOfNat(n: nat)
    ensures DigitsValue(NatToString(n)) == n
    decreases n
  {
    var s := NatToString(n);
    if n >= 10 {
      DigitsValueOfNat(n / 10);
      assert s[..|s| - 1] == NatToString(n / 10);
    }
  }

  /** Every character FormatInt emits is a digit or a leading minus sign. */
  lemma FormatIntChars(n: int)
    ensures |FormatInt(n)| > 0
    ensures forall i :: 0 <= i < |FormatInt(n)| ==>
      IsDigit(FormatInt(n)[i]) || (i == 0 && FormatInt(n)[i] == '-')
  {
  }

  /** ParseInt recovers every int64 that FormatInt renders. */
  lemma FormatParseRoundTrip(n: Int64)
    ensures ParseInt(FormatInt(n)) == Some(n)
  {
    if n < 0 {
      var m: nat := -(n as int);
      DigitsValueOfNat(m);
      assert FormatInt(n)[1..] == NatToString(m);
    } else {
      DigitsValueOfNat(n);
    }
  }

  /** Distinct int64 values render as distinct decimal strings. */
  lemma FormatIntInjective(a: Int64, b: Int64)
    ensures FormatInt(a) == FormatInt(b) ==> a == b
  {
    FormatParseRoundTrip(a);
    FormatParseRoundTrip(b);
  }
}

=== FILE: entity.dfy ===
/**
 * The banner domain entities. The repository declares them twice, in
 * internal/model/entity and internal/models/entity, with identical fields;
 * they are one datatype here.
 */
module Entity {
  import opened Wrappers
  import opened Decimal

  /** A wall-clock instant (Go `time.Time`); carried around, never inspected. */
  type Time = int

  datatype Banner = Banner(
    id: Int64,
    title: string,
    text: string,
    url: string,
    featureId: Int64,
    isActive: bool,
    tagIds: seq<Int64>,
    createdAt: Time,
    updatedAt: Time)

  /** A partial banner for updates: `None` fields are left as they are. */
  datatype UpdatableBanner = UpdatableBanner(
    id: Int64,
    title: Option<string>,
    text: Option<string>,
    url: Option<string>,
    featureId: Option<Int64>,
    isActive: Option<bool>,
    tagIds: Option<seq<Int64>>,
    createdAt: Option<Time>,
    updatedAt: Option<Time>)
}

/** Error values shared between the storage layer and the services. */
module Errors {

  /**
   * What a storage call reports. Go compares sentinels by identity
   * (`errors.Is`), and packages repo and storage each declare their own
   * "not found" and "already exists" sentinels, so they are distinct here.
   * Wrapping with `fmt.Errorf("%w")` keeps the sentinel visible, so a wrapped
   * sentinel is the sentinel itself in this model.
   */
  datatype StoreError =
    | RepoNotFound
    | RepoNotUnique
    | RepoAlreadyExists
    | StorageNotFound
    | StorageAlreadyExists
    | Other(msg: string)

  /**
   * `fmt.Errorf("%s: %w", comp, err)`: the component name is prefixed to the
   * message of an unknown error; a sentinel stays recognisable by `errors.Is`.
   */
  function Wrap(comp: string, e: StoreError): (r: StoreError)
    ensures r.Other? <==> e.Other?
    ensures !e.Other? ==> r == e
    ensures e.Other? ==> r.msg == comp + ": " + e.msg
  {
    if e.Other? then Other(comp + ": " + e.msg) else e
  }
}

=== FILE: er.dfy ===
/**
 * Error-message flattening of package er: an error that wraps a list of
 * errors is shown as their messages joined by a separator, any other error
 * as its own message.
 */
module Er {
  import opened Strings

  const DefaultSeparator := ", "

  /**
   * A Go error: either a plain one, or one with `Unwrap() []error` (as
   * `errors.Join` and `fmt.Errorf` with several `%w` build), which has its
   * own message too.
   */
  datatype GoError = Plain(msg: string) | Multi(msg: string, wrapped: seq<GoError>)

  /** The messages of a list of errors, in order. */
  function Messages(es: seq<GoError>): (ms: seq<string>)
    ensures |ms| == |es|
    ensures forall i :: 0 <= i < |es| ==> ms[i] == es[i].msg
  {
    seq(|es|, i requires 0 <= i < |es| => es[i].msg)
  }

  /**
   * `UnwrapSep`: an error that wraps a list shows the wrapped errors'
   * messages joined by `sep`, ignoring its own message; any other error shows
   * its own message.
   */
  function UnwrapSep(e: GoError, sep: string): (r: string)
    ensures e.Plain? ==> r == e.msg
    ensures e.Multi? && |e.wrapped| == 0 ==> r == ""
    ensures e.Multi? && |e.wrapped| == 1 ==> r == e.wrapped[0].msg
    ensures e.Multi? && |e.wrapped| == 2 ==> r == e.wrapped[0].msg + sep + e.wrapped[1].msg
  {
    match e
    case Plain(msg) => msg
    case Multi(_, wrapped) =>
      var ms := Messages(wrapped);
      if |ms| == 2 then JoinPair(ms, sep); Join(ms, sep) else Join(ms, sep)
  }

  /** `Unwrap`: `UnwrapSep` with ", ". */
  function Unwrap(e: GoError): (r: string)
    ensures e.Plain? ==> r == e.msg
    ensures e.Multi? && |e.wrapped| == 2 ==> r == e.wrapped[0].msg + ", " + e.wrapped[1].msg
  {
    UnwrapSep(e, DefaultSeparator)
  }

  /**
   * The separator shows only between wrapped errors: it makes no difference
   * to an error that wraps at most one, and separators of different lengths
   * give different texts for an error that wraps two or more.
   */
  lemma SeparatorShowsOnlyBetween(e: GoError, sep1: string, sep2: string)
    ensures e.Plain? || |e.wrapped| <= 1 ==> UnwrapSep(e, sep1) == UnwrapSep(e, sep2)
    ensures e.Multi? && |e.wrapped| >= 2 && |sep1| != |sep2| ==> UnwrapSep(e, sep1) != UnwrapSep(e, sep2)
  {
    if e.Multi? && |e.wrapped| >= 2 && |sep1| != |sep2| {
      UnwrapLength(e.msg, e.wrapped, sep1);
      UnwrapLength(e.msg, e.wrapped, sep2);
      ScaledDiffer(|e.wrapped| - 1, |sep1|, |sep2|);
    }
  }

  lemma ScaledDiffer(n: nat, x: nat, y: nat)
    requires n > 0 && x != y
    ensures n * x != n * y
  {
    if x < y {
      assert n * y == n * x + n * (y - x);
    } else {
      assert n * x == n * y + n * (x - y);
    }
  }

  /** Nothing wrapped shows as "", and n messages are held together by n - 1 separators. */
  lemma UnwrapLength(msg: string, wrapped: seq<GoError>, sep: string)
    ensures |wrapped| == 0 ==> UnwrapSep(Multi(msg, wrapped), sep) == ""
    ensures |wrapped| > 0 ==>
      |UnwrapSep(Multi(msg, wrapped), sep)| == TotalLength(Messages(wrapped)) + (|wrapped| - 1) * |sep|
  {
    if |wrapped| > 0 {
      JoinLength(Messages(wrapped), sep);
    }
  }

  /** One more wrapped error adds the separator and its message at the end. */
  lemma UnwrapSnoc(msg: string, wrapped: seq<GoError>, e: GoError, sep: string)
    requires |wrapped| > 0
    ensures UnwrapSep(Multi(msg, wrapped + [e]), sep) == UnwrapSep(Multi(msg, wrapped), sep) + sep + e.msg
  {
    assert Messages(wrapped + [e]) == Messages(wrapped) + [e.msg];
    JoinSnoc(Messages(wrapped), e.msg, sep);
  }
}

=== FILE: insert_tags.dfy ===
/** The banner-tag rows insert of package bannertag: every value inlined in decimal, no placeholders. */
module BannerTag {
  import opened Wrappers
  import opened Decimal
  import opened Strings
  import opened SqlText

  const Insert1 := "INSERT INTO banner_tag "
  const Insert2 := "(banner_id, tag_id) VALUES "
  const InsertPrefix := Insert1 + Insert2
  const Separator := ", "

  /** One `(bannerID, tagID)` value tuple. */
  function Tuple(bannerId: Int64, tagId: Int64): string {
    "(" + FormatInt(bannerId) + ", " + FormatInt(tagId) + ")"
  }

  /** One tuple per tag, in the order of the tags. */
  function Tuples(bannerId: Int64, tagIds: seq<Int64>): (ts: seq<string>)
    ensures |ts| == |tagIds|
  {
    seq(|tagIds|, i requires 0 <= i < |tagIds| => Tuple(bannerId, tagIds[i]))
  }

  /**
   * `tagsQuery`: the tuples written one after another, with ", " after every
   * tuple but the last.
   */
  method TagsQuery(bannerId: Int64, tagIds: seq<Int64>) returns (s: string)
    ensures s == Join(Tuples(bannerId, tagIds), Separator)
  {
    ghost var ts := Tuples(bannerId, tagIds);
    s := "";
    var i := 0;
    while i < |tagIds|
      invariant 0 <= i <= |tagIds|
      invariant s == Written(ts, i)
    {
      var tuple := "(" + FormatInt(bannerId) + ", " + FormatInt(tagIds[i]) + ")";
      assert tuple == ts[i];
      WrittenStep(ts, i);
      s := s + tuple;
      if i != |tagIds| - 1 {
        s := s + Separator;
      }
      i := i + 1;
    }
    WrittenAll(ts);
  }

  /** The builder's text after `i` loop turns: the first `i` tuples, and a separator unless the last was written. */
  ghost function Written(ts: seq<string>, i: nat): string
    requires i <= |ts|
  {
    if i == 0 then "" else if i < |ts| then Join(ts[..i], Separator) + Separator else Join(ts, Separator)
  }

  lemma WrittenStep(ts: seq<string>, i: nat)
    requires i < |ts|
    ensures Written(ts, i + 1) == Written(ts, i) + ts[i] + (if i != |ts| - 1 then Separator else "")
  {
    if i == 0 {
      assert ts[..1] == [ts[0]];
      if |ts| == 1 {
        assert ts == [ts[0]];
      }
    } else {
      assert ts[..i + 1] == ts[..i] + [ts[i]];
      JoinSnoc(ts[..i], ts[i], Separator);
      if i + 1 == |ts| {
        assert ts[..i + 1] == ts;
      }
    }
  }

  lemma WrittenAll(ts: seq<string>)
    ensures Written(ts, |ts|) == Join(ts, Separator)
  {
  }

  /**
   * `InsertTagsQuery`: the empty string for no tags, otherwise the INSERT
   * statement with one tuple per tag.
   */
  method InsertTagsQuery(bannerId: Int64, tagIds: seq<Int64>) returns (q: string)
    ensures |tagIds| == 0 ==> q == ""
    ensures |tagIds| > 0 ==> q == InsertPrefix + Join(Tuples(bannerId, tagIds), Separator)
  {
    if |tagIds| == 0 {
      return "";
    }
    var tuples := TagsQuery(bannerId, tagIds);
    q := InsertPrefix + tuples;
  }

  /**
   * The statement's length: the prefix, every tuple, and one separator
   * between each pair of neighbouring tuples.
   */
  lemma InsertLength(bannerId: Int64, tagIds: seq<Int64>)
    requires |tagIds| > 0
    ensures |InsertPrefix + Join(Tuples(bannerId, tagIds), Separator)|
      == |InsertPrefix| + TotalLength(Tuples(bannerId, tagIds)) + 2 * (|tagIds| - 1)
  {
    JoinLength(Tuples(bannerId, tagIds), Separator);
  }

  /** Reads a tuple back: the two decimals between the parentheses, split at the comma. */
  function ParseTuple(s: string): (r: Option<(Int64, Int64)>)
    ensures r.Some? ==> |s| >= 2 && s[0] == '(' && s[|s| - 1] == ')'
  {
    if |s| < 2 || s[0] != '(' || s[|s| - 1] != ')' then None
    else
      var inner := s[1..|s| - 1];
      match FirstIndexOf(inner, ',')
      case None => None
      case Some(i) =>
        if i + 2 > |inner| || inner[i + 1] != ' ' then None
        else
          match (ParseInt(inner[..i]), ParseInt(inner[i + 2..]))
          case (Some(b), Some(t)) => Some((b, t))
          case _ => None
  }

  /** Every tuple reads back as the banner id and tag id written into it. */
  lemma TupleRoundTrip(bannerId: Int64, tagId: Int64)
    ensures ParseTuple(Tuple(bannerId, tagId)) == Some((bannerId, tagId))
  {
    var b, t := FormatInt(bannerId), FormatInt(tagId);
    var s := Tuple(bannerId, tagId);
    var inner := s[1..|s| - 1];
    assert inner == b + [','] + (" " + t);
    FormatIntChars(bannerId);
    assert ',' !in b by {
      forall k | 0 <= k < |b| ensures b[k] != ',' {
      }
    }
    FirstIndexAfterPrefix(b, ',', " " + t);
    assert inner[..|b|] == b && inner[|b| + 2..] == t;
    FormatParseRoundTrip(bannerId);
    FormatParseRoundTrip(tagId);
  }

  /** Distinct (banner, tag) pairs give distinct tuples. */
  lemma TupleInjective(b1: Int64, t1: Int64, b2: Int64, t2: Int64)
    requires Tuple(b1, t1) == Tuple(b2, t2)
    ensures b1 == b2 && t1 == t2
  {
    TupleRoundTrip(b1, t1);
    TupleRoundTrip(b2, t2);
  }

  /** The statement is sent without arguments, and it has no placeholders for any. */
  lemma InsertHasNoPlaceholders(bannerId: Int64, tagIds: seq<Int64>)
    ensures Placeholders(InsertPrefix + Join(Tuples(bannerId, tagIds), Separator)) == []
  {
    var ts := Tuples(bannerId, tagIds);
    InsertPrefixPlain();
    forall i | 0 <= i < |ts| ensures NoDollar(ts[i]) {
      TupleNoDollar(bannerId, tagIds[i]);
    }
    JoinNoDollar(ts);
    NoDollarConcat(InsertPrefix, Join(ts, Separator));
    NoDollarHasNoPlaceholders(InsertPrefix + Join(ts, Separator));
  }

  lemma Insert1Plain() ensures NoDollar(Insert1) {}
  lemma Insert2Plain() ensures NoDollar(Insert2) {}

  lemma InsertPrefixPlain()
    ensures NoDollar(InsertPrefix)
  {
    Insert1Plain();
    Insert2Plain();
    NoDollarConcat(Insert1, Insert2);
  }

  lemma TupleNoDollar(bannerId: Int64, tagId: Int64)
    ensures NoDollar(Tuple(bannerId, tagId))
  {
    FormatIntChars(bannerId);
    FormatIntChars(tagId);
    var b, t := FormatInt(bannerId), FormatInt(tagId);
    assert NoDollar(b) && NoDollar(t);
    NoDollarConcat("(", b);
    NoDollarConcat("(" + b, ", ");
    NoDollarConcat("(" + b + ", ", t);
    NoDollarConcat("(" + b + ", " + t, ")");
  }

  lemma {:induction false} JoinNoDollar(ts: seq<string>)
    requires forall i :: 0 <= i < |ts| ==> NoDollar(ts[i])
    ensures NoDollar(Join(ts, Separator))
    decreases |ts|
  {
    if |ts| > 1 {
      JoinNoDollar(ts[1..]);
      NoDollarConcat(ts[0], Separator);
      NoDollarConcat(ts[0] + Separator, Join(ts[1..], Separator));
    }
  }
}

=== FILE: job_delayer.dfy ===
/**
 * The delete-by-feature-and-tag propagator of package service/banner
 * (`RedisChannelDeleter`): a delete request is published as a JSON message
 * on a well-known redis channel, and a listener turns every message on that
 * channel back into one call of the wrapped deleter. The subscription loop
 * and the goroutine per message are left out: the listener is a function of
 * one message, and a run of it over many messages is a multiset of delete
 * calls, since the goroutines may run in any order.
 */
module JobDelayer {
  import opened Wrappers
  import opened Decimal
  import opened Strings
  import opened Errors
  import BannerService

  const ChannelName := "redis_deleter_job_delayer"

  /** `redisDeleteMessage`: the feature and tag whose banners are to be deleted. */
  datatype DeleteMessage = DeleteMessage(featureId: Int64, tagId: Int64)

  /** A message as the subscription delivers it. */
  datatype Message = Message(channel: string, payload: string)

  const FeatureField := "{\"feature_id\":"
  const TagField := ",\"tag_id\":"

  /** `json.Marshal` of the message: the two fields in declaration order, under their JSON tags. */
  function Encode(m: DeleteMessage): string {
    FeatureField + FormatInt(m.featureId) + TagField + FormatInt(m.tagId) + "}"
  }

  /** The two texts of `head + a + mid + b + "}"`, where `a` ends at the first comma and `mid` starts with it. */
  function SplitFields(s: string, head: string, mid: string): (r: Option<(string, string)>)
    requires |mid| > 0 && mid[0] == ','
    ensures r.Some? ==> s == head + r.value.0 + mid + r.value.1 + "}"
  {
    if !HasPrefix(s, head) then None
    else
      match FirstIndexOf(s[|head|..], ',')
      case None => None
      case Some(i) =>
        var j := |head| + i;
        if j + |mid| + 1 > |s| || s[j..j + |mid|] != mid || s[|s| - 1] != '}' then None
        else
          Reassemble(s, |head|, j, j + |mid|);
          Some((s[|head|..j], s[j + |mid|..|s| - 1]))
  }

  lemma Reassemble(s: string, i: nat, j: nat, k: nat)
    requires i <= j <= k < |s|
    ensures s == s[..i] + s[i..j] + s[j..k] + s[k..|s| - 1] + [s[|s| - 1]]
  {
  }

  lemma SplitFieldsOfJoin(head: string, a: string, mid: string, b: string)
    requires |mid| > 0 && mid[0] == ',' && ',' !in a
    ensures SplitFields(head + a + mid + b + "}", head, mid) == Some((a, b))
  {
    var s := head + a + mid + b + "}";
    var j := |head| + |a|;
    assert s[|head|..] == a + [','] + (mid[1..] + b + "}");
    FirstIndexAfterPrefix(a, ',', mid[1..] + b + "}");
    assert s[..|head|] == head;
    assert s[j..j + |mid|] == mid;
    assert s[|head|..j] == a;
    assert s[j + |mid|..|s| - 1] == b;
  }

  /** The two number texts of a payload in the shape `Encode` writes. */
  function Fields(s: string): (r: Option<(string, string)>)
    ensures r.Some? ==> s == FeatureField + r.value.0 + TagField + r.value.1 + "}"
  {
    SplitFields(s, FeatureField, TagField)
  }

  /** A JSON integer: the decimal text `FormatInt` writes and nothing else (no sign '+', no leading zeros). */
  function Number(text: string): (r: Option<Int64>)
    ensures r.Some? ==> text == FormatInt(r.value)
  {
    match ParseInt(text)
    case Some(v) => if FormatInt(v) == text then Some(v) else None
    case None => None
  }

  /** Reads a payload in exactly the shape `Encode` writes; anything else is undecodable. */
  function Decode(s: string): (r: Option<DeleteMessage>)
    ensures r.Some? ==> s == FeatureField + FormatInt(r.value.featureId) + TagField + FormatInt(r.value.tagId) + "}"
  {
    match Fields(s)
    case None => None
    case Some((fText, tText)) =>
      match (Number(fText), Number(tText))
      case (Some(f), Some(t)) => Some(DeleteMessage(f, t))
      case _ => None
  }

  /** Every encoded message decodes to itself. */
  lemma DecodeEncode(m: DeleteMessage)
    ensures Decode(Encode(m)) == Some(m)
  {
    FieldsDecode(m);
  }

  /** The JSON text of the two ids decodes to them. */
  lemma FieldsDecode(m: DeleteMessage)
    ensures Decode(FeatureField + FormatInt(m.featureId) + TagField + FormatInt(m.tagId) + "}") == Some(m)
  {
    var f, t := FormatInt(m.featureId), FormatInt(m.tagId);
    FormatIntChars(m.featureId);
    assert ',' !in f by {
      forall j | 0 <= j < |f| ensures f[j] != ',' {
      }
    }
    SplitFieldsOfJoin(FeatureField, f, TagField, t);
    FormatParseRoundTrip(m.featureId);
    FormatParseRoundTrip(m.tagId);
  }

  /** Only encodings decode: a payload that decodes is the encoding of what it decodes to. */
  lemma DecodeOnlyEncodings(s: string)
    requires Decode(s).Some?
    ensures s == Encode(Decode(s).value)
  {
  }

  /** The payload decodes to `m` exactly when it is `m`'s encoding. */
  lemma DecodeIff(s: string, m: DeleteMessage)
    ensures Decode(s) == Some(m) <==> s == Encode(m)
  {
    if Decode(s) == Some(m) {
      DecodeOnlyEncodings(s);
    }
    if s == Encode(m) {
      DecodeEncode(m);
    }
  }

  /** `DeleteBanner`: the wrapped deleter's answer, unchanged. */
  function DeleteBanner(id: Int64, deleter: Int64 -> Option<StoreError>): (r: Option<StoreError>)
    ensures r == deleter(id)
  {
    deleter(id)
  }

  /** What publishing does: the one message it sends, and the error it returns. */
  datatype Publish = Publish(sent: Message, err: Option<BannerService.ServiceError>)

  /**
   * `DeleteByFeatureTag`: publishes one message for (feature, tag) on the
   * channel and deletes nothing itself; `publishError` is the redis
   * client's answer. A failed publish is an unknown error.
   */
  function DeleteByFeatureTag(featureId: Int64, tagId: Int64, publishError: Option<string>): (r: Publish)
    ensures r.sent.channel == ChannelName
    ensures Decode(r.sent.payload) == Some(DeleteMessage(featureId, tagId))
    ensures r.err.Some? <==> publishError.Some?
    ensures r.err.Some? ==> r.err.value == BannerService.ErrUnknown
  {
    DecodeEncode(DeleteMessage(featureId, tagId));
    var sent := Message(ChannelName, Encode(DeleteMessage(featureId, tagId)));
    if publishError.Some? then Publish(sent, Some(BannerService.ErrUnknown)) else Publish(sent, None)
  }

  /**
   * The listener's rule for one message: a message on another channel is
   * skipped, a payload that does not decode is dropped, and anything else is
   * one call of the wrapped deleter with the decoded feature and tag, whose
   * error is only logged.
   */
  function Listen(m: Message): (call: Option<DeleteMessage>)
    ensures m.channel != ChannelName ==> call.None?
    ensures m.channel == ChannelName ==> call == Decode(m.payload)
  {
    if m.channel != ChannelName then None else Decode(m.payload)
  }

  /** What `read` makes of each delivered message, in delivery order. */
  function ReadAll(read: Message -> Option<DeleteMessage>, ms: seq<Message>): seq<Option<DeleteMessage>> {
    seq(|ms|, i requires 0 <= i < |ms| => read(ms[i]))
  }

  /** What the listener makes of each delivered message, in delivery order. */
  function Reads(ms: seq<Message>): seq<Option<DeleteMessage>> {
    ReadAll(Listen, ms)
  }

  lemma ReadAllAppend(read: Message -> Option<DeleteMessage>, a: seq<Message>, b: seq<Message>)
    ensures ReadAll(read, a + b) == ReadAll(read, a) + ReadAll(read, b)
  {
    var l, r := ReadAll(read, a + b), ReadAll(read, a) + ReadAll(read, b);
    forall i | 0 <= i < |l| ensures l[i] == r[i] {
      if i < |a| {
        assert (a + b)[i] == a[i];
      } else {
        assert (a + b)[i] == b[i - |a|];
      }
    }
  }

  /** The delete calls that the listener's readings make: one per message it decoded. */
  function Calls(cs: seq<Option<DeleteMessage>>): multiset<DeleteMessage> {
    if cs == [] then multiset{}
    else
      Calls(cs[..|cs| - 1]) + match cs[|cs| - 1]
        case None => multiset{}
        case Some(d) => multiset{d}
  }

  /** The delete calls a run of the listener makes over the messages delivered to it. */
  function Deletes(ms: seq<Message>): multiset<DeleteMessage> {
    Calls(Reads(ms))
  }

  /** A message published for (feature, tag) becomes a delete of that (feature, tag). */
  lemma PublishListenRoundTrip(featureId: Int64, tagId: Int64, publishError: Option<string>)
    ensures Listen(DeleteByFeatureTag(featureId, tagId, publishError).sent) == Some(DeleteMessage(featureId, tagId))
  {
  }

  /** Two runs one after the other make the calls of both. */
  lemma DeletesAppend(a: seq<Message>, b: seq<Message>)
    ensures Deletes(a + b) == Deletes(a) + Deletes(b)
  {
    ReadAllAppend(Listen, a, b);
    CallsAppend(Reads(a), Reads(b));
  }

  lemma {:induction false} CallsAppend(x: seq<Option<DeleteMessage>>, y: seq<Option<DeleteMessage>>)
    ensures Calls(x + y) == Calls(x) + Calls(y)
    decreases |y|
  {
    if y == [] {
      assert x + y == x;
    } else {
      var init := y[..|y| - 1];
      assert (x + y)[..|x + y| - 1] == x + init;
      CallsAppend(x, init);
    }
  }

  /** A run makes at most one call per message. */
  lemma DeletesAtMostOnePerMessage(ms: seq<Message>)
    ensures |Deletes(ms)| <= |ms|
  {
    CallsAtMostOne(Reads(ms));
  }

  lemma {:induction false} CallsAtMostOne(cs: seq<Option<DeleteMessage>>)
    ensures |Calls(cs)| <= |cs|
    decreases |cs|
  {
    if cs != [] {
      CallsAtMostOne(cs[..|cs| - 1]);
    }
  }

  /** The messages that many `DeleteByFeatureTag` calls publish. */
  function Published(requests: seq<DeleteMessage>): (ms: seq<Message>)
    ensures |ms| == |requests|
  {
    seq(|requests|, i requires 0 <= i < |requests| => DeleteByFeatureTag(requests[i].featureId, requests[i].tagId, None).sent)
  }

  /** Delivering everything that was published deletes every requested (feature, tag), as often as it was requested. */
  lemma PublishedAreDeleted(requests: seq<DeleteMessage>)
    ensures Deletes(Published(requests)) == multiset(requests)
  {
    var cs := Reads(Published(requests));
    forall i | 0 <= i < |requests| ensures cs[i] == Some(requests[i]) {
      PublishListenRoundTrip(requests[i].featureId, requests[i].tagId, None);
    }
    CallsOfDecoded(cs, requests);
  }

  /** Readings that all decoded, to the deletes `ds`, make exactly those calls. */
  lemma {:induction false} CallsOfDecoded(cs: seq<Option<DeleteMessage>>, ds: seq<DeleteMessage>)
    requires |cs| == |ds|
    requires forall i :: 0 <= i < |cs| ==> cs[i] == Some(ds[i])
    ensures Calls(cs) == multiset(ds)
    decreases |cs|
  {
    if cs != [] {
      var n := |cs| - 1;
      CallsOfDecoded(cs[..n], ds[..n]);
      assert ds == ds[..n] + [ds[n]];
    }
  }

  /** Messages on other channels change nothing about the calls a run makes. */
  lemma ForeignMessagesIgnored(ms: seq<Message>, foreign: Message)
    requires foreign.channel != ChannelName
    ensures Deletes(ms + [foreign]) == Deletes(ms)
  {
    ReadAllAppend(Listen, ms, [foreign]);
    var none: seq<Option<DeleteMessage>> := [None];
    assert Reads([foreign])[0] == Listen(foreign) == None;
    assert Reads([foreign]) == none && none[..0] == [];
    CallsAppend(Reads(ms), none);
  }
}

=== FILE: legacy_service.dfy ===
/**
 * The older banner service of package service (`service.Banner`), which
 * reads single banners through the list reader and tells storage errors
 * apart by the sentinels of package storage.
 */
module LegacyService {
  import opened Wrappers
  import opened Decimal
  import opened Entity
  import opened Errors
  import opened Repo
  import ModelsDto
  import BannerService
  import UpdateQuery

  datatype LegacyError =
    | ValidationFailed
    | ErrBannerNotSaved
    | ErrBannerAlreadyExists
    | ErrBannerNotFound
    | ErrBannerNotActive
    | ErrUnknown
    | ErrBannerNotUnique

  /** What a call returns, and the argument the collaborator received (`None`: it was not called). */
  datatype Call<T, A> = Call(result: T, sent: Option<A>)

  /** `SaveBanner`: storage's "already exists" is reported as such, any other failure as "not saved". */
  function SaveBanner(valid: bool, model: Banner, saver: Banner -> Result<Int64, StoreError>)
    : (r: Call<Result<Int64, LegacyError>, Banner>)
    ensures !valid ==> r == Call(Failure(ValidationFailed), None)
    ensures valid ==> r.sent == Some(model)
    ensures valid ==> (r.result.Success? <==> saver(model).Success?)
    ensures valid && saver(model).Success? ==> r.result.value == saver(model).value
    ensures valid && saver(model).Failure? ==>
      r.result.error == (if saver(model).error == StorageAlreadyExists then ErrBannerAlreadyExists else ErrBannerNotSaved)
  {
    if !valid then Call(Failure(ValidationFailed), None)
    else
      var result := match saver(model)
        case Success(id) => Success(id)
        case Failure(e) => Failure(if e == StorageAlreadyExists then ErrBannerAlreadyExists else ErrBannerNotSaved);
      Call(result, Some(model))
  }

  /** `BannersByFeatureTag`: the reader's list unchanged; any reader failure is reported as "not unique". */
  function BannersByFeatureTag(answer: Result<seq<Banner>, StoreError>): (r: Result<seq<Banner>, LegacyError>)
    ensures r.Success? <==> answer.Success?
    ensures r.Success? ==> r.value == answer.value
    ensures r.Failure? ==> r.error == ErrBannerNotUnique
  {
    match answer
    case Success(bs) => Success(bs)
    case Failure(_) => Failure(ErrBannerNotUnique)
  }

  /** The filters the single lookup hands to the list reader: all five present. */
  function SingleQuery(featureId: Int64, tagId: Int64, limit: Int64, offset: Int64, useLastRevision: bool): ListQuery {
    ListQuery(Some(featureId), Some(tagId), Some(limit), Some(offset), Some(useLastRevision))
  }

  /**
   * `BannerByFeatureTag`: lists with every filter set and looks at the
   * length only; the list's error is dropped, so a failing reader looks
   * like an empty list. None is "not found", several are "not unique", and
   * a user is refused an inactive sole banner.
   */
  function BannerByFeatureTag(featureId: Int64, tagId: Int64, limit: Int64, offset: Int64,
                              useLastRevision: bool, asUser: bool, reader: ListReader)
    : (r: Result<Banner, LegacyError>)
    ensures var answer := reader(SingleQuery(featureId, tagId, limit, offset, useLastRevision));
      && (answer.Failure? ==> r == Failure(ErrBannerNotFound))
      && (answer.Success? && |answer.value| == 0 ==> r == Failure(ErrBannerNotFound))
      && (answer.Success? && |answer.value| > 1 ==> r == Failure(ErrBannerNotUnique))
      && (answer.Success? && |answer.value| == 1 ==>
            r == if asUser && !answer.value[0].isActive then Failure(ErrBannerNotActive) else Success(answer.value[0]))
  {
    var list := match BannersByFeatureTag(reader(SingleQuery(featureId, tagId, limit, offset, useLastRevision)))
      case Success(bs) => bs
      case Failure(_) => [];
    if |list| == 0 then Failure(ErrBannerNotFound)
    else if |list| > 1 then Failure(ErrBannerNotUnique)
    else if asUser && !list[0].isActive then Failure(ErrBannerNotActive)
    else Success(list[0])
  }

  /** `DeleteBanner`: id 0 fails "required" first; storage's "not found" is kept, any other failure is unknown. */
  function DeleteBanner(id: Int64, deleter: Int64 -> Option<StoreError>): (r: Call<Option<LegacyError>, Int64>)
    ensures id == 0 ==> r == Call(Some(ValidationFailed), None)
    ensures id != 0 ==> r.sent == Some(id)
    ensures id != 0 ==> (r.result.None? <==> deleter(id).None?)
    ensures id != 0 && deleter(id) == Some(StorageNotFound) ==> r.result == Some(ErrBannerNotFound)
    ensures id != 0 && deleter(id).Some? && deleter(id) != Some(StorageNotFound) ==> r.result == Some(ErrUnknown)
  {
    if id == 0 then Call(Some(ValidationFailed), None)
    else
      var result := match deleter(id)
        case None => None
        case Some(e) => if e == StorageNotFound then Some(ErrBannerNotFound) else Some(ErrUnknown);
      Call(result, Some(id))
  }

  /** `UpdateBanner`: storage's "not found" is kept; any other failure, "already exists" included, is unknown. */
  function UpdateBanner(valid: bool, id: Int64, dto: ModelsDto.UpdateDTO, updater: UpdatableBanner -> Option<StoreError>)
    : (r: Call<Option<LegacyError>, UpdatableBanner>)
    ensures !valid ==> r == Call(Some(ValidationFailed), None)
    ensures valid ==> r.sent == Some(ModelsDto.ToModel(dto, id))
    ensures valid ==> (r.result.None? <==> updater(ModelsDto.ToModel(dto, id)).None?)
    ensures valid ==> var e := updater(ModelsDto.ToModel(dto, id));
      e.Some? ==> r.result == Some(if e.value == StorageNotFound then ErrBannerNotFound else ErrUnknown)
  {
    if !valid then Call(Some(ValidationFailed), None)
    else
      var model := ModelsDto.ToModel(dto, id);
      var result := match updater(model)
        case None => None
        case Some(e) => if e == StorageNotFound then Some(ErrBannerNotFound) else Some(ErrUnknown);
      Call(result, Some(model))
  }

  /** `DeleteBannerByFeatureTag`: does nothing and reports success. */
  function DeleteBannerByFeatureTag(featureId: Option<Int64>, tagId: Option<Int64>): (r: Option<LegacyError>)
    ensures r.None?
  {
    None
  }

  /** The same error under the newer service's name. */
  function Renamed(e: LegacyError): BannerService.ServiceError {
    match e
    case ValidationFailed => BannerService.ValidationFailed
    case ErrBannerNotSaved => BannerService.ErrNotSaved
    case ErrBannerAlreadyExists => BannerService.ErrAlreadyExists
    case ErrBannerNotFound => BannerService.ErrNotFound
    case ErrBannerNotActive => BannerService.ErrNotActive
    case ErrUnknown => BannerService.ErrUnknown
    case ErrBannerNotUnique => BannerService.ErrNotUnique
  }

  /** What a single-banner read says about a list read that succeeded with `bs`. */
  function SingleAnswer(bs: seq<Banner>): (a: Result<Option<Banner>, StoreError>)
    ensures a.Success? <==> |bs| == 1
  {
    if |bs| == 0 then Failure(RepoNotFound)
    else if |bs| == 1 then Success(Some(bs[0]))
    else Failure(RepoNotUnique)
  }

  /**
   * When the list reader succeeds, the two service generations agree: the
   * older one over the list gives the newer one's answer over the
   * corresponding single read, up to the names of the errors.
   */
  lemma GenerationsAgree(featureId: Int64, tagId: Int64, limit: Int64, offset: Int64,
                         useLastRevision: bool, asUser: bool, reader: ListReader)
    requires reader(SingleQuery(featureId, tagId, limit, offset, useLastRevision)).Success?
    ensures var older := BannerByFeatureTag(featureId, tagId, limit, offset, useLastRevision, asUser, reader);
      var now := BannerService.BannerByFeatureTag(asUser,
        SingleAnswer(reader(SingleQuery(featureId, tagId, limit, offset, useLastRevision)).value));
      && (older.Success? <==> now.Success?)
      && (older.Success? ==> older.value == now.value)
      && (older.Failure? ==> Renamed(older.error) == now.error)
  {
  }

  /**
   * How the newer service's sentinel checks see an error of a collaborator
   * written for the older one: storage's "not found" and "already exists"
   * stand for repo's, and repo's sentinels, which the older service does not
   * recognise, are plain errors.
   */
  function InRepoTerms(e: StoreError): StoreError {
    match e
    case StorageNotFound => RepoNotFound
    case StorageAlreadyExists => RepoAlreadyExists
    case Other(msg) => Other(msg)
    case _ => Other("")
  }

  function SaverInRepoTerms(saver: Banner -> Result<Int64, StoreError>): Banner -> Result<Int64, StoreError> {
    (m: Banner) => match saver(m)
      case Success(id) => Success(id)
      case Failure(e) => Failure(InRepoTerms(e))
  }

  function InRepoTermsOption(e: Option<StoreError>): Option<StoreError> {
    if e.Some? then Some(InRepoTerms(e.value)) else None
  }

  function RenamedOption(e: Option<LegacyError>): Option<BannerService.ServiceError> {
    if e.Some? then Some(Renamed(e.value)) else None
  }

  /**
   * Saving: the older service over a collaborator gives the newer service's
   * answer over the same collaborator in repo terms, up to the names of the
   * errors, and both hand the saver the same banner.
   */
  lemma SaveGenerationsAgree(valid: bool, model: Banner, saver: Banner -> Result<Int64, StoreError>)
    ensures var older := SaveBanner(valid, model, saver);
      var now := BannerService.SaveBanner(valid, model, SaverInRepoTerms(saver));
      && older.sent == now.sent
      && (older.result.Success? <==> now.result.Success?)
      && (older.result.Success? ==> older.result.value == now.result.value)
      && (older.result.Failure? ==> Renamed(older.result.error) == now.result.error)
  {
  }

  /** Deleting: the same agreement, with "not found" as the sentinel both keep. */
  lemma DeleteGenerationsAgree(id: Int64, deleter: Int64 -> Option<StoreError>)
    ensures var older := DeleteBanner(id, deleter);
      var now := BannerService.DeleteBanner(id, (i: Int64) => InRepoTermsOption(deleter(i)));
      older.sent == now.sent && RenamedOption(older.result) == now.result
  {
  }

  /**
   * Updating: the generations agree except on "already exists", which the
   * newer service keeps and the older one reports as an unknown error.
   */
  lemma UpdateGenerationsDiffer(valid: bool, id: Int64, dto: ModelsDto.UpdateDTO, updater: UpdatableBanner -> Option<StoreError>)
    ensures var older := UpdateBanner(valid, id, dto, updater);
      var now := BannerService.UpdateBanner(valid, id, dto, (m: UpdatableBanner) => InRepoTermsOption(updater(m)));
      var e := updater(ModelsDto.ToModel(dto, id));
      && older.sent == now.sent
      && (older.result.None? <==> now.result.None?)
      && (e != Some(StorageAlreadyExists) ==> RenamedOption(older.result) == now.result)
      && (valid && e == Some(StorageAlreadyExists) ==>
            older.result == Some(ErrUnknown) && now.result == Some(BannerService.ErrAlreadyExists))
  {
  }

  /**
   * Listing: both pass a successful list through; a failure is "not unique"
   * in the older service and unknown in the newer.
   */
  lemma ListGenerationsDiffer(answer: Result<seq<Banner>, StoreError>)
    ensures var older, now := BannersByFeatureTag(answer), BannerService.BannersByFeatureTag(answer);
      && (older.Success? <==> now.Success?)
      && (older.Success? ==> older.value == now.value)
      && (older.Failure? ==> older.error == ErrBannerNotUnique && now.error == BannerService.ErrUnknown)
  {
  }

  /**
   * The mixed sentinels on the update path: the Postgres update reports a
   * missing row, or a trigger's duplicate, with repo's sentinels. The newer
   * service turns them into "not found" and "already exists"; the older one,
   * which checks storage's sentinels, reports both as unknown errors.
   */
  lemma UpdateSentinelsReachOnlyNewer(id: Int64, dto: ModelsDto.UpdateDTO, tx: UpdateQuery.TxReplies)
    requires tx.begin.None?
    ensures var updater := (m: UpdatableBanner) => UpdateQuery.TxOutcome(tx);
      var now, older := BannerService.UpdateBanner(true, id, dto, updater), UpdateBanner(true, id, dto, updater);
      && (tx.lock.NoRows? ==> now.result == Some(BannerService.ErrNotFound) && older.result == Some(ErrUnknown))
      && (tx.lock.Locked? && tx.exec.None? && tx.commit.CommitFailed? && tx.commit.code == UpdateQuery.TriggerRaised ==>
            now.result == Some(BannerService.ErrAlreadyExists) && older.result == Some(ErrUnknown))
  {
  }
}

=== FILE: pg_rows.dfy ===
/**
 * The joined (banner, tag) rows that the Postgres readers scan, one row per
 * tag of a banner, and the column views the readers' contracts are stated in.
 */
module PgRows {
  import opened Decimal
  import opened Entity

  /** The columns `id, title, text, url, is_active, feature_id, tag_id, created_at, updated_at`. */
  datatype Row = Row(
    id: Int64,
    title: string,
    text: string,
    url: string,
    isActive: bool,
    featureId: Int64,
    tagId: Int64,
    createdAt: Time,
    updatedAt: Time)

  /** One `rows.Next()`/`rows.Scan` step: a row, or the error Scan reported. */
  datatype ScannedRow = Scanned(row: Row) | ScanFailed(msg: string)

  /** What `dbPool.Query` gives back: the result rows, or the error it reported. */
  datatype Reply = Rows(rows: seq<ScannedRow>) | QueryFailed(msg: string)

  /** Row `k` is the first whose scan failed. */
  predicate FirstScanFailure(rows: seq<ScannedRow>, k: int) {
    0 <= k < |rows| && rows[k].ScanFailed? && forall j :: 0 <= j < k ==> rows[j].Scanned?
  }

  predicate AllScanned(rows: seq<ScannedRow>) {
    forall k :: 0 <= k < |rows| ==> rows[k].Scanned?
  }

  function TagColumn(rows: seq<ScannedRow>): (tags: seq<Int64>)
    requires AllScanned(rows)
    ensures |tags| == |rows|
  {
    seq(|rows|, k requires 0 <= k < |rows| => rows[k].row.tagId)
  }

  function IdColumn(rows: seq<ScannedRow>): (ids: seq<Int64>)
    requires AllScanned(rows)
    ensures |ids| == |rows|
  {
    seq(|rows|, k requires 0 <= k < |rows| => rows[k].row.id)
  }

  function RowValues(rows: seq<ScannedRow>): (rs: seq<Row>)
    requires AllScanned(rows)
    ensures |rs| == |rows|
  {
    seq(|rows|, k requires 0 <= k < |rows| => rows[k].row)
  }

  /** The row a banner contributes for one of its tags. */
  function RowOf(b: Banner, tagId: Int64): Row {
    Row(b.id, b.title, b.text, b.url, b.isActive, b.featureId, tagId, b.createdAt, b.updatedAt)
  }

  /** The banner a row describes, holding only that row's tag. */
  function BannerOf(r: Row): Banner {
    Banner(r.id, r.title, r.text, r.url, r.featureId, r.isActive, [r.tagId], r.createdAt, r.updatedAt)
  }

  /** Two rows describe the same banner apart from the tag. */
  predicate SameBanner(a: Row, b: Row) {
    a.(tagId := 0) == b.(tagId := 0)
  }

  /** The id of every row, in order. */
  function Ids(rs: seq<Row>): (ids: seq<Int64>)
    ensures |ids| == |rs|
  {
    seq(|rs|, k requires 0 <= k < |rs| => rs[k].id)
  }

  /** The tag of every row, in order. */
  function Tags(rs: seq<Row>): (tags: seq<Int64>)
    ensures |tags| == |rs|
  {
    seq(|rs|, k requires 0 <= k < |rs| => rs[k].tagId)
  }

  lemma ColumnsAppend(x: seq<Row>, y: seq<Row>)
    ensures Ids(x + y) == Ids(x) + Ids(y) && Tags(x + y) == Tags(x) + Tags(y)
  {
  }

  lemma ColumnsOfValues(rows: seq<ScannedRow>)
    requires AllScanned(rows)
    ensures Ids(RowValues(rows)) == IdColumn(rows) && Tags(RowValues(rows)) == TagColumn(rows)
  {
  }

  /** The rows a banner stands for: one per tag, in tag order. */
  function RowsOf(b: Banner): (rs: seq<Row>)
    ensures |rs| == |b.tagIds|
  {
    seq(|b.tagIds|, k requires 0 <= k < |b.tagIds| => RowOf(b, b.tagIds[k]))
  }

  /** The rows a list of banners stands for, banner after banner. */
  function Expand(bs: seq<Banner>): seq<Row> {
    if bs == [] then [] else Expand(bs[..|bs| - 1]) + RowsOf(bs[|bs| - 1])
  }

  lemma ExpandSnoc(bs: seq<Banner>, b: Banner)
    ensures Expand(bs + [b]) == Expand(bs) + RowsOf(b)
  {
    assert (bs + [b])[..|bs|] == bs;
  }

  /** Adding one tag to the last banner adds its row at the end. */
  lemma ExpandAddTag(init: seq<Banner>, last: Banner, t: Int64)
    ensures Expand(init + [last.(tagIds := last.tagIds + [t])]) == Expand(init + [last]) + [RowOf(last, t)]
  {
    var grown := last.(tagIds := last.tagIds + [t]);
    ExpandSnoc(init, grown);
    ExpandSnoc(init, last);
    RowsOfAddTag(last, t);
  }

  lemma RowsOfAddTag(b: Banner, t: Int64)
    ensures RowsOf(b.(tagIds := b.tagIds + [t])) == RowsOf(b) + [RowOf(b, t)]
  {
    var g := b.(tagIds := b.tagIds + [t]);
    assert forall k :: 0 <= k < |g.tagIds| ==> RowOf(g, g.tagIds[k]) == RowOf(b, g.tagIds[k]);
  }

  /** The last row of a banner list with a non-empty last banner is that banner's last tag row. */
  lemma ExpandLast(bs: seq<Banner>)
    requires |bs| > 0 && |bs[|bs| - 1].tagIds| > 0
    ensures var last := bs[|bs| - 1];
      |Expand(bs)| > 0 && Expand(bs)[|Expand(bs)| - 1] == RowOf(last, last.tagIds[|last.tagIds| - 1])
  {
  }

  /** Rows with the same id next to each other agree on every banner column. */
  predicate Consistent(rs: seq<Row>) {
    forall k :: 0 < k < |rs| && rs[k - 1].id == rs[k].id ==> SameBanner(rs[k - 1], rs[k])
  }

  /** The rows are ordered by id, as `ORDER BY id, tag_id` returns them. */
  predicate SortedById(rs: seq<Row>) {
    forall j, k :: 0 <= j < k < |rs| ==> rs[j].id <= rs[k].id
  }
}

=== FILE: read_many.dfy ===
/** The multi-banner read of package pgs: the query builders and the row grouping. */
module ReadMany {
  import opened Wrappers
  import opened Decimal
  import opened Strings
  import opened Entity
  import opened Errors
  import opened SqlText
  import opened PgRows

  const Comp := "storage.pgs.BannersByFeatureTag"
  // The fixed SQL text of the query, in pieces.
  // The fixed SQL text, written in pieces short enough for the verifier to read.
  const Select1 := "SELECT id, title, text, url, "
  const Select2 := "is_active, feature_id, created_at, "
  const Select3 := "updated_at FROM banner b"
  const SelectFromBanner := Select1 + Select2 + Select3
  const Join1 := " JOIN banner_tag bt"
  const Join2 := " ON b.id = bt.banner_id"
  const JoinBannerTag := Join1 + Join2
  const WithBanners := "WITH banners AS ("
  const Tail1 := ") SELECT id, title, text, url, "
  const Tail2 := "is_active, feature_id, tag_id, "
  const Tail3 := "created_at, updated_at\n\t\t\t"
  const Tail4 := "FROM banners JOIN banner_tag bt "
  const Tail5 := "ON banners.id = bt.banner_id\n\t\t\t"
  const Tail6 := "ORDER BY id, tag_id;"
  const ReadManyTail := Tail1 + Tail2 + Tail3 + Tail4 + Tail5 + Tail6

  /**
   * `BannersByFeatureTag`: the query built from the optional parameters, and
   * the banners grouped from the database's reply to it.
   */
  method BannersByFeatureTag(featureId: Option<Int64>, tagId: Option<Int64>, limit: Option<Int64>, offset: Option<Int64>,
                             db: (string, seq<SqlArg>) -> Reply)
    returns (query: Builder, r: Result<seq<Banner>, StoreError>)
    ensures query.args == Present(featureId) + Present(tagId) + Present(limit) + Present(offset)
    ensures query.sql == ReadManyText(featureId, tagId, limit, offset)
    ensures Placeholders(query.sql) == Consecutive(|query.args|)
    ensures db(query.sql, query.args).QueryFailed? ==> r == Failure(Other(Comp + ": " + db(query.sql, query.args).msg))
    ensures db(query.sql, query.args).Rows? ==> Grouped(db(query.sql, query.args).rows, r)
  {
    query := BuildReadManyQuery(featureId, tagId, limit, offset);
    var reply := db(query.sql, query.args);
    if reply.QueryFailed? {
      return query, Failure(Wrap(Comp, Other(reply.msg)));
    }
    r := GroupRows(reply.rows);
  }

  /**
   * What grouping promises: an error at the first row that fails to scan;
   * otherwise banners that stand for exactly the rows' ids and tags in order,
   * each with at least one tag, neighbours with different ids, whose rows are
   * the scanned rows whenever rows of one id agree on the banner columns, and
   * with strictly increasing ids when the rows come ordered by id.
   */
  ghost predicate Grouped(rows: seq<ScannedRow>, r: Result<seq<Banner>, StoreError>) {
    && (r.Success? <==> AllScanned(rows))
    && (forall k :: FirstScanFailure(rows, k) ==> r == Failure(Other(Comp + ": " + rows[k].msg)))
    && (r.Success? ==>
          var bs, rs := r.value, RowValues(rows);
          && Ids(Expand(bs)) == Ids(rs)
          && Tags(Expand(bs)) == Tags(rs)
          && (forall j :: 0 <= j < |bs| ==> |bs[j].tagIds| > 0)
          && (forall j :: 0 < j < |bs| ==> bs[j - 1].id != bs[j].id)
          && (Consistent(rs) ==> Expand(bs) == rs)
          && (SortedById(rs) ==> IncreasingIds(bs)))
  }

  /** The loop invariant of GroupRows: `bs` is what grouping the scanned rows `done` gives. */
  ghost predicate GroupedSoFar(bs: seq<Banner>, done: seq<Row>) {
    && (|done| == 0 <==> |bs| == 0)
    && (|done| > 0 ==> bs[|bs| - 1].id == done[|done| - 1].id)
    && Ids(Expand(bs)) == Ids(done)
    && Tags(Expand(bs)) == Tags(done)
    && (forall j :: 0 <= j < |bs| ==> |bs[j].tagIds| > 0)
    && (forall j :: 0 < j < |bs| ==> bs[j - 1].id != bs[j].id)
    && (Consistent(done) ==> Expand(bs) == done)
    && (SortedById(done) ==> IncreasingIds(bs))
  }

  predicate IncreasingIds(bs: seq<Banner>) {
    forall j, k :: 0 <= j < k < |bs| ==> bs[j].id < bs[k].id
  }

  lemma IncreasingSnoc(bs: seq<Banner>, b: Banner)
    requires IncreasingIds(bs) && (|bs| > 0 ==> bs[|bs| - 1].id < b.id)
    ensures IncreasingIds(bs + [b])
  {
    var all := bs + [b];
    forall j, k | 0 <= j < k < |all| ensures all[j].id < all[k].id {
      if k < |bs| {
        assert all[j] == bs[j] && all[k] == bs[k];
      } else {
        assert all[j] == bs[j] && all[k] == b;
        assert j == |bs| - 1 || bs[j].id < bs[|bs| - 1].id;
      }
    }
  }

  lemma DistinctSnoc(bs: seq<Banner>, b: Banner)
    requires forall j :: 0 < j < |bs| ==> bs[j - 1].id != bs[j].id
    requires |bs| > 0 ==> bs[|bs| - 1].id != b.id
    ensures var all := bs + [b]; forall j :: 0 < j < |all| ==> all[j - 1].id != all[j].id
  {
    var all := bs + [b];
    forall j | 0 < j < |all| ensures all[j - 1].id != all[j].id {
      assert all[j - 1] == bs[j - 1];
    }
  }

  /** The scan loop: a row with the previous banner's id adds a tag to it, any other row starts a banner. */
  method GroupRows(rows: seq<ScannedRow>) returns (r: Result<seq<Banner>, StoreError>)
    ensures Grouped(rows, r)
  {
    var bs: seq<Banner> := [];
    ghost var done: seq<Row> := [];
    var i := 0;
    while i < |rows|
      invariant 0 <= i <= |rows| && |done| == i
      invariant forall k :: 0 <= k < i ==> rows[k] == Scanned(done[k])
      invariant bs == Group(done)
    {
      if rows[i].ScanFailed? {
        GroupedFailure(rows, i);
        return Failure(Wrap(Comp, Other(rows[i].msg)));
      }
      var row := rows[i].row;
      assert (done + [row])[..|done|] == done;
      forall k | 0 <= k <= i ensures rows[k] == Scanned((done + [row])[k]) {
        if k < i {
          assert (done + [row])[k] == done[k];
        }
      }
      bs := Absorb(bs, row);
      done := done + [row];
      i := i + 1;
    }
    GroupInvariant(done);
    GroupedSuccess(rows, bs, done);
    r := Success(bs);
  }

  /** The banners the scan loop holds after the scanned rows `rows`. */
  function Group(rows: seq<Row>): seq<Banner> {
    if rows == [] then [] else Absorb(Group(rows[..|rows| - 1]), rows[|rows| - 1])
  }

  /** Grouping the scanned rows meets the loop invariant. */
  lemma {:induction false} GroupInvariant(rows: seq<Row>)
    ensures GroupedSoFar(Group(rows), rows)
    decreases |rows|
  {
    if rows != [] {
      var init := rows[..|rows| - 1];
      GroupInvariant(init);
      GroupStep(Group(init), init, rows[|rows| - 1]);
      assert init + [rows[|rows| - 1]] == rows;
    }
  }

  /** No rows give an empty list of banners, not an error. */
  lemma NoRowsNoBanners(r: Result<seq<Banner>, StoreError>)
    requires Grouped([], r)
    ensures r == Success([])
  {
    assert AllScanned([]);
    var bs := r.value;
    if |bs| > 0 {
      ExpandLast(bs);
    }
  }

  /** One scanned row: a row with the previous banner's id adds a tag to it, any other row starts a banner. */
  function Absorb(bs: seq<Banner>, row: Row): seq<Banner> {
    if |bs| > 0 && row.id == bs[|bs| - 1].id then
      bs[..|bs| - 1] + [bs[|bs| - 1].(tagIds := bs[|bs| - 1].tagIds + [row.tagId])]
    else
      bs + [BannerOf(row)]
  }

  lemma GroupStep(bs: seq<Banner>, done: seq<Row>, row: Row)
    requires GroupedSoFar(bs, done)
    ensures GroupedSoFar(Absorb(bs, row), done + [row])
  {
    if |bs| > 0 && row.id == bs[|bs| - 1].id {
      var init, last := bs[..|bs| - 1], bs[|bs| - 1];
      assert bs == init + [last];
      GroupStepSame(init, last, done, row);
    } else {
      GroupStepNew(bs, done, row);
    }
  }

  lemma GroupedFailure(rows: seq<ScannedRow>, i: int)
    requires 0 <= i < |rows| && rows[i].ScanFailed? && forall j :: 0 <= j < i ==> rows[j].Scanned?
    ensures Grouped(rows, Failure(Wrap(Comp, Other(rows[i].msg))))
  {
    assert FirstScanFailure(rows, i);
  }

  lemma GroupedSuccess(rows: seq<ScannedRow>, bs: seq<Banner>, done: seq<Row>)
    requires |done| == |rows| && forall k :: 0 <= k < |rows| ==> rows[k] == Scanned(done[k])
    requires GroupedSoFar(bs, done)
    ensures Grouped(rows, Success(bs))
  {
    assert done == RowValues(rows);
  }

  /** A row with the previous banner's id extends it. */
  lemma GroupStepSame(init: seq<Banner>, last: Banner, done: seq<Row>, row: Row)
    requires GroupedSoFar(init + [last], done) && last.id == row.id
    ensures GroupedSoFar(init + [last.(tagIds := last.tagIds + [row.tagId])], done + [row])
  {
    var bs := init + [last];
    var bs' := init + [last.(tagIds := last.tagIds + [row.tagId])];
    ExpandAddTag(init, last, row.tagId);
    ColumnsAppend(Expand(bs), [RowOf(last, row.tagId)]);
    ColumnsAppend(done, [row]);
    assert forall j :: 0 <= j < |init| ==> bs'[j] == bs[j];
    assert bs[|bs| - 1] == last;
    if Consistent(done + [row]) {
      ConsistentExtend(init, last, done, row);
    }
    if SortedById(done + [row]) {
      SortedPrefix(done, row);
    }
  }

  /** Under Consistent, the row for the new tag is the scanned row itself. */
  lemma ConsistentExtend(init: seq<Banner>, last: Banner, done: seq<Row>, row: Row)
    requires |done| > 0 && done[|done| - 1].id == row.id
    requires |last.tagIds| > 0
    requires Consistent(done) ==> Expand(init + [last]) == done
    requires Consistent(done + [row])
    ensures Consistent(done) && RowOf(last, row.tagId) == row
  {
    var bs := init + [last];
    var n := |done|;
    ConsistentPrefix(done, row);
    var all := done + [row];
    assert all[n - 1] == done[n - 1] && all[n] == row;
    assert bs[|bs| - 1] == last;
    ExpandLast(bs);
    SameBannerRowOf(last, last.tagIds[|last.tagIds| - 1], row);
  }

  /** A row with another id starts a banner. */
  lemma GroupStepNew(bs: seq<Banner>, done: seq<Row>, row: Row)
    requires GroupedSoFar(bs, done)
    requires |bs| > 0 ==> bs[|bs| - 1].id != row.id
    ensures GroupedSoFar(bs + [BannerOf(row)], done + [row])
  {
    var b := BannerOf(row);
    var bs' := bs + [b];
    ExpandSnoc(bs, b);
    assert RowsOf(b) == [row];
    ColumnsAppend(Expand(bs), [row]);
    ColumnsAppend(done, [row]);
    DistinctSnoc(bs, b);
    assert forall j :: 0 <= j < |bs| ==> bs'[j] == bs[j];
    if Consistent(done + [row]) {
      ConsistentPrefix(done, row);
    }
    if SortedById(done + [row]) {
      SortedPrefix(done, row);
      IncreasingSnoc(bs, b);
    }
  }

  /** A row describing the same banner as one of `b`'s rows is `b`'s row for its tag. */
  lemma SameBannerRowOf(b: Banner, t: Int64, row: Row)
    requires SameBanner(RowOf(b, t), row)
    ensures RowOf(b, row.tagId) == row
  {
    assert RowOf(b, t).(tagId := 0) == row.(tagId := 0);
  }

  lemma ConsistentPrefix(done: seq<Row>, row: Row)
    requires Consistent(done + [row])
    ensures Consistent(done)
  {
    var all := done + [row];
    forall k | 0 < k < |done| && done[k - 1].id == done[k].id
      ensures SameBanner(done[k - 1], done[k])
    {
      assert all[k - 1] == done[k - 1] && all[k] == done[k];
    }
  }

  lemma SortedPrefix(done: seq<Row>, row: Row)
    requires SortedById(done + [row])
    ensures SortedById(done)
    ensures |done| > 0 ==> done[|done| - 1].id <= row.id
  {
    var all := done + [row];
    forall j, k | 0 <= j < k < |done| ensures done[j].id <= done[k].id {
      assert all[j] == done[j] && all[k] == done[k];
    }
    if |done| > 0 {
      assert all[|done| - 1] == done[|done| - 1] && all[|done|] == row;
    }
  }

  /** The argument an optional parameter contributes: one when it is set, none when nil. */
  function Present(p: Option<Int64>): seq<SqlArg> {
    if p.Some? then [IntArg(p.value)] else []
  }

  const FeatureCond := " WHERE b.feature_id = "
  const TagCond := " bt.tag_id = "

  /**
   * The WHERE clause for the given filters, its placeholders numbered from
   * `k`: the feature condition binds the feature id, the tag condition the tag
   * id, and AND joins them only when both filters are given.
   */
  function WhereText(featureId: Option<Int64>, tagId: Option<Int64>, k: nat): string {
    match (featureId, tagId)
    case (Some(_), Some(_)) => FeatureCond + ParamText(k, " ") + " AND " + TagCond + ParamText(k + 1, " ")
    case (Some(_), None) => FeatureCond + ParamText(k, " ")
    case (None, Some(_)) => " WHERE " + TagCond + ParamText(k, " ")
    case (None, None) => ""
  }

  /** LIMIT then OFFSET, each only when set, their placeholders numbered from `k`. */
  function PagingText(limit: Option<Int64>, offset: Option<Int64>, k: nat): string {
    match (limit, offset)
    case (Some(_), Some(_)) => " LIMIT " + ParamText(k, " ") + " OFFSET " + ParamText(k + 1, " ")
    case (Some(_), None) => " LIMIT " + ParamText(k, " ")
    case (None, Some(_)) => " OFFSET " + ParamText(k, " ")
    case (None, None) => ""
  }

  /**
   * The text of `getBannersQuery` over a SELECT text `sel` and a JOIN text
   * `join`: the JOIN when a tag is given, then the WHERE clause numbered from
   * 1, then the paging numbered after the filters.
   */
  function InnerText(sel: string, join: string,
                     featureId: Option<Int64>, tagId: Option<Int64>, limit: Option<Int64>, offset: Option<Int64>): string {
    sel + (if tagId.Some? then join else "")
      + WhereText(featureId, tagId, 1)
      + PagingText(limit, offset, 1 + |Present(featureId)| + |Present(tagId)|)
  }

  /** The WHERE clause: the feature condition, then the tag condition, joined by AND when both are set. */
  method WhereFilters(b: Builder, featureId: Option<Int64>, tagId: Option<Int64>) returns (r: Builder)
    ensures r.args == b.args + Present(featureId) + Present(tagId)
    ensures r.sql == b.sql + WhereText(featureId, tagId, |b.args| + 1)
    ensures Numbered(b) ==> Numbered(r)
    ensures featureId.None? && tagId.None? ==> r == b
  {
    var k := |b.args| + 1;
    r := FeatureFilter(b, featureId);
    var b1 := r;
    r := TagFilter(b1, featureId.Some?, tagId);
    WhereExact(b.sql, b1.sql, r.sql, featureId, tagId, k);
  }

  /** The feature condition numbered `k`, when the feature filter is given. */
  function FeaturePart(featureId: Option<Int64>, k: nat): string {
    if featureId.Some? then FeatureCond + ParamText(k, " ") else ""
  }

  /** The tag condition numbered `k`, when the tag filter is given, after AND or starting the WHERE clause. */
  function TagPart(afterFeature: bool, tagId: Option<Int64>, k: nat): string {
    if tagId.Some? then (if afterFeature then " AND " else " WHERE ") + TagCond + ParamText(k, " ") else ""
  }

  lemma WhereExact(s0: string, s1: string, s2: string, featureId: Option<Int64>, tagId: Option<Int64>, k: nat)
    requires s1 == s0 + FeaturePart(featureId, k)
    requires s2 == s1 + TagPart(featureId.Some?, tagId, k + |Present(featureId)|)
    ensures s2 == s0 + WhereText(featureId, tagId, k)
  {
    WhereTextParts(featureId, tagId, k);
    ConcatAssoc(s0, FeaturePart(featureId, k), TagPart(featureId.Some?, tagId, k + |Present(featureId)|));
  }

  lemma WhereTextParts(featureId: Option<Int64>, tagId: Option<Int64>, k: nat)
    ensures WhereText(featureId, tagId, k) == FeaturePart(featureId, k) + TagPart(featureId.Some?, tagId, k + |Present(featureId)|)
  {
    if featureId.Some? && tagId.None? {
      assert FeaturePart(featureId, k) + "" == FeaturePart(featureId, k);
    }
  }

  method FeatureFilter(b: Builder, featureId: Option<Int64>) returns (r: Builder)
    ensures r.args == b.args + Present(featureId)
    ensures r.sql == b.sql + FeaturePart(featureId, |b.args| + 1)
    ensures Numbered(b) ==> Numbered(r)
  {
    ClauseTexts();
    r := b;
    if featureId.Some? {
      r := AddParam(r, FeatureCond, IntArg(featureId.value), " ");
    } else {
      assert b.sql + "" == b.sql && b.args + [] == b.args;
    }
  }

  method TagFilter(b: Builder, afterFeature: bool, tagId: Option<Int64>) returns (r: Builder)
    ensures r.args == b.args + Present(tagId)
    ensures r.sql == b.sql + TagPart(afterFeature, tagId, |b.args| + 1)
    ensures Numbered(b) ==> Numbered(r)
    ensures tagId.None? ==> r == b
  {
    ClauseTexts();
    r := b;
    if tagId.Some? {
      var joiner := if afterFeature then " AND " else " WHERE ";
      r := AddParam(r, joiner + TagCond, IntArg(tagId.value), " ");
    } else {
      assert b.sql + "" == b.sql && b.args + [] == b.args;
    }
  }

  /** The facts about the clause texts that the builder steps need. */
  lemma ClauseTexts()
    ensures NoDollar(FeatureCond) && HasPrefix(FeatureCond, " WHERE ")
    ensures NoDollar(" AND " + TagCond) && NoDollar(" WHERE " + TagCond)
    ensures HasPrefix(" AND " + TagCond, " AND ") && HasPrefix(" WHERE " + TagCond, " WHERE ")
    ensures NoDollar(" LIMIT ") && NoDollar(" OFFSET ")
    ensures HasPrefix(" LIMIT ", " L") && HasPrefix(" OFFSET ", " O")
    ensures Plain(" ") && !IsDigit(' ')
  {
  }

  /** LIMIT and OFFSET, each only when set. */
  method Paging(b: Builder, limit: Option<Int64>, offset: Option<Int64>) returns (r: Builder)
    ensures r.args == b.args + Present(limit) + Present(offset)
    ensures r.sql == b.sql + PagingText(limit, offset, |b.args| + 1)
    ensures Numbered(b) ==> Numbered(r)
    ensures limit.None? && offset.None? ==> r == b
  {
    ClauseTexts();
    var k := |b.args| + 1;
    r := PagingParam(b, " LIMIT ", limit);
    var b1 := r;
    r := PagingParam(b1, " OFFSET ", offset);
    PagingExact(b.sql, b1.sql, r.sql, limit, offset, k);
  }

  /** `text` and the placeholder numbered `k`, when the parameter is given. */
  function OptionalPart(text: string, p: Option<Int64>, k: nat): string {
    if p.Some? then text + ParamText(k, " ") else ""
  }

  lemma PagingExact(s0: string, s1: string, s2: string, limit: Option<Int64>, offset: Option<Int64>, k: nat)
    requires s1 == s0 + OptionalPart(" LIMIT ", limit, k)
    requires s2 == s1 + OptionalPart(" OFFSET ", offset, k + |Present(limit)|)
    ensures s2 == s0 + PagingText(limit, offset, k)
  {
    PagingTextParts(limit, offset, k);
    ConcatAssoc(s0, OptionalPart(" LIMIT ", limit, k), OptionalPart(" OFFSET ", offset, k + |Present(limit)|));
  }

  lemma PagingTextParts(limit: Option<Int64>, offset: Option<Int64>, k: nat)
    ensures PagingText(limit, offset, k) == OptionalPart(" LIMIT ", limit, k) + OptionalPart(" OFFSET ", offset, k + |Present(limit)|)
  {
    if limit.Some? && offset.None? {
      assert OptionalPart(" LIMIT ", limit, k) + "" == OptionalPart(" LIMIT ", limit, k);
    }
  }

  /** One paging parameter: `text` and its placeholder when it is given. */
  method PagingParam(b: Builder, text: string, p: Option<Int64>) returns (r: Builder)
    requires NoDollar(text)
    ensures r.args == b.args + Present(p)
    ensures r.sql == b.sql + OptionalPart(text, p, |b.args| + 1)
    ensures Numbered(b) ==> Numbered(r)
    ensures p.None? ==> r == b
  {
    ClauseTexts();
    r := b;
    if p.Some? {
      r := AddParam(r, text, IntArg(p.value), " ");
    } else {
      assert b.sql + "" == b.sql && b.args + [] == b.args;
    }
  }

  /**
   * `getBannersQuery`: the inner SELECT over table banner, joined with
   * banner_tag only when a tag is given, with one positional argument per
   * non-nil parameter, in the order feature, tag, limit, offset.
   */
  method GetBannersQuery(featureId: Option<Int64>, tagId: Option<Int64>, limit: Option<Int64>, offset: Option<Int64>)
    returns (r: Builder)
    ensures r.args == Present(featureId) + Present(tagId) + Present(limit) + Present(offset)
    ensures r.sql == InnerText(SelectFromBanner, JoinBannerTag, featureId, tagId, limit, offset)
    ensures Numbered(r)
    ensures HasPrefix(r.sql, SelectFromBanner)
    ensures HasPrefix(r.sql[|SelectFromBanner|..], JoinBannerTag) <==> tagId.Some?
    ensures var filters := r.sql[|SelectFromBanner| + (if tagId.Some? then |JoinBannerTag| else 0)..];
      HasPrefix(filters, " WHERE ") <==> featureId.Some? || tagId.Some?
  {
    SelectFromBannerPlain();
    JoinBannerTagPlain();
    JoinStartsWithJ();
    r := FilteredSelect(SelectFromBanner, JoinBannerTag, featureId, tagId, limit, offset);
  }

  /** GetBannersQuery over any plain SELECT text `sel` and JOIN text `join`. */
  method FilteredSelect(sel: string, join: string,
                        featureId: Option<Int64>, tagId: Option<Int64>, limit: Option<Int64>, offset: Option<Int64>)
    returns (r: Builder)
    requires Plain(sel) && Plain(join) && |join| > 1 && join[1] == 'J'
    ensures r.args == Present(featureId) + Present(tagId) + Present(limit) + Present(offset)
    ensures r.sql == sel + (if tagId.Some? then join else "")
      + WhereText(featureId, tagId, 1)
      + PagingText(limit, offset, 1 + |Present(featureId)| + |Present(tagId)|)
    ensures Numbered(r)
    ensures HasPrefix(r.sql, sel)
    ensures HasPrefix(r.sql[|sel|..], join) <==> tagId.Some?
    ensures var filters := r.sql[|sel| + (if tagId.Some? then |join| else 0)..];
      HasPrefix(filters, " WHERE ") <==> featureId.Some? || tagId.Some?
  {
    var b := SelectJoin(sel, join, tagId.Some?);
    var b1 := b;
    b := WhereFilters(b, featureId, tagId);
    var b2 := b;
    r := Paging(b, limit, offset);
    ArgsChain(b1.args, b2.args, r.args, Present(featureId), Present(tagId), Present(limit), Present(offset));
    assert |b2.args| + 1 == 1 + |Present(featureId)| + |Present(tagId)|;
    FilteredShape(r.sql, sel, join, featureId, tagId, limit, offset);
  }

  /** Where the JOIN and the WHERE land in the text `FilteredSelect` writes. */
  lemma FilteredShape(s: string, sel: string, join: string,
                      featureId: Option<Int64>, tagId: Option<Int64>, limit: Option<Int64>, offset: Option<Int64>)
    requires |join| > 1 && join[1] == 'J'
    requires s == sel + (if tagId.Some? then join else "")
      + WhereText(featureId, tagId, 1)
      + PagingText(limit, offset, 1 + |Present(featureId)| + |Present(tagId)|)
    ensures HasPrefix(s, sel)
    ensures HasPrefix(s[|sel|..], join) <==> tagId.Some?
    ensures HasPrefix(s[|sel| + (if tagId.Some? then |join| else 0)..], " WHERE ") <==> featureId.Some? || tagId.Some?
  {
    var k := 1 + |Present(featureId)| + |Present(tagId)|;
    WhereTextStarts(featureId, tagId, 1);
    PagingTextStarts(limit, offset, k);
    ShapeOf(s, sel, join, WhereText(featureId, tagId, 1), PagingText(limit, offset, k),
            featureId.Some? || tagId.Some?, tagId.Some?);
  }

  /** The shape argument over the pieces of the text: the SELECT, the optional JOIN, the WHERE text `w` and the paging text `p`. */
  lemma ShapeOf(s: string, sel: string, join: string, w: string, p: string, filtered: bool, joined: bool)
    requires s == sel + (if joined then join else "") + w + p
    requires |join| > 1 && join[1] == 'J'
    requires filtered ==> HasPrefix(w, " WHERE ")
    requires !filtered ==> w == ""
    requires p == "" || HasPrefix(p, " L") || HasPrefix(p, " O")
    requires joined ==> filtered
    ensures HasPrefix(s, sel)
    ensures HasPrefix(s[|sel|..], join) <==> joined
    ensures HasPrefix(s[|sel| + (if joined then |join| else 0)..], " WHERE ") <==> filtered
  {
    var s1 := sel + (if joined then join else "");
    var s2 := s1 + w;
    PrefixOfConcat(s1, w);
    PrefixOfConcat(s2, p);
    if !filtered {
      assert s2 == s1;
    }
    FiltersShape(sel, join, s1, s2, s, filtered, joined);
  }

  lemma PrefixOfConcat(a: string, b: string)
    ensures HasPrefix(a + b, a) && (a + b)[|a|..] == b
  {
    assert (a + b)[..|a|] == a;
  }

  lemma PrefixExtend(x: string, y: string, p: string)
    requires HasPrefix(x, p)
    ensures HasPrefix(x + y, p)
  {
    assert (x + y)[..|p|] == x[..|p|];
  }

  /** The WHERE clause is empty without filters and starts with " WHERE " otherwise. */
  lemma WhereTextStarts(featureId: Option<Int64>, tagId: Option<Int64>, k: nat)
    ensures featureId.None? && tagId.None? ==> WhereText(featureId, tagId, k) == ""
    ensures featureId.Some? || tagId.Some? ==> HasPrefix(WhereText(featureId, tagId, k), " WHERE ")
  {
    ClauseTexts();
    if featureId.Some? {
      var x := FeatureCond + ParamText(k, " ");
      PrefixExtend(FeatureCond, ParamText(k, " "), " WHERE ");
      if tagId.Some? {
        PrefixExtend(x, " AND ", " WHERE ");
        PrefixExtend(x + " AND ", TagCond, " WHERE ");
        PrefixExtend(x + " AND " + TagCond, ParamText(k + 1, " "), " WHERE ");
      }
    } else if tagId.Some? {
      PrefixOfConcat(" WHERE ", TagCond);
      PrefixExtend(" WHERE " + TagCond, ParamText(k, " "), " WHERE ");
    }
  }

  /** The paging text is empty or starts with " LIMIT " or " OFFSET ". */
  lemma PagingTextStarts(limit: Option<Int64>, offset: Option<Int64>, k: nat)
    ensures var p := PagingText(limit, offset, k);
      p == "" || HasPrefix(p, " L") || HasPrefix(p, " O")
  {
    ClauseTexts();
    if limit.Some? {
      var x := " LIMIT " + ParamText(k, " ");
      PrefixExtend(" LIMIT ", ParamText(k, " "), " L");
      if offset.Some? {
        PrefixExtend(x, " OFFSET ", " L");
        PrefixExtend(x + " OFFSET ", ParamText(k + 1, " "), " L");
      }
    } else if offset.Some? {
      PrefixExtend(" OFFSET ", ParamText(k, " "), " O");
    }
  }

  /** The SELECT text, followed by the JOIN text when a tag is given; nothing bound yet. */
  method SelectJoin(sel: string, join: string, joined: bool) returns (b: Builder)
    requires Plain(sel) && Plain(join)
    ensures b.args == [] && Numbered(b)
    ensures b.sql == sel + (if joined then join else "")
  {
    NoDollarHasNoPlaceholders(sel);
    b := Builder(sel, []);
    if joined {
      b := AppendText(b, join);
    } else {
      assert sel + "" == sel;
    }
  }

  lemma ConcatAssoc<T>(a: seq<T>, b: seq<T>, c: seq<T>)
    ensures (a + b) + c == a + (b + c)
  {
  }

  lemma ArgsChain<T>(s1: seq<T>, s2: seq<T>, s3: seq<T>, f: seq<T>, t: seq<T>, l: seq<T>, o: seq<T>)
    requires s1 == [] && s2 == s1 + f + t && s3 == s2 + l + o
    ensures s3 == f + t + l + o
  {
  }

  lemma JoinStartsWithJ()
    ensures |JoinBannerTag| > 1 && JoinBannerTag[1] == 'J'
  {
    assert JoinBannerTag[1] == Join1[1];
  }

  /**
   * The shape argument of GetBannersQuery, over arbitrary text: `s1` is the
   * SELECT with the optional JOIN, `s2` adds the WHERE clause, `s3` the paging.
   */
  lemma FiltersShape(sel: string, join: string, s1: string, s2: string, s3: string, filtered: bool, joined: bool)
    requires |join| > 1 && join[1] == 'J'
    requires s1 == sel + (if joined then join else "")
    requires HasPrefix(s2, s1) && HasPrefix(s3, s2)
    requires !filtered ==> s2 == s1
    requires filtered ==> HasPrefix(s2[|s1|..], " WHERE ")
    requires s3 == s2 || HasPrefix(s3[|s2|..], " L") || HasPrefix(s3[|s2|..], " O")
    requires joined ==> filtered
    ensures HasPrefix(s3, sel)
    ensures HasPrefix(s3[|sel|..], join) <==> joined
    ensures HasPrefix(s3[|s1|..], " WHERE ") <==> filtered
  {
    assert HasPrefix(s1, sel) by {
      assert s1[..|sel|] == sel;
    }
    SuffixSplit(s1, s2, s3);
    SuffixSplit(sel, s1, s3);
    var filters := s3[|s1|..];
    if filtered {
      assert filters[..7] == s2[|s1|..][..7];
    } else {
      assert filters == s3[|s2|..];
      if s3 != s2 {
        assert filters[1] == 'L' || filters[1] == 'O';
      }
    }
    if joined {
      assert s1[|sel|..] == join;
      assert s3[|sel|..][..|join|] == join;
    } else {
      assert s3[|sel|..] == filters;
    }
  }

  /** The whole list query for the given parameters: the inner query wrapped as a CTE, ordered by banner then tag. */
  function ReadManyText(featureId: Option<Int64>, tagId: Option<Int64>, limit: Option<Int64>, offset: Option<Int64>): string {
    WithBanners + InnerText(SelectFromBanner, JoinBannerTag, featureId, tagId, limit, offset) + ReadManyTail
  }

  /** `buildReadManyQuery`: the inner query wrapped as a CTE, ordered by banner then tag. */
  method BuildReadManyQuery(featureId: Option<Int64>, tagId: Option<Int64>, limit: Option<Int64>, offset: Option<Int64>)
    returns (r: Builder)
    ensures r.args == Present(featureId) + Present(tagId) + Present(limit) + Present(offset)
    ensures r.sql == ReadManyText(featureId, tagId, limit, offset)
    ensures HasPrefix(r.sql, WithBanners + SelectFromBanner) && HasSuffix(r.sql, ReadManyTail)
    ensures Placeholders(r.sql) == Consecutive(|r.args|)
  {
    var inner := GetBannersQuery(featureId, tagId, limit, offset);
    WrapNumbered(inner);
    r := Builder(WithBanners + inner.sql + ReadManyTail, inner.args);
    WrapShape(WithBanners, SelectFromBanner, inner.sql, ReadManyTail);
  }

  lemma WrapShape(w: string, sel: string, inner: string, tail: string)
    requires HasPrefix(inner, sel)
    ensures HasPrefix(w + inner + tail, w + sel) && HasSuffix(w + inner + tail, tail)
  {
    var s := w + inner + tail;
    assert s[..|w + sel|] == w + sel by {
      assert s[..|w|] == w;
      assert s[|w|..|w| + |sel|] == inner[..|sel|];
    }
    assert s[|s| - |tail|..] == tail;
  }

  lemma Select1Plain() ensures NoDollar(Select1) {}
  lemma Select2Plain() ensures NoDollar(Select2) {}
  lemma Select3Plain() ensures Plain(Select3) {}
  lemma Join1Plain() ensures NoDollar(Join1) {}
  lemma Join2Plain() ensures Plain(Join2) {}
  lemma WithBannersPlain() ensures Plain(WithBanners) {}
  lemma Tail1Plain() ensures NoDollar(Tail1) {}
  lemma Tail2Plain() ensures NoDollar(Tail2) {}
  lemma Tail3Plain() ensures NoDollar(Tail3) {}
  lemma Tail4Plain() ensures NoDollar(Tail4) {}
  lemma Tail5Plain() ensures NoDollar(Tail5) {}
  lemma Tail6Plain() ensures Plain(Tail6) {}

  lemma SelectFromBannerPlain()
    ensures Plain(SelectFromBanner)
  {
    Select1Plain(); Select2Plain(); Select3Plain();
    NoDollarConcat(Select1, Select2);
    PlainConcat(Select1 + Select2, Select3);
  }

  lemma JoinBannerTagPlain()
    ensures Plain(JoinBannerTag)
  {
    Join1Plain(); Join2Plain();
    PlainConcat(Join1, Join2);
  }

  lemma ReadManyTailPlain()
    ensures Plain(ReadManyTail)
  {
    Tail1Plain(); Tail2Plain(); Tail3Plain(); Tail4Plain(); Tail5Plain(); Tail6Plain();
    NoDollarConcat(Tail1, Tail2);
    NoDollarConcat(Tail1 + Tail2, Tail3);
    NoDollarConcat(Tail1 + Tail2 + Tail3, Tail4);
    NoDollarConcat(Tail1 + Tail2 + Tail3 + Tail4, Tail5);
    PlainConcat(Tail1 + Tail2 + Tail3 + Tail4 + Tail5, Tail6);
  }

  lemma WrapNumbered(inner: Builder)
    requires Numbered(inner)
    ensures Placeholders(WithBanners + inner.sql + ReadManyTail) == Consecutive(|inner.args|)
  {
    WithBannersPlain();
    ReadManyTailPlain();
    NoDollarHasNoPlaceholders(WithBanners);
    NoDollarHasNoPlaceholders(ReadManyTail);
    PlaceholdersConcat(WithBanners, inner.sql);
    ClosedConcat(WithBanners, inner.sql);
    PlaceholdersConcat(WithBanners + inner.sql, ReadManyTail);
  }
}

=== FILE: read_one.dfy ===
/** The single-banner read of package pgs: one banner and all its tags, or an error. */
module ReadOne {
  import opened Wrappers
  import opened Decimal
  import opened Entity
  import opened Errors
  import opened SqlText
  import opened PgRows

  const Comp := "storage.pgs.BannerByFeatureTag"

  /** The query, with `$1` the feature and `$2` the tag; its layout whitespace is collapsed here. */
  const OneQuery := "WITH banners AS (SELECT id, title, text, url, is_active, feature_id, created_at, updated_at "
    + "FROM banner b JOIN banner_tag bt ON b.id = bt.banner_id WHERE b.feature_id = $1 AND bt.tag_id = $2) "
    + "SELECT id, title, text, url, is_active, feature_id, tag_id, created_at, updated_at "
    + "FROM banners JOIN banner_tag bt ON banners.id = bt.banner_id ORDER BY id, tag_id;"

  /** Rows `0 .. k-1` all scanned and all carry the first row's id. */
  predicate OneBannerUpTo(rows: seq<ScannedRow>, k: int) {
    k <= |rows| && forall j :: 0 <= j < k ==> rows[j].Scanned? && rows[0].Scanned? && rows[j].row.id == rows[0].row.id
  }

  /**
   * `BannerByFeatureTag`: the reply's first row gives the banner, every row
   * gives one tag; no rows is "not found", a row with another id is "not
   * unique", and a failing query or scan reports its error.
   */
  method BannerByFeatureTag(featureId: Int64, tagId: Int64, db: (string, seq<SqlArg>) -> Reply)
    returns (r: Result<Banner, StoreError>)
    ensures var reply := db(OneQuery, [IntArg(featureId), IntArg(tagId)]);
      && (reply.QueryFailed? ==> r == Failure(Other(Comp + ": " + reply.msg)))
      && (reply.Rows? ==> OneBanner(reply.rows, r))
  {
    var reply := db(OneQuery, [IntArg(featureId), IntArg(tagId)]);
    if reply.QueryFailed? {
      return Failure(Wrap(Comp, Other(reply.msg)));
    }
    r := CollectTags(reply.rows);
  }

  /** What the single-banner read promises about the rows it scanned. */
  ghost predicate OneBanner(rows: seq<ScannedRow>, r: Result<Banner, StoreError>) {
    && (rows == [] ==> r == Failure(RepoNotFound))
    && (r.Success? <==> |rows| > 0 && OneBannerUpTo(rows, |rows|))
    && (r.Success? ==> r.value == BannerOf(rows[0].row).(tagIds := TagColumn(rows)))
    && (forall k :: 0 <= k < |rows| && OneBannerUpTo(rows, k) && rows[k].ScanFailed? ==>
          r == Failure(Other(Comp + ": " + rows[k].msg)))
    && (forall k ::
          (0 < k < |rows| && OneBannerUpTo(rows, k) && rows[k].Scanned? && rows[0].Scanned? && rows[k].row.id != rows[0].row.id)
          ==> r == Failure(RepoNotUnique))
  }

  /** The scan loop: the first row fills the banner, later rows only contribute their id and tag. */
  method CollectTags(rows: seq<ScannedRow>) returns (r: Result<Banner, StoreError>)
    ensures OneBanner(rows, r)
  {
    if |rows| == 0 {
      return Failure(RepoNotFound);
    }
    if rows[0].ScanFailed? {
      FirstRowFails(rows);
      return Failure(Wrap(Comp, Other(rows[0].msg)));
    }
    var banner := BannerOf(rows[0].row);
    var tagIds := [rows[0].row.tagId];
    var i := 1;
    while i < |rows|
      invariant 1 <= i <= |rows| && |tagIds| == i
      invariant OneBannerUpTo(rows, i)
      invariant forall j :: 0 <= j < i ==> tagIds[j] == rows[j].row.tagId
    {
      if rows[i].ScanFailed? {
        LaterRowFails(rows, i);
        return Failure(Wrap(Comp, Other(rows[i].msg)));
      }
      if rows[i].row.id != banner.id {
        LaterRowDiffers(rows, i);
        return Failure(Wrap(Comp, RepoNotUnique));
      }
      tagIds := tagIds + [rows[i].row.tagId];
      i := i + 1;
    }
    r := Success(banner.(tagIds := tagIds));
    AllOneBanner(rows, r.value);
  }

  lemma FirstRowFails(rows: seq<ScannedRow>)
    requires |rows| > 0 && rows[0].ScanFailed?
    ensures OneBanner(rows, Failure(Other(Comp + ": " + rows[0].msg)))
  {
    assert !OneBannerUpTo(rows, |rows|);
  }

  lemma LaterRowFails(rows: seq<ScannedRow>, i: int)
    requires 0 < i < |rows| && OneBannerUpTo(rows, i) && rows[i].ScanFailed?
    ensures OneBanner(rows, Failure(Other(Comp + ": " + rows[i].msg)))
  {
    assert !rows[i].Scanned?;
    FirstBreakUnique(rows, i);
  }

  lemma LaterRowDiffers(rows: seq<ScannedRow>, i: int)
    requires 0 < i < |rows| && OneBannerUpTo(rows, i) && rows[i].Scanned? && rows[i].row.id != rows[0].row.id
    ensures OneBanner(rows, Failure(RepoNotUnique))
  {
    FirstBreakUnique(rows, i);
  }

  /** Row `i` is the first to break the run, so no other row is. */
  lemma FirstBreakUnique(rows: seq<ScannedRow>, i: int)
    requires 0 < i < |rows| && OneBannerUpTo(rows, i)
    requires rows[i].ScanFailed? || rows[i].row.id != rows[0].row.id
    ensures !OneBannerUpTo(rows, |rows|)
    ensures forall k :: 0 <= k < |rows| && OneBannerUpTo(rows, k) && (rows[k].ScanFailed? || rows[k].row.id != rows[0].row.id) ==> k == i
  {
  }

  lemma AllOneBanner(rows: seq<ScannedRow>, b: Banner)
    requires |rows| > 0 && OneBannerUpTo(rows, |rows|)
    requires b == BannerOf(rows[0].row).(tagIds := TagColumn(rows))
    ensures OneBanner(rows, Success(b))
  {
  }
}

=== FILE: redis_cache.dfy ===
/**
 * Package redis: items stored as JSON under string keys, with a status that
 * tells a present value apart from a miss and from a cached "does not exist".
 * The redis server is a map from key to stored entry plus an optional
 * connection failure; the JSON encoding is taken to be a faithful round trip,
 * so a stored entry is either an encoded item or a payload that does not
 * decode.
 */
module RedisCache {
  import opened Wrappers
  import opened Decimal

  /** Go `type Status int`: any 64-bit value, of which three are named. */
  newtype Status = x: int | MinInt64 <= x <= MaxInt64

  /** The item persists in the cache. */
  const StatusExists: Status := 0
  /** The item is not in the cache; the database may still have it. */
  const StatusNotFound: Status := 1
  /** The item is known to exist nowhere: a negative cache entry. */
  const StatusNotExists: Status := 2

  /** What is stored: a value and its status. */
  datatype CacheItem<T> = CacheItem(value: T, status: Status)

  /** What the server holds under a key: an encoded item, or bytes that do not decode as one. */
  datatype Payload<T> = Json(item: CacheItem<T>) | Malformed(reason: string)

  /** A stored payload with the expiry it was written with (in nanoseconds). */
  datatype Entry<T> = Entry(payload: Payload<T>, ttl: int)

  /** The server as the client sees it: `failure` is the error every command reports while it is unreachable. */
  datatype Backend<T> = Backend(failure: Option<string>, entries: map<string, Entry<T>>)

  const GetComp := "cache.redis.Get"
  const SetComp := "cache.redis.Set"

  /** `NewCacheItem`: an item holding exactly the given value and status. */
  function NewCacheItem<T>(value: T, status: Status): (item: CacheItem<T>)
    ensures item.value == value && item.status == status
  {
    CacheItem(value, status)
  }

  /**
   * `Get`: a missing key is a miss (zero value, StatusNotFound) and not an
   * error; a failing server or a payload that does not decode is an error
   * and no item.
   */
  function Get<T>(c: Backend<T>, key: string, zero: T): (r: Result<CacheItem<T>, string>)
    ensures c.failure.Some? ==> r == Failure(GetComp + ": " + c.failure.value)
    ensures c.failure.None? && key !in c.entries ==> r == Success(CacheItem(zero, StatusNotFound))
    ensures c.failure.None? && key in c.entries ==> match c.entries[key].payload
      case Json(item) => r == Success(item)
      case Malformed(reason) => r == Failure(GetComp + ": " + reason)
  {
    if c.failure.Some? then Failure(GetComp + ": " + c.failure.value)
    else if key !in c.entries then Success(NewCacheItem(zero, StatusNotFound))
    else match c.entries[key].payload
      case Json(item) => Success(item)
      case Malformed(reason) => Failure(GetComp + ": " + reason)
  }

  /**
   * `Set`: encodes the item and writes it under the key with the given
   * expiry. `marshalError` is what `json.Marshal` reports for the item, if
   * anything; an encoding or server failure is returned and nothing is
   * written.
   */
  function Set<T>(c: Backend<T>, key: string, item: CacheItem<T>, ttl: int, marshalError: Option<string>)
    : (r: (Backend<T>, Option<string>))
    ensures r.1.None? <==> marshalError.None? && c.failure.None?
    ensures marshalError.Some? ==> r.1 == Some(SetComp + ": " + marshalError.value)
    ensures r.1.Some? ==> r.0 == c
    ensures r.1.None? ==> r.0.failure == c.failure && key in r.0.entries && r.0.entries[key] == Entry(Json(item), ttl)
    ensures forall k :: k != key ==> (k in r.0.entries <==> k in c.entries)
    ensures forall k :: k != key && k in c.entries ==> r.0.entries[k] == c.entries[k]
  {
    if marshalError.Some? then (c, Some(SetComp + ": " + marshalError.value))
    else if c.failure.Some? then (c, Some(SetComp + ": " + c.failure.value))
    else (c.(entries := c.entries[key := Entry(Json(item), ttl)]), None)
  }

  /** A successful `Set` is read back by `Get` as the same item. */
  lemma GetAfterSet<T>(c: Backend<T>, key: string, item: CacheItem<T>, ttl: int, zero: T)
    requires Set(c, key, item, ttl, None).1.None?
    ensures Get(Set(c, key, item, ttl, None).0, key, zero) == Success(item)
  {
  }

  /** A `Set` under one key leaves what `Get` reads under every other key as it was. */
  lemma SetKeepsOtherKeys<T>(c: Backend<T>, key: string, other: string, item: CacheItem<T>, ttl: int,
                             marshalError: Option<string>, zero: T)
    requires other != key
    ensures Get(Set(c, key, item, ttl, marshalError).0, other, zero) == Get(c, other, zero)
  {
  }

  /** A failed `Set` changes nothing that `Get` can observe. */
  lemma FailedSetInvisible<T>(c: Backend<T>, key: string, item: CacheItem<T>, ttl: int,
                              marshalError: Option<string>, k: string, zero: T)
    requires Set(c, key, item, ttl, marshalError).1.Some?
    ensures Get(Set(c, key, item, ttl, marshalError).0, k, zero) == Get(c, k, zero)
  {
  }
}

=== FILE: repo.dfy ===
/**
 * The storage interfaces the services are written against (package repo).
 * A collaborator is a function from its arguments to its answer; the
 * context argument carries nothing the model needs.
 */
module Repo {
  import opened Wrappers
  import opened Decimal
  import opened Entity
  import opened Errors

  /** The optional filters of a list read: Go passes each as a pointer, nil meaning "not given". */
  datatype ListQuery = ListQuery(
    featureId: Option<Int64>,
    tagId: Option<Int64>,
    limit: Option<Int64>,
    offset: Option<Int64>,
    useLastRevision: Option<bool>)

  /** `BannersByFeatureTag` of a reader: banners, or an error. */
  type ListReader = ListQuery -> Result<seq<Banner>, StoreError>

  /** A single-banner read `(featureID, tagID, useLastRevision)` as the storage layer answers it. */
  type StoreReader = (Int64, Int64, bool) -> Result<Banner, StoreError>

  /**
   * A single-banner read as the services see it: Go's `(*Banner, error)`,
   * where a nil banner with a nil error is possible, so a success may hold
   * no banner.
   */
  type BannerReader = (Int64, Int64, bool) -> Result<Option<Banner>, StoreError>

  /** A storage answer seen through Go's pointer result: a success always holds a banner. */
  function Lift(a: Result<Banner, StoreError>): (r: Result<Option<Banner>, StoreError>)
    ensures r.Success? <==> a.Success?
    ensures a.Success? ==> r.value == Some(a.value)
    ensures a.Failure? ==> r.error == a.error
  {
    match a
    case Success(b) => Success(Some(b))
    case Failure(e) => Failure(e)
  }
}

=== FILE: sql_text.dfy ===
/**
 * A reference reading of SQL text that is independent of the query builders:
 * the sequence of positional placeholders `$k` in the order they appear.
 * The builders are proved to emit `$1, $2, ..., $n` for their n arguments,
 * which is what makes placeholder `$k` refer to argument k - 1.
 */
module SqlText {
  import opened Decimal
  import opened Strings

  /** The length of the leading run of decimal digits of `s`. */
  function DigitRun(s: string): (n: nat)
    ensures n <= |s|
    ensures AllDigits(s[..n])
    ensures n < |s| ==> !IsDigit(s[n])
    decreases |s|
  {
    if |s| == 0 || !IsDigit(s[0]) then 0 else 1 + DigitRun(s[1..])
  }

  /** The numbers of the `$<digits>` placeholders of `q`, left to right. */
  function Placeholders(q: string): seq<nat>
    decreases |q|
  {
    if |q| == 0 then []
    else if q[0] == '$' && DigitRun(q[1..]) > 0 then
      var rest := q[1..];
      var n := DigitRun(rest);
      [DigitsValue(rest[..n])] + Placeholders(rest[n..])
    else Placeholders(q[1..])
  }

  /** `$1, $2, ..., $n`. */
  function Consecutive(n: nat): (r: seq<nat>)
    ensures |r| == n && forall i :: 0 <= i < n ==> r[i] == i + 1
  {
    seq(n, i => i + 1)
  }

  predicate NoDollar(s: string) {
    forall i :: 0 <= i < |s| ==> s[i] != '$'
  }

  /** Text that cannot end in the middle of a placeholder. */
  predicate Closed(s: string) {
    |s| == 0 || (s[|s| - 1] != '$' && !IsDigit(s[|s| - 1]))
  }

  lemma {:induction false} NoDollarHasNoPlaceholders(s: string)
    requires NoDollar(s)
    ensures Placeholders(s) == []
    decreases |s|
  {
    if |s| > 0 {
      NoDollarHasNoPlaceholders(s[1..]);
    }
  }

  lemma {:induction false} DigitRunConcat(x: string, y: string)
    requires DigitRun(x) < |x|
    ensures DigitRun(x + y) == DigitRun(x)
    decreases |x|
  {
    if IsDigit(x[0]) {
      assert (x + y)[1..] == x[1..] + y;
      DigitRunConcat(x[1..], y);
    }
  }

  /** Placeholders of two pieces of text, the first one closed, are those of each piece in turn. */
  lemma {:induction false} PlaceholdersConcat(a: string, b: string)
    requires Closed(a)
    ensures Placeholders(a + b) == Placeholders(a) + Placeholders(b)
    decreases |a|, 1
  {
    if |a| == 0 {
      assert a + b == b;
    } else if a[0] == '$' && DigitRun(a[1..]) > 0 {
      ConcatAtPlaceholder(a, b);
    } else {
      ConcatAtOther(a, b);
    }
  }

  lemma {:induction false} ConcatAtPlaceholder(a: string, b: string)
    requires Closed(a) && |a| > 0 && a[0] == '$' && DigitRun(a[1..]) > 0
    ensures Placeholders(a + b) == Placeholders(a) + Placeholders(b)
    decreases |a|, 0
  {
    var a1 := a[1..];
    DollarInClosed(a);
    DigitRunConcat(a1, b);
    var n := DigitRun(a1);
    assert (a + b)[1..] == a1 + b;
    assert (a1 + b)[..n] == a1[..n];
    assert (a1 + b)[n..] == a1[n..] + b;
    PlaceholdersConcat(a1[n..], b);
  }

  lemma {:induction false} ConcatAtOther(a: string, b: string)
    requires Closed(a) && |a| > 0 && !(a[0] == '$' && DigitRun(a[1..]) > 0)
    ensures Placeholders(a + b) == Placeholders(a) + Placeholders(b)
    decreases |a|, 0
  {
    var a1 := a[1..];
    assert (a + b)[1..] == a1 + b;
    if a[0] == '$' {
      DollarInClosed(a);
      DigitRunConcat(a1, b);
    }
    assert Closed(a1) by {
      if |a1| > 0 {
        assert a1[|a1| - 1] == a[|a| - 1];
      }
    }
    PlaceholdersConcat(a1, b);
  }

  /** In closed text a `$` is never last and its digit run stops before the end. */
  lemma DollarInClosed(a: string)
    requires Closed(a) && |a| > 0 && a[0] == '$'
    ensures |a| > 1 && DigitRun(a[1..]) < |a| - 1
    ensures Closed(a[1..][DigitRun(a[1..])..])
  {
    var a1 := a[1..];
    var n := DigitRun(a1);
    assert a1[n..][|a1[n..]| - 1] == a[|a| - 1];
  }

  lemma ClosedConcat(a: string, b: string)
    requires Closed(b) && (|b| > 0 || Closed(a))
    ensures Closed(a + b)
  {
    if |b| == 0 {
      assert a + b == a;
    }
  }

  /** `$k` followed by a non-digit reads as the single placeholder k. */
  lemma PlaceholderThen(k: nat, t: string)
    requires |t| > 0 && !IsDigit(t[0])
    ensures Placeholders("$" + NatToString(k) + t) == [k] + Placeholders(t)
  {
    PlaceholderOfDigits(NatToString(k), t);
    DigitsValueOfNat(k);
  }

  lemma PlaceholderOfDigits(d: string, t: string)
    requires |d| > 0 && AllDigits(d)
    requires |t| > 0 && !IsDigit(t[0])
    ensures Placeholders("$" + d + t) == [DigitsValue(d)] + Placeholders(t)
  {
    var q := "$" + d + t;
    assert q[1..] == d + t;
    DigitRunAllDigits(d, t);
    assert q[1..][..|d|] == d;
    assert q[1..][|d|..] == t;
  }

  lemma {:induction false} DigitRunAllDigits(d: string, t: string)
    requires AllDigits(d)
    requires |t| > 0 && !IsDigit(t[0])
    ensures DigitRun(d + t) == |d|
    decreases |d|
  {
    if |d| == 0 {
      assert d + t == t;
    } else {
      assert (d + t)[1..] == d[1..] + t;
      DigitRunAllDigits(d[1..], t);
    }
  }

  /** A text without `$` contributes nothing and does not disturb what follows. */
  lemma {:induction false} NoDollarPrefix(x: string, y: string)
    requires NoDollar(x)
    ensures Placeholders(x + y) == Placeholders(y)
    decreases |x|
  {
    if |x| == 0 {
      assert x + y == y;
    } else {
      assert (x + y)[1..] == x[1..] + y;
      NoDollarPrefix(x[1..], y);
    }
  }

  lemma NoDollarConcat(a: string, b: string)
    requires NoDollar(a) && NoDollar(b)
    ensures NoDollar(a + b)
  {
  }

  lemma PlainConcat(a: string, b: string)
    requires NoDollar(a) && Plain(b) && |b| > 0
    ensures Plain(a + b)
  {
    assert (a + b)[|a + b| - 1] == b[|b| - 1];
  }

  /** A positional query argument (`any` in the Go code). */
  datatype SqlArg = IntArg(i: int) | TextArg(s: string) | BoolArg(b: bool)

  /** A query under construction (Go's `strings.Builder` plus its `[]any` arguments). */
  datatype Builder = Builder(sql: string, args: seq<SqlArg>)

  /** The placeholders so far are exactly `$1..$n` for the n arguments, and the text ends cleanly. */
  predicate Numbered(b: Builder) {
    Closed(b.sql) && Placeholders(b.sql) == Consecutive(|b.args|)
  }

  /** Text that may be written between or after placeholders. */
  predicate Plain(t: string) {
    NoDollar(t) && Closed(t)
  }

  /** Writes fixed text that holds no placeholder. */
  function AppendText(b: Builder, text: string): (r: Builder)
    requires Plain(text)
    ensures r.args == b.args && r.sql == b.sql + text
    ensures Numbered(b) ==> Numbered(r)
  {
    AppendTextNumbered(b, text);
    Builder(b.sql + text, b.args)
  }

  lemma AppendTextNumbered(b: Builder, text: string)
    requires Plain(text)
    ensures HasPrefix(b.sql + text, b.sql)
    ensures Numbered(b) ==> Numbered(Builder(b.sql + text, b.args))
  {
    assert (b.sql + text)[..|b.sql|] == b.sql;
    if Numbered(b) {
      PlaceholdersConcat(b.sql, text);
      NoDollarHasNoPlaceholders(text);
      ClosedConcat(b.sql, text);
    }
  }

  /**
   * The pattern the builders repeat for each optional parameter: write `text`,
   * then `$` and the decimal of `len(args) + 1`, then `after`, and append `arg`.
   */
  function AddParam(b: Builder, text: string, arg: SqlArg, after: string): (r: Builder)
    requires NoDollar(text)
    requires Plain(after) && |after| > 0 && !IsDigit(after[0])
    ensures r.args == b.args + [arg] && HasPrefix(r.sql, b.sql)
    ensures r.sql == b.sql + (text + ParamText(|b.args| + 1, after))
    ensures HasPrefix(r.sql[|b.sql|..], text)
    ensures Numbered(b) ==> Numbered(r)
  {
    AddParamNumbered(b, text, arg, after);
    AppendedPrefix(b.sql, text, ParamText(|b.args| + 1, after));
    Builder(b.sql + (text + ParamText(|b.args| + 1, after)), b.args + [arg])
  }

  lemma AddParamNumbered(b: Builder, text: string, arg: SqlArg, after: string)
    requires NoDollar(text)
    requires Plain(after) && |after| > 0 && !IsDigit(after[0])
    ensures Numbered(b) ==> Numbered(Builder(b.sql + (text + ParamText(|b.args| + 1, after)), b.args + [arg]))
  {
    var k := |b.args| + 1;
    var tail := ParamText(k, after);
    if Numbered(b) {
      ParamTail(k, after);
      NoDollarPrefix(text, tail);
      PlaceholdersConcat(b.sql, text + tail);
      assert Consecutive(|b.args|) + [k] == Consecutive(k);
      ClosedTail(b.sql, text, tail);
    }
  }

  lemma AppendedPrefix(a: string, text: string, tail: string)
    ensures HasPrefix(a + (text + tail), a)
    ensures HasPrefix((a + (text + tail))[|a|..], text)
  {
    var s := a + (text + tail);
    assert s[..|a|] == a;
    assert s[|a|..] == text + tail;
    assert (text + tail)[..|text|] == text;
  }

  /** `$k` then `after`. */
  function ParamText(k: nat, after: string): string {
    "$" + NatToString(k) + after
  }

  lemma ParamTail(k: nat, after: string)
    requires Plain(after) && |after| > 0 && !IsDigit(after[0])
    ensures Placeholders(ParamText(k, after)) == [k]
    ensures Closed(ParamText(k, after)) && |ParamText(k, after)| > 0
  {
    PlaceholderThen(k, after);
    NoDollarHasNoPlaceholders(after);
    var t := "$" + NatToString(k) + after;
    assert t[|t| - 1] == after[|after| - 1];
  }

  lemma ClosedTail(a: string, text: string, tail: string)
    requires Closed(tail) && |tail| > 0
    ensures Closed(a + (text + tail))
  {
    var s := a + (text + tail);
    assert s[|s| - 1] == tail[|tail| - 1];
  }

  lemma PrefixTrans(x: string, t: string, p: string)
    requires HasPrefix(x, t) && HasPrefix(t, p)
    ensures HasPrefix(x, p)
  {
    assert x[..|p|] == t[..|t|][..|p|];
  }

  /** What a builder appended after an earlier state of itself. */
  lemma SuffixSplit(s1: string, s2: string, s3: string)
    requires HasPrefix(s2, s1) && HasPrefix(s3, s2)
    ensures HasPrefix(s3, s1)
    ensures s3[|s1|..] == s2[|s1|..] + s3[|s2|..]
  {
    assert s3[..|s2|] == s2;
    assert s3[..|s1|] == s2[..|s1|];
  }
}

=== FILE: strings.dfy ===
/** String helpers used by several modules: Go's `strings.Join` and character search. */
module Strings {
  import opened Wrappers

  /** `strings.Join(xs, sep)`: the elements in order with `sep` between neighbours. */
  function Join(xs: seq<string>, sep: string): string
    decreases |xs|
  {
    if |xs| == 0 then ""
    else if |xs| == 1 then xs[0]
    else xs[0] + sep + Join(xs[1..], sep)
  }

  /** Two pieces are joined by one separator. */
  lemma JoinPair(xs: seq<string>, sep: string)
    requires |xs| == 2
    ensures Join(xs, sep) == xs[0] + sep + xs[1]
  {
    assert Join(xs[1..], sep) == xs[1];
  }

  function TotalLength(xs: seq<string>): nat
    decreases |xs|
  {
    if |xs| == 0 then 0 else |xs[0]| + TotalLength(xs[1..])
  }

  /** n pieces are held together by exactly n - 1 separators. */
  lemma {:induction false} JoinLength(xs: seq<string>, sep: string)
    requires |xs| > 0
    ensures |Join(xs, sep)| == TotalLength(xs) + (|xs| - 1) * |sep|
    decreases |xs|
  {
    if |xs| > 1 {
      JoinLength(xs[1..], sep);
    }
  }

  /** Appending one more piece adds one separator and the piece at the end. */
  lemma {:induction false} JoinSnoc(xs: seq<string>, x: string, sep: string)
    requires |xs| > 0
    ensures Join(xs + [x], sep) == Join(xs, sep) + sep + x
    decreases |xs|
  {
    if |xs| == 1 {
      assert xs + [x] == [xs[0], x];
      assert (xs + [x])[1..] == [x];
    } else {
      assert (xs + [x])[1..] == xs[1..] + [x];
      JoinSnoc(xs[1..], x, sep);
    }
  }

  predicate HasPrefix(s: string, p: string) {
    |p| <= |s| && s[..|p|] == p
  }

  predicate HasSuffix(s: string, p: string) {
    |p| <= |s| && s[|s| - |p|..] == p
  }

  /** The index of the first occurrence of `c` in `s`, if any. */
  function FirstIndexOf(s: string, c: char): (r: Option<nat>)
    ensures r.Some? ==> r.value < |s| && s[r.value] == c && c !in s[..r.value]
    ensures r.None? ==> c !in s
    decreases |s|
  {
    if |s| == 0 then None
    else if s[0] == c then Some(0)
    else
      match FirstIndexOf(s[1..], c)
      case None => None
      case Some(i) => Some(i + 1)
  }

  /** The first `c` after a `c`-free prefix is the one right after that prefix. */
  lemma FirstIndexAfterPrefix(a: string, c: char, b: string)
    requires c !in a
    ensures FirstIndexOf(a + [c] + b, c) == Some(|a|)
  {
    var s := a + [c] + b;
    assert s[|a|] == c;
    assert s[..|a|] == a;
  }
}

=== FILE: update_dto.dfy ===
/**
 * The update request body of the first code generation (package
 * internal/model/dto/banner) and its conversion to an updatable banner.
 */
module ModelDto {
  import opened Wrappers
  import opened Decimal
  import opened Entity

  datatype UpdateContent = UpdateContent(title: Option<string>, text: Option<string>, url: Option<string>)

  /** Every field optional; a missing `content` leaves title, text and url all unset. */
  datatype UpdateDTO = UpdateDTO(
    tagIds: Option<seq<Int64>>,
    featureId: Option<Int64>,
    content: Option<UpdateContent>,
    isActive: Option<bool>)

  /** `UpdateDTO.ToModel(id)`. */
  function ToModel(d: UpdateDTO, id: Int64): (b: UpdatableBanner)
    ensures b.id == id
    ensures d.content.None? ==> b.title.None? && b.text.None? && b.url.None?
    ensures d.content.Some? ==>
      b.title == d.content.value.title && b.text == d.content.value.text && b.url == d.content.value.url
    ensures b.featureId == d.featureId && b.isActive == d.isActive && b.tagIds == d.tagIds
    ensures b.createdAt.None? && b.updatedAt.None?
  {
    var (title, text, url) :=
      if d.content.Some? then (d.content.value.title, d.content.value.text, d.content.value.url)
      else (None, None, None);
    UpdatableBanner(id, title, text, url, d.featureId, d.isActive, d.tagIds, None, None)
  }

  /** A content object with nothing in it says no more than no content object. */
  function Normalize(d: UpdateDTO): (n: UpdateDTO)
    ensures n.content != Some(UpdateContent(None, None, None))
  {
    if d.content == Some(UpdateContent(None, None, None)) then d.(content := None) else d
  }

  /** The request body an updatable banner comes from, with content present only when it carries something. */
  function FromModel(b: UpdatableBanner): (d: UpdateDTO)
    ensures d.content != Some(UpdateContent(None, None, None))
  {
    var content := if b.title.None? && b.text.None? && b.url.None? then None
                   else Some(UpdateContent(b.title, b.text, b.url));
    UpdateDTO(b.tagIds, b.featureId, content, b.isActive)
  }

  /** Converting and reading back gives the request up to an empty content object. */
  lemma FromToModel(d: UpdateDTO, id: Int64)
    ensures FromModel(ToModel(d, id)) == Normalize(d)
  {
  }

  /** Every updatable banner without timestamps is the conversion of some request. */
  lemma ToFromModel(b: UpdatableBanner)
    requires b.createdAt.None? && b.updatedAt.None?
    ensures ToModel(FromModel(b), b.id) == b
  {
  }

  /** Two requests give the same banner exactly when the ids agree and the requests agree up to an empty content object. */
  lemma ToModelInjective(d1: UpdateDTO, id1: Int64, d2: UpdateDTO, id2: Int64)
    ensures ToModel(d1, id1) == ToModel(d2, id2) <==> id1 == id2 && Normalize(d1) == Normalize(d2)
  {
    if ToModel(d1, id1) == ToModel(d2, id2) {
      FromToModel(d1, id1);
      FromToModel(d2, id2);
    }
  }
}

/**
 * The update request body of the second code generation (package
 * internal/models/dto/banner), declared and converted in the same way; the
 * services use this one.
 */
module ModelsDto {
  import opened Wrappers
  import opened Decimal
  import opened Entity
  import ModelDto

  datatype UpdateContent = UpdateContent(title: Option<string>, text: Option<string>, url: Option<string>)

  datatype UpdateDTO = UpdateDTO(
    tagIds: Option<seq<Int64>>,
    featureId: Option<Int64>,
    content: Option<UpdateContent>,
    isActive: Option<bool>)

  /** `UpdateDTO.ToModel(id)`. */
  function ToModel(d: UpdateDTO, id: Int64): (b: UpdatableBanner)
    ensures b.id == id
    ensures d.content.None? ==> b.title.None? && b.text.None? && b.url.None?
    ensures d.content.Some? ==>
      b.title == d.content.value.title && b.text == d.content.value.text && b.url == d.content.value.url
    ensures b.featureId == d.featureId && b.isActive == d.isActive && b.tagIds == d.tagIds
    ensures b.createdAt.None? && b.updatedAt.None?
  {
    var (title, text, url) :=
      if d.content.Some? then (d.content.value.title, d.content.value.text, d.content.value.url)
      else (None, None, None);
    UpdatableBanner(id, title, text, url, d.featureId, d.isActive, d.tagIds, None, None)
  }

  /** The same request in the first generation's types. */
  function Older(d: UpdateDTO): ModelDto.UpdateDTO {
    var content := match d.content
      case None => None
      case Some(c) => Some(ModelDto.UpdateContent(c.title, c.text, c.url));
    ModelDto.UpdateDTO(d.tagIds, d.featureId, content, d.isActive)
  }

  /** Both generations convert the same request to the same banner. */
  lemma GenerationsAgree(d: UpdateDTO, id: Int64)
    ensures ToModel(d, id) == ModelDto.ToModel(Older(d), id)
  {
  }
}

=== FILE: update_query.dfy ===
/** The banner update of package pgs: the UPDATE statement builder and the transaction's outcomes. */
module UpdateQuery {
  import opened Wrappers
  import opened Decimal
  import opened Strings
  import opened Entity
  import opened Errors
  import opened SqlText
  import opened BannerTag

  const Comp := "storage.pgs.UpdateBanner"
  const UpdatePrefix := "UPDATE banner SET "
  const Touch := "updated_at = NOW()"
  const LockQuery := "SELECT id FROM banner WHERE id = $1 FOR UPDATE;"
  const DeleteTagsQuery := "DELETE FROM banner_tag WHERE banner_id = $1;"
  /** The code Postgres reports for an exception raised by a trigger (`RAISE EXCEPTION`). */
  const TriggerRaised := "P0001"

  /** One `column = $k` assignment of the SET list, with the value it binds. */
  datatype Assignment = Assignment(column: string, arg: SqlArg)

  /** The columns an update may set, in the order the builder writes them. */
  const Columns: seq<string> := ["title", "text", "feature_id", "is_active", "url"]

  /** The value an optional field binds to its column, if it is set. */
  function FieldArg(b: UpdatableBanner, column: string): Option<SqlArg> {
    match column
    case "title" => if b.title.Some? then Some(TextArg(b.title.value)) else None
    case "text" => if b.text.Some? then Some(TextArg(b.text.value)) else None
    case "feature_id" => if b.featureId.Some? then Some(IntArg(b.featureId.value)) else None
    case "is_active" => if b.isActive.Some? then Some(BoolArg(b.isActive.value)) else None
    case "url" => if b.url.Some? then Some(TextArg(b.url.value)) else None
    case _ => None
  }

  /** The assignments for those of `columns` whose field is set, in the order of `columns`. */
  function Select(b: UpdatableBanner, columns: seq<string>): (r: seq<Assignment>)
    ensures |r| <= |columns|
  {
    if columns == [] then []
    else
      SelectHead(b, columns) + Select(b, columns[1..])
  }

  /** The SET list of an update: the set fields, in the order of Columns. */
  function Assignments(b: UpdatableBanner): (r: seq<Assignment>)
    ensures |r| <= |Columns|
  {
    Select(b, Columns)
  }

  /** The position of a column in Columns. */
  function Rank(column: string): nat {
    if column == "title" then 0
    else if column == "text" then 1
    else if column == "feature_id" then 2
    else if column == "is_active" then 3
    else 4
  }

  /** Select keeps only columns whose field is set, each with the field's value. */
  lemma {:induction false} SelectSound(b: UpdatableBanner, columns: seq<string>)
    ensures forall a :: a in Select(b, columns) ==> a.column in columns && FieldArg(b, a.column) == Some(a.arg)
    decreases |columns|
  {
    if columns != [] {
      var tail := columns[1..];
      SelectSound(b, tail);
      var head, rest := SelectHead(b, columns), Select(b, tail);
      var r := Select(b, columns);
      assert r == head + rest;
      assert columns == [columns[0]] + tail;
      forall a | a in r ensures a.column in columns && FieldArg(b, a.column) == Some(a.arg) {
        if a !in rest {
          assert a == head[0];
        }
      }
    }
  }

  /** What Select takes from the first column: its assignment when the field is set. */
  function SelectHead(b: UpdatableBanner, columns: seq<string>): (h: seq<Assignment>)
    requires columns != []
    ensures |h| <= 1
    ensures |h| == 1 <==> FieldArg(b, columns[0]).Some?
    ensures |h| == 1 ==> h[0] == Assignment(columns[0], FieldArg(b, columns[0]).value)
  {
    var field := FieldArg(b, columns[0]);
    if field.Some? then [Assignment(columns[0], field.value)] else []
  }

  /** Select keeps every column whose field is set. */
  lemma {:induction false} SelectComplete(b: UpdatableBanner, columns: seq<string>, c: string)
    requires c in columns && FieldArg(b, c).Some?
    ensures exists a :: a in Select(b, columns) && a.column == c
    decreases |columns|
  {
    var tail := columns[1..];
    var head, rest := SelectHead(b, columns), Select(b, tail);
    var r := Select(b, columns);
    assert r == head + rest;
    if c == columns[0] {
      assert head[0] in r;
    } else {
      assert columns == [columns[0]] + tail;
      SelectComplete(b, tail, c);
      var a :| a in rest && a.column == c;
      assert a in r;
    }
  }

  /** Select keeps the order of `columns`. */
  lemma {:induction false} SelectOrdered(b: UpdatableBanner, columns: seq<string>)
    requires forall i, j :: 0 <= i < j < |columns| ==> Rank(columns[i]) < Rank(columns[j])
    ensures forall i, j :: 0 <= i < j < |Select(b, columns)| ==>
      Rank(Select(b, columns)[i].column) < Rank(Select(b, columns)[j].column)
    decreases |columns|
  {
    if columns != [] {
      var tail := columns[1..];
      assert forall i, j :: 0 <= i < j < |tail| ==> Rank(tail[i]) < Rank(tail[j]) by {
        forall i, j | 0 <= i < j < |tail| ensures Rank(tail[i]) < Rank(tail[j]) {
          assert tail[i] == columns[i + 1] && tail[j] == columns[j + 1];
        }
      }
      SelectOrdered(b, tail);
      HeadBeforeRest(b, columns);
      var head, rest := SelectHead(b, columns), Select(b, tail);
      var r := Select(b, columns);
      assert r == head + rest;
      forall i, j | 0 <= i < j < |r| ensures Rank(r[i].column) < Rank(r[j].column) {
        if i < |head| {
          assert r[i] == head[0] && r[j] == rest[j - |head|];
        } else {
          assert r[i] == rest[i - |head|] && r[j] == rest[j - |head|];
        }
      }
    }
  }

  /** The first column's assignment ranks below everything Select takes from the later columns. */
  lemma HeadBeforeRest(b: UpdatableBanner, columns: seq<string>)
    requires columns != []
    requires forall i, j :: 0 <= i < j < |columns| ==> Rank(columns[i]) < Rank(columns[j])
    ensures forall k :: 0 <= k < |Select(b, columns[1..])| ==> Rank(columns[0]) < Rank(Select(b, columns[1..])[k].column)
  {
    var tail := columns[1..];
    var rest := Select(b, tail);
    SelectSound(b, tail);
    forall k | 0 <= k < |rest| ensures Rank(columns[0]) < Rank(rest[k].column) {
      assert rest[k] in rest;
      var m :| 0 <= m < |tail| && tail[m] == rest[k].column;
      assert tail[m] == columns[m + 1];
    }
  }

  lemma ColumnsIncreasing()
    ensures forall i, j :: 0 <= i < j < |Columns| ==> Rank(Columns[i]) < Rank(Columns[j])
  {
  }

  /**
   * The SET list holds a column exactly when its field is set, binds the
   * field's value to it, and keeps the fixed column order, so no column
   * appears twice.
   */
  lemma AssignmentsExact(b: UpdatableBanner)
    ensures forall a :: a in Assignments(b) ==> a.column in Columns && FieldArg(b, a.column) == Some(a.arg)
    ensures forall c :: c in Columns ==> (FieldArg(b, c).Some? <==> exists a :: a in Assignments(b) && a.column == c)
    ensures forall i, j :: 0 <= i < j < |Assignments(b)| ==> Rank(Assignments(b)[i].column) < Rank(Assignments(b)[j].column)
  {
    ColumnsIncreasing();
    SelectSound(b, Columns);
    SelectOrdered(b, Columns);
    forall c | c in Columns
      ensures FieldArg(b, c).Some? <==> exists a :: a in Assignments(b) && a.column == c
    {
      if FieldArg(b, c).Some? {
        SelectComplete(b, Columns, c);
      }
    }
  }

  /** The arguments the assignments bind, in order. */
  function ArgsOf(assignments: seq<Assignment>): (args: seq<SqlArg>)
    ensures |args| == |assignments|
  {
    seq(|assignments|, i requires 0 <= i < |assignments| => assignments[i].arg)
  }

  /** `column = $k, `: a clause for a known column carries the one placeholder `$k`. */
  function SetClause(a: Assignment, k: nat): (r: string)
    ensures a.column in Columns ==> Placeholders(r) == [k]
  {
    if a.column in Columns then
      ClauseHasItsPlaceholder(a.column, k);
      a.column + " = " + ParamText(k, ", ")
    else
      a.column + " = " + ParamText(k, ", ")
  }

  lemma ClauseHasItsPlaceholder(c: string, k: nat)
    requires c in Columns
    ensures Placeholders(c + " = " + ParamText(k, ", ")) == [k]
  {
    StaticTexts();
    ColumnTextPlain(c);
    NoDollarHasNoPlaceholders(c + " = ");
    ParamTail(k, ", ");
    PlaceholdersConcat(c + " = ", ParamText(k, ", "));
  }

  /** The clauses for a list of assignments, numbered from 1. */
  function SetClauses(assignments: seq<Assignment>): string {
    if assignments == [] then ""
    else SetClauses(assignments[..|assignments| - 1]) + SetClause(assignments[|assignments| - 1], |assignments|)
  }

  const WhereIdText := " WHERE id = "

  /** ` WHERE id = <decimal id>;`: the id is written into the text, not bound, and reads back from it. */
  function WhereId(id: Int64): (r: string)
    ensures Plain(r)
    ensures HasPrefix(r, WhereIdText) && |r| > |WhereIdText| && ParseInt(r[|WhereIdText|..|r| - 1]) == Some(id)
  {
    IdTextReadsBack(id);
    WhereIdText + FormatInt(id) + ";"
  }

  lemma IdTextReadsBack(id: Int64)
    ensures var r := WhereIdText + FormatInt(id) + ";";
      Plain(r) && HasPrefix(r, WhereIdText) && |r| > |WhereIdText| && ParseInt(r[|WhereIdText|..|r| - 1]) == Some(id)
  {
    var r := WhereIdText + FormatInt(id) + ";";
    FormatIntChars(id);
    assert NoDollar(FormatInt(id));
    NoDollarConcat(WhereIdText, FormatInt(id));
    NoDollarConcat(WhereIdText + FormatInt(id), ";");
    assert r[..|WhereIdText|] == WhereIdText;
    assert r[|WhereIdText|..|r| - 1] == FormatInt(id);
    FormatParseRoundTrip(id);
  }

  /**
   * `buildUpdateBannerQuery`: "UPDATE banner SET ", one numbered clause per
   * set field, then "updated_at = NOW()" and the id condition; the arguments
   * are the set fields' values in clause order.
   */
  method BuildUpdateBannerQuery(b: UpdatableBanner) returns (r: Builder)
    ensures r.args == ArgsOf(Assignments(b))
    ensures r.sql == UpdatePrefix + SetClauses(Assignments(b)) + Touch + WhereId(b.id)
    ensures Placeholders(r.sql) == Consecutive(|r.args|)
  {
    AssignmentsColumns(b);
    r := BuildSetList(Assignments(b), b.id);
  }

  /** The builder over any list of assignments to known columns. */
  method BuildSetList(assignments: seq<Assignment>, id: Int64) returns (r: Builder)
    requires forall i :: 0 <= i < |assignments| ==> assignments[i].column in Columns
    ensures r.args == ArgsOf(assignments)
    ensures r.sql == UpdatePrefix + SetClauses(assignments) + Touch + WhereId(id)
    ensures Placeholders(r.sql) == Consecutive(|r.args|)
  {
    StaticTexts();
    NoDollarHasNoPlaceholders(UpdatePrefix);
    forall i | 0 <= i < |assignments|
      ensures NoDollar(assignments[i].column + " = ")
    {
      ColumnTextPlain(assignments[i].column);
    }
    r := WriteClauses(Builder(UpdatePrefix, []), assignments);
    r := AppendText(r, Touch);
    r := AppendText(r, WhereId(id));
  }

  /** Writes one numbered clause per assignment after what the builder holds. */
  method WriteClauses(start: Builder, assignments: seq<Assignment>) returns (r: Builder)
    requires Numbered(start) && start.args == []
    requires forall i :: 0 <= i < |assignments| ==> NoDollar(assignments[i].column + " = ")
    ensures r.args == ArgsOf(assignments)
    ensures r.sql == start.sql + SetClauses(assignments)
    ensures Numbered(r)
  {
    StaticTexts();
    r := start;
    assert assignments[..0] == [];
    var i := 0;
    while i < |assignments|
      invariant 0 <= i <= |assignments|
      invariant Written(start, assignments, i, r)
    {
      WriteStep(start, assignments, i, r);
      r := AddParam(r, assignments[i].column + " = ", assignments[i].arg, ", ");
      i := i + 1;
    }
    assert assignments[..i] == assignments;
  }

  /** The builder holds the first `i` clauses after `start`, with their arguments. */
  ghost predicate Written(start: Builder, assignments: seq<Assignment>, i: nat, r: Builder)
    requires i <= |assignments|
  {
    r.args == ArgsOf(assignments[..i]) && r.sql == start.sql + SetClauses(assignments[..i]) && Numbered(r)
  }

  lemma WriteStep(start: Builder, assignments: seq<Assignment>, i: nat, r: Builder)
    requires i < |assignments| && Written(start, assignments, i, r)
    requires NoDollar(assignments[i].column + " = ")
    ensures Written(start, assignments, i + 1, AddParam(r, assignments[i].column + " = ", assignments[i].arg, ", "))
  {
    StaticTexts();
    ClauseStep(assignments, i);
    var a := assignments[i];
    var clause := a.column + " = " + ParamText(i + 1, ", ");
    var r' := AddParam(r, a.column + " = ", a.arg, ", ");
    assert |r.args| == i;
    assert r'.sql == r.sql + clause;
    ConcatAssoc(start.sql, SetClauses(assignments[..i]), clause);
  }

  lemma ConcatAssoc(a: string, b: string, c: string)
    ensures (a + b) + c == a + (b + c)
  {
  }

  lemma ClauseStep(assignments: seq<Assignment>, i: nat)
    requires i < |assignments|
    ensures ArgsOf(assignments[..i + 1]) == ArgsOf(assignments[..i]) + [assignments[i].arg]
    ensures SetClauses(assignments[..i + 1])
      == SetClauses(assignments[..i]) + (assignments[i].column + " = " + ParamText(i + 1, ", "))
  {
    assert assignments[..i + 1][..i] == assignments[..i];
  }

  lemma AssignmentsColumns(b: UpdatableBanner)
    ensures forall i :: 0 <= i < |Assignments(b)| ==> Assignments(b)[i].column in Columns
  {
    SelectSound(b, Columns);
    assert forall i :: 0 <= i < |Assignments(b)| ==> Assignments(b)[i] in Assignments(b);
  }

  lemma StaticTexts()
    ensures Plain(UpdatePrefix) && Plain(Touch) && Plain(", ") && !IsDigit(',')
  {
  }

  lemma ColumnTextPlain(c: string)
    requires c in Columns
    ensures NoDollar(c + " = ")
  {
  }

  /** What the connection reports at each step of the update transaction. */
  datatype LockReply = Locked | NoRows | LockFailed(msg: string)
  /** A failed commit carries Postgres' error code, or "" when the error is not a Postgres error. */
  datatype CommitReply = Committed | CommitFailed(code: string, msg: string)
  /**
   * `exec` is the error of the batch's FIRST statement only: the batch result
   * is read once, and closing it drops the later statements' (the tag delete
   * and insert) own errors. Their failure still aborts the transaction, so the
   * commit then fails with a rollback error that is not a Postgres error:
   * `commit` is `CommitFailed("", msg)` and the caller gets `msg` under the
   * component name, not success.
   */
  datatype TxReplies = TxReplies(
    begin: Option<string>,
    lock: LockReply,
    exec: Option<string>,
    commit: CommitReply)

  /** The error the update transaction reports for the connection's replies; `None` when it commits. */
  function TxOutcome(tx: TxReplies): Option<StoreError> {
    if tx.begin.Some? then Some(Wrap(Comp, Other(tx.begin.value)))
    else match tx.lock
      case NoRows => Some(Wrap(Comp, RepoNotFound))
      case LockFailed(msg) => Some(Wrap(Comp, Other(msg)))
      case Locked =>
        if tx.exec.Some? then Some(Wrap(Comp, Other(tx.exec.value)))
        else match tx.commit
          case Committed => None
          case CommitFailed(code, msg) =>
            if code == TriggerRaised then Some(Wrap(Comp, RepoAlreadyExists)) else Some(Wrap(Comp, Other(msg)))
  }

  /** The statements of the batch: the UPDATE, and for new tags the delete and the re-insert. */
  method UpdateBatch(b: UpdatableBanner) returns (batch: seq<Builder>)
    ensures b.tagIds.None? ==> |batch| == 1
    ensures b.tagIds.Some? ==> |batch| == 3
    ensures batch[0].args == ArgsOf(Assignments(b))
    ensures batch[0].sql == UpdatePrefix + SetClauses(Assignments(b)) + Touch + WhereId(b.id)
    ensures Placeholders(batch[0].sql) == Consecutive(|batch[0].args|)
    ensures b.tagIds.Some? ==> batch[1] == Builder(DeleteTagsQuery, [IntArg(b.id)])
    ensures b.tagIds.Some? && |b.tagIds.value| == 0 ==> batch[2] == Builder("", [])
    ensures b.tagIds.Some? && |b.tagIds.value| > 0 ==>
      batch[2] == Builder(InsertPrefix + Join(Tuples(b.id, b.tagIds.value), Separator), [])
  {
    var update := BuildUpdateBannerQuery(b);
    batch := [update];
    if b.tagIds.Some? {
      var insert := InsertTagsQuery(b.id, b.tagIds.value);
      batch := batch + [Builder(DeleteTagsQuery, [IntArg(b.id)]), Builder(insert, [])];
    }
  }

  /**
   * `UpdateBanner`: lock the row, send the batch, commit. A missing row is
   * "not found" and sends nothing; a trigger exception at commit is "already
   * exists"; any other failure is reported under the component name.
   */
  method UpdateBanner(b: UpdatableBanner, tx: TxReplies) returns (sent: seq<Builder>, err: Option<StoreError>)
    ensures tx.begin.Some? ==> sent == [] && err == Some(Other(Comp + ": " + tx.begin.value))
    ensures tx.begin.None? && tx.lock.NoRows? ==> sent == [] && err == Some(RepoNotFound)
    ensures tx.begin.None? && tx.lock.LockFailed? ==> sent == [] && err == Some(Other(Comp + ": " + tx.lock.msg))
    ensures tx.begin.None? && tx.lock.Locked? ==>
      && |sent| == (if b.tagIds.Some? then 3 else 1)
      && sent[0].args == ArgsOf(Assignments(b))
      && sent[0].sql == UpdatePrefix + SetClauses(Assignments(b)) + Touch + WhereId(b.id)
      && (b.tagIds.Some? ==> sent[1] == Builder(DeleteTagsQuery, [IntArg(b.id)]))
      && (b.tagIds.Some? && |b.tagIds.value| == 0 ==> sent[2] == Builder("", []))
      && (b.tagIds.Some? && |b.tagIds.value| > 0 ==>
            sent[2] == Builder(InsertPrefix + Join(Tuples(b.id, b.tagIds.value), Separator), []))
      && (tx.exec.Some? ==> err == Some(Other(Comp + ": " + tx.exec.value)))
      && (tx.exec.None? && tx.commit.Committed? ==> err == None)
      && (tx.exec.None? && tx.commit.CommitFailed? && tx.commit.code == TriggerRaised ==> err == Some(RepoAlreadyExists))
      && (tx.exec.None? && tx.commit.CommitFailed? && tx.commit.code != TriggerRaised ==>
            err == Some(Other(Comp + ": " + tx.commit.msg)))
    ensures err == TxOutcome(tx)
  {
    sent := [];
    if tx.begin.Some? {
      return sent, Some(Wrap(Comp, Other(tx.begin.value)));
    }
    match tx.lock {
      case NoRows => return sent, Some(Wrap(Comp, RepoNotFound));
      case LockFailed(msg) => return sent, Some(Wrap(Comp, Other(msg)));
      case Locked =>
    }
    sent := UpdateBatch(b);
    if tx.exec.Some? {
      return sent, Some(Wrap(Comp, Other(tx.exec.value)));
    }
    match tx.commit {
      case Committed => err := None;
      case CommitFailed(code, msg) =>
        err := if code == TriggerRaised then Some(Wrap(Comp, RepoAlreadyExists)) else Some(Wrap(Comp, Other(msg)));
    }
  }
}

=== FILE: wrappers.dfy ===
/** Failure-carrying datatypes shared by every module of the model. */
module Wrappers {

  /** A Go pointer or optional value: `None` stands for nil. */
  datatype Option<+T> = None | Some(value: T)

  /** A Go `(value, error)` pair in which exactly one side is meaningful. */
  datatype Result<+R, +E> = Success(value: R) | Failure(error: E)
}
